=== FILE: README.md ===
# dev tools — a Dafny model

This project models the deterministic logic beneath the `dev`, `dkr` and
`blpt` command-line tools and the `srv` static file server. It also covers
the host setup script and the arithmetic library of the C++ blueprint.
Every subprocess, socket probe, file read and prompt becomes a parameter:

- an oracle such as `running`, `exists_`, `pathExists`, `probe` or `bind`;
- the text a command printed. Only a query that can report failure takes an `Option`, with `None` for the failure. Under `check=False`, `run_command` hands back the text whatever the exit status;
- the line a user typed.

Every command the code issues is recorded in a trace (`Runtime.Run`): the
argument vectors in order, and whether the invocation finished normally,
ended through `sys.exit(1)`, or raised.

The modules follow the source files:

| module | models |
|---|---|
| `Text`, `Assoc` | the `str` and `dict` operations the scripts use (strip, split, replace, find, case mapping, assignment) |
| `Runtime` | `run_command(check=True)` of `dev`: a failing checked command ends the process |
| `DevUtils` | container naming and the `dev.env` parser |
| `DevShell` | the working-directory mapping, the running/stopped/absent dispatch, the `docker run` command line, port filtering and the `--publish-rm` conflict list |
| `Listing`, `Menu` | `docker ps`/`docker images` line parsing and the `q`/`a`/number prompt |
| `DevContainer`, `DevMaintenance` | `dev stop`, `delete`, `exec`, `cleanup`, `prune`, `prune-images`, `update-srv` |
| `DkrUtils`, `DkrConfig`, `DkrStatus`, `DkrRm`, `DkrStop` | the `dkr` listings, dev filter, default tag, status partition, `rm` and `stop` |
| `HostSetup` | `setup.py`: shell detection, the symlink decision, the rc-file edits, the prerequisites, the `main` guards |
| `BlptUtils`, `BlptCreate`, `BlptList`, `BlptInfo` | name validation, suggestions, placeholder substitution, Dockerfile composition, README descriptions, the tree rendering, Cargo/go.mod extraction |
| `SrvConfig`, `SrvServer`, `SrvUtils` | argument parsing, configuration merge and directory resolution, the port search, and the date arithmetic of the modification time |
| `AppLib` | `add`, `subtract` and the truncating `divide` on 32-bit `int` |

## Model

| member | source | states |
|---|---|---|
| AppLib.Add | blueprints/cpp_blueprint_lite/src/app_lib/app_lib.cpp:21-23 | defined where the sum fits in 32 bits; subtracting either operand from the result gives the other |
| AppLib.Subtract | blueprints/cpp_blueprint_lite/src/app_lib/app_lib.cpp:31-33 | defined where the difference fits; adding the subtrahend back gives the minuend |
| AppLib.SubtractUndoesAdd | blueprints/cpp_blueprint_lite/src/app_lib/app_lib.cpp:21-33 | `subtract(add(a, b), b) == a` |
| AppLib.AddUndoesSubtract | blueprints/cpp_blueprint_lite/src/app_lib/app_lib.cpp:21-33 | `add(subtract(a, b), b) == a` |
| AppLib.AddCommutes | blueprints/cpp_blueprint_lite/src/app_lib/app_lib.cpp:21-23 | `add` does not depend on the order of its operands |
| AppLib.SubtractSelf | blueprints/cpp_blueprint_lite/src/app_lib/app_lib.cpp:21-33 | `subtract(x, x) == 0` and 0 is the unit of `add` |
| AppLib.Divide | blueprints/cpp_blueprint_lite/src/app_lib/app_lib.cpp:38-46 | callable only without division by zero and without `INT_MIN / -1`; the result is a quotient rounded toward zero: remainder smaller than the divisor, never of the opposite sign to the dividend |
| AppLib.TruncatedQuotientUnique | blueprints/cpp_blueprint_lite/src/app_lib/app_lib.cpp:42-46 | at most one number is such a truncated quotient |
| AppLib.DivideCharacterised | blueprints/cpp_blueprint_lite/src/app_lib/app_lib.cpp:42-46 | a number is the result of `divide` if and only if it is the truncated quotient |
| AppLib.DivideOdd | blueprints/cpp_blueprint_lite/src/app_lib/app_lib.cpp:42-46 | negating the dividend negates the quotient |
| AppLib.DivideIsNotEuclidean | blueprints/cpp_blueprint_lite/src/app_lib/app_lib.h:54-55 | `divide(-7, 2) == -3`, where Euclidean division gives -4 |
| AppLib.TestedValues | blueprints/cpp_blueprint/test/app_test.cpp:27-88 | the values the blueprint's test suite expects of `add`, `subtract` and `divide` |
| DevUtils.ContainerName | scripts/devcmd/utils.py:35-49 | always starts with `dev-`; `dev-main` for the dev directory itself; otherwise `dev-` and the first 8 characters of the MD5 digest of the directory |
| DevUtils.ContainerNameShape | scripts/devcmd/utils.py:45-49 | the name is `dev-main` if and only if the directory is the dev directory; any other name is 12 characters long |
| DevUtils.KeyValue | scripts/devcmd/utils.py:100-106 | a pair exactly when the stripped line is non-empty, does not start with `#` and holds `=`; blank lines, `#` comments and lines without `=` give no pair |
| DevUtils.KeyValueLine | scripts/devcmd/utils.py:100-106 | a line `k=v` with trimmed parts and no `=` in the key reads back as `(k, v)` |
| DevUtils.MountValue | scripts/devcmd/utils.py:111-116 | a `MOUNT` value describes a mount exactly when it holds a `:` |
| DevUtils.MountFields | scripts/devcmd/utils.py:111-116 | `a:b:c…` is host `expanduser(a)`, container path `b`, options `c`; later fields are ignored |
| DevUtils.ClassifyPair | scripts/devcmd/utils.py:108-140 | an accepted mount names an existing host path; an accepted port mapping is the value verbatim and holds a `:`; every other key is an environment variable |
| DevUtils.Classify | scripts/devcmd/utils.py:99-140 | blank lines, `#` comment lines and lines without `=` contribute nothing; accepted mounts exist; port mappings hold a `:` |
| DevUtils.MountLine | scripts/devcmd/utils.py:108-126 | a `MOUNT=a:b:c` line adds that mount exactly when the expanded host path exists |
| DevUtils.VarLine | scripts/devcmd/utils.py:138-140 | a line with any other key sets that environment variable to the value |
| DevUtils.ApplyEntry | scripts/devcmd/utils.py:128-140 | one line never introduces a duplicate environment key |
| DevUtils.ParseEntries | scripts/devcmd/utils.py:99-140 | the mounts and port mappings are exactly the accepted ones, appended in file order |
| DevUtils.ParseEntriesUnique | scripts/devcmd/utils.py:138-140 | the environment never holds a key twice |
| DevUtils.MountsAccepted | scripts/devcmd/utils.py:118-124 | every mount kept names an existing host path |
| DevUtils.WorkdirLastWins | scripts/devcmd/utils.py:134-136 | the last `DEFAULT_WORKDIR` line decides the working directory |
| DevUtils.WorkdirKept | scripts/devcmd/utils.py:134-136 | without a `DEFAULT_WORKDIR` line the default working directory is kept |
| DevUtils.VarLastWins | scripts/devcmd/utils.py:138-140 | the last assignment of a key gives its value |
| DevUtils.VarKept | scripts/devcmd/utils.py:138-140 | a key no line assigns keeps its value |
| DevUtils.ParseDevEnv | scripts/devcmd/utils.py:77-154 | a missing file gives the empty descriptor, with no fallback mount; otherwise the lines parsed in order, then the fallback; every mount exists; no environment key is repeated |
| DevUtils.FallbackMount | scripts/devcmd/utils.py:142-152 | a file with no accepted mount gets exactly the dev directory mounted at `/home/me/.dev` when that directory exists |
| DevShell.PathJoin | scripts/devcmd/shell.py:100-102 | `os.path.join`: an absolute second part replaces the first; otherwise the result starts with the first and ends with the second |
| DevShell.FirstMount | scripts/devcmd/shell.py:91-99 | the first mount in declaration order whose expanded host path is a plain prefix of the directory, and no earlier one is |
| DevShell.WorkingDirectory | scripts/devcmd/shell.py:77-105 | the default working directory when no mount covers the directory; otherwise the first covering mount's container path joined with the relative path: `.` at the mount point, the rest of the path below it |
| DevShell.WorkdirFirstMountWins | scripts/devcmd/shell.py:91-102 | a later covering mount is never used while an earlier one covers the directory |
| DevShell.WorkdirInsideMount | scripts/devcmd/shell.py:99-102 | for `host/rest` the shell starts at `container/rest` |
| DevShell.WorkdirAtMount | scripts/devcmd/shell.py:99-102 | at the mount point itself the shell starts at the container path joined with `.` |
| DevShell.WorkdirSibling | scripts/devcmd/shell.py:99 | the match is not boundary-aware: a sibling directory whose name extends the host path matches, and the shell starts at a `../` path beside the container path |
| DevShell.VolumeFlagRoundTrip | scripts/devcmd/shell.py:240-244 | when no part holds a `:`, splitting the volume flag on `:` gives back the mount |
| DevShell.PublishFlags | scripts/devcmd/shell.py:247-256 | raises exactly when some mapping's probe raises or a mapping is not `host:container`; otherwise the flags are `--publish=` of the mappings whose host port is free, and only those |
| DevShell.PublishFlagsOne | scripts/devcmd/shell.py:247-256 | a single mapping gives its `--publish=` flag when its host port is free and nothing when it is in use |
| DevShell.PublishFlagsAppend | scripts/devcmd/shell.py:247-256 | the flags of two runs of mappings are the first run's flags followed by the second's: one flag per free mapping, in configuration order |
| DevShell.CreateArgv | scripts/devcmd/shell.py:237-267 | raises exactly when the port filter does; otherwise a `docker run` command line whose port flags are the filtered ones |
| DevShell.CreateArgvLayout | scripts/devcmd/shell.py:237-267 | the name first, one volume flag per mount in declaration order, the image last |
| DevShell.ProbesOnlyChangePublish | scripts/devcmd/shell.py:246-256 | port probes change only the `--publish=` flags: the rest of the command line is the same whatever they answer |
| DevShell.ConflictPorts | scripts/devcmd/shell.py:158-162 | raises exactly when a probe raises; otherwise the host ports of configured mappings that are in use, and only those |
| DevShell.ConflictPortsOne | scripts/devcmd/shell.py:158-162 | a single mapping is a conflict, with its host port, exactly when that port is in use |
| DevShell.ConflictPortsAppend | scripts/devcmd/shell.py:158-162 | the conflicts of two runs of mappings are the first run's followed by the second's: one host port per mapping in use, repeats kept, in configuration order |
| DevShell.StartPlan | scripts/devcmd/shell.py:143-222 | the start path ends by attaching a shell at the working directory |
| DevShell.CreatePlan | scripts/devcmd/shell.py:225-297 | the create path ends by attaching a shell at the working directory |
| DevShell.StateOf | scripts/devcmd/shell.py:59-70 | running is asked first; stopped means existing and not running; absent otherwise |
| DevShell.Dispatch | scripts/devcmd/shell.py:59-70 | a running container gets only the shell; a normal end attaches the shell last; a raise issues nothing |
| DevShell.ShellSession | scripts/devcmd/shell.py:36-74 | the whole `dev` invocation: a running container is only attached to, with the working directory computed before the dispatch |
| DevShell.StartPathOrder | scripts/devcmd/shell.py:164-187 | one `container update --publish-rm` per conflicting port, before `docker start` |
| DevShell.NoConflicts | scripts/devcmd/shell.py:158-164 | free ports give no conflicts |
| DevShell.NoConflictNoUpdate | scripts/devcmd/shell.py:164-187 | with every configured port free, the first command of the start path is `docker start` |
| DevShell.CreateFailureStops | scripts/devcmd/shell.py:269-270 | a failing `docker run` ends the process: neither the script nor the shell follows |
| DevShell.CreatePathIssues | scripts/devcmd/shell.py:225-297 | the create path never starts or updates a container |
| DevShell.StartPathIssues | scripts/devcmd/shell.py:143-222 | the start path never creates a container |
| DevShell.PathsDisjoint | scripts/devcmd/shell.py:59-70 | only a stopped container is started or updated, only an absent one is created |
| DevShell.InitBashrc | scripts/devcmd/shell.py:204-206 | afterwards `grep` finds the source line; a file where it is already found is unchanged |
| DevShell.InitBashrcIdempotent | scripts/devcmd/shell.py:282-284 | running the script twice appends the line at most once |
| DevShell.GrepDotIsWildcard | scripts/devcmd/shell.py:282 | the pattern's `.` matches any character, so a look-alike line suppresses the append |
| Runtime.Execute | scripts/devcmd/utils.py:12-33 | the issued commands are a prefix of the plan; the run exits if and only if some checked step fails, and then the failing step is the last one issued; otherwise every step is issued |
| Runtime.Perform | scripts/devcmd/utils.py:12-33 | a plan that raised issues nothing |
| Runtime.IssuedArePlanned | scripts/devcmd/utils.py:12-33 | whatever holds of every planned command holds of every issued one |
| Runtime.IssuedThrough | scripts/devcmd/utils.py:12-33 | the steps up to and including the first fatal one are all issued, in order |
| Listing.KeepNonBlank | scripts/devcmd/container.py:167-168 | exactly the non-blank lines are kept |
| Listing.KeepNonBlankAppend | scripts/devcmd/container.py:167-168 | filtering keeps the order of the lines |
| Listing.BlankOutputLists | scripts/devcmd/container.py:163-164 | blank output lists nothing |
| Listing.Fields | scripts/devcmd/container.py:169 | the fields joined with `\|` give back the line |
| Listing.Rows | scripts/devcmd/container.py:166-175 | every row has enough fields and comes from a listed line |
| Listing.RowsAppend | scripts/devcmd/container.py:166-175 | rows are read line by line, in order |
| Listing.RowsAllIff | scripts/devcmd/container.py:166-175 | every line yields a row if and only if no line has too few fields |
| Listing.Lines | scripts/devcmd/maintenance.py:176-182 | every line kept is non-blank, holds no newline and is a line of the stripped output; every non-blank line of it is kept |
| Listing.OutputLines | scripts/devcmd/maintenance.py:176-182 | a failed command gives no lines; otherwise the non-blank lines of its stripped output, and all of them |
| Listing.LinesOfJoin | scripts/devcmd/maintenance.py:176-182 | trimmed non-blank records printed one per line read back as exactly those records, in order |
| Listing.RowsIndexed | scripts/devcmd/container.py:166-175 | row `i` is the fields of line `idx[i]`; the lines are taken in increasing order; every line with enough fields gives a row |
| Menu.ParseChoice | scripts/devcmd/container.py:213-221 | `q` quits, `a` selects all, a number from 1 to n picks item n-1, in both directions |
| Menu.PickByNumber | scripts/devcmd/container.py:214-221 | typing the printed number, with surrounding spaces, picks that item |
| Menu.PickTyped | scripts/devcmd/maintenance.py:150-152 | the bare number `k` from 1 to `n` picks item `k - 1` |
| Menu.OutOfRangeInvalid | scripts/devcmd/container.py:220-223 | 0 or a number past the list is not a choice |
| Menu.UpperLetters | scripts/devcmd/container.py:214 | `Q` and `A` work like `q` and `a` |
| Menu.Ask | scripts/devcmd/container.py:213-223 | the prompt returns the first usable answer, or nothing when the input ends first |
| Menu.AskSkipsInvalid | scripts/devcmd/container.py:213-223 | unusable answers before a usable one are skipped |
| DevContainer.RunningDevContainers | scripts/devcmd/container.py:144-177 | at most one record per listed line |
| DevContainer.ListedFromLines | scripts/devcmd/container.py:166-175 | each record is the first three fields of a listed line |
| DevContainer.NothingListed | scripts/devcmd/container.py:163-164 | `None` or blank output lists nothing |
| DevContainer.WellFormedListing | scripts/devcmd/container.py:167-175 | no line is lost when every line has three fields |
| DevContainer.DevRowsFromLines | scripts/devcmd/container.py:144-177 | record `i` is the first three fields of listed line `idx[i]`, in line order, and every line with three fields gives one |
| DevContainer.Select | scripts/devcmd/container.py:180-223 | no menu for an empty list; `q` gives `none`, `a` gives `all`, a number gives that container's id |
| DevContainer.StopAll | scripts/devcmd/container.py:277-282 | one `docker stop` per listed container, in order |
| DevContainer.StopSelected | scripts/devcmd/container.py:272-288 | `none` stops nothing, `all` stops every container, an id stops that one |
| DevContainer.StopNamed | scripts/devcmd/container.py:249-256 | a named container is stopped if and only if it is running |
| DevContainer.StopUnnamed | scripts/devcmd/container.py:259-288 | nothing for no running container, the only one without a menu, the menu for two or more |
| DevContainer.StopCommand | scripts/devcmd/container.py:226-288 | `--name` decides between the named and the unnamed path |
| DevContainer.StopOnlyStops | scripts/devcmd/container.py:249-288 | `dev stop` issues nothing but `docker stop` |
| DevContainer.Target | scripts/devcmd/container.py:310 | `--name` when given, else the name derived from the directory |
| DevContainer.DeleteCommand | scripts/devcmd/container.py:291-320 | nothing for a missing container; a running one gets a `stop` first and a stopped one none; `rm` is issued when the container exists and is stopped or its `stop` succeeded; it exits if and only if a command it issued failed |
| DevContainer.ExecArgv | scripts/devcmd/container.py:358-372 | `-it` appears if and only if interactive; the command follows the container verbatim, a string as `bash -c` |
| DevContainer.ExecArgvReadBack | scripts/devcmd/container.py:358-372 | the exec command line determines the container, the mode and the command |
| DevContainer.ExecCommand | scripts/devcmd/container.py:323-374 | a running container gets the exec; a stopped one is started first and gets the exec only if the start succeeds; a missing one gets nothing |
| DevContainer.CleanupRow | scripts/devcmd/container.py:453-465 | `rm` last; a `stop` before it if and only if the line contains `Up` |
| DevContainer.CleanupRemovesEachRow | scripts/devcmd/container.py:449-466 | one `docker rm` per listed row |
| DevContainer.CleanupLines | scripts/devcmd/container.py:446-466 | the count is the number of lines with at least two fields; the run is the stop-if-`Up` and `rm` steps of those lines, in order; a normal end issued one `rm` per counted line |
| DevContainer.Cleanup | scripts/devcmd/container.py:414-471 | never raises; the lines of the listing with two fields are cleaned up in order, and the count is their number |
| DevContainer.NothingToClean | scripts/devcmd/container.py:442-444 | `None` or blank output removes nothing |
| DevMaintenance.Prune | scripts/devcmd/maintenance.py:58-72 | without `--all` container and image prune; with it nothing unless the answer lower-cases to `y`; the volume prune if and only if `--all`, `--volumes` and a yes |
| DevMaintenance.ConfirmNotStripped | scripts/devcmd/maintenance.py:60-62 | `Y` confirms but ` y` does not |
| DevMaintenance.Images | scripts/devcmd/maintenance.py:114-126 | at most one image per listed line |
| DevMaintenance.ImagesFromLines | scripts/devcmd/maintenance.py:114-126 | image `i` is the id, `repository:tag` and size of listed line `idx[i]`, in line order, and every line with three fields gives one |
| DevMaintenance.Chosen | scripts/devcmd/maintenance.py:140-157 | `a` removes every image, a number that image, `q` and invalid input nothing |
| DevMaintenance.RemoveAll | scripts/devcmd/maintenance.py:146-148 | one `docker rmi` per image, in order |
| DevMaintenance.PruneImages | scripts/devcmd/maintenance.py:98-157 | a failed or empty listing removes nothing; `--force` or `a` removes every listed image; `q` and invalid input remove none; a number removes that image |
| DevMaintenance.PrintedNumberAgrees | scripts/devcmd/maintenance.py:115-152 | the printed number selects the image on its line when no malformed line comes before it |
| DevMaintenance.MenuAsWritten | scripts/devcmd/maintenance.py:114-126 | the menu as printed: one entry per well-formed line, carrying that line's image in order, numbered at least its position plus one and below the line count plus one, because malformed lines use up numbers |
| DevMaintenance.PrintedNumberShifts | scripts/devcmd/maintenance.py:115-152 | for the listing `x`, `a\|b\|c` the printed menu is the single entry 2 for image `a`, and `2` is not a valid choice among one image |
| DevMaintenance.NumberedMenu | scripts/devcmd/maintenance.py:150-152 | the menu numbered over the images: entry `i` shows image `i` and the number `i + 1` that the selection reads back as it |
| DevMaintenance.NumberedMenuPicks | scripts/devcmd/maintenance.py:150-152 | the number of each entry of the numbered menu, typed at the prompt, picks that entry's image |
| DevMaintenance.MenuNumberSelects | scripts/devcmd/maintenance.py:98-157 | with the numbered menu, typing the number shown next to any image removes exactly that image, whatever malformed lines the listing holds |
| DevMaintenance.UpdateSrvFunction | scripts/devcmd/maintenance.py:185-211 | a missing file is left missing; otherwise the new content is the two rewrites applied and holds neither old path |
| DevMaintenance.NoOldPathsLeft | scripts/devcmd/maintenance.py:205-206 | no `$HOME/dev/` and no `~/dev/` survives the two replacements |
| DevMaintenance.RewritePaths | scripts/devcmd/maintenance.py:205-206 | the rewritten content holds neither old path |
| DevMaintenance.RewriteKeepsClean | scripts/devcmd/maintenance.py:205-206 | content without the old paths is unchanged |
| DevMaintenance.UpdateIdempotent | scripts/devcmd/maintenance.py:185-211 | running the update twice is running it once |
| DevMaintenance.PlainTextKept | scripts/devcmd/maintenance.py:205-206 | text without `$` or `~` is left unchanged |
| DevMaintenance.RewriteHomePath | scripts/devcmd/maintenance.py:205 | a `$HOME/dev/` becomes `$HOME/.dev/` where it stands; the text before it is kept and the text after it is rewritten the same way |
| DevMaintenance.RewriteTildePath | scripts/devcmd/maintenance.py:206 | a `~/dev/` becomes `~/.dev/` where it stands, the same way |
| DkrUtils.RunCommand | scripts/dkrcmd/utils.py:17-41 | with `check=False` the result is the stripped standard output whatever the exit status, never `None`; it is empty if and only if the output is all whitespace |
| DkrUtils.Query | scripts/dkrcmd/utils.py:159-196 | true if and only if the query printed something other than whitespace |
| DkrUtils.DropEmpty | scripts/dkrcmd/utils.py:57-58 | exactly the non-empty arguments are kept |
| DkrUtils.DropEmptyKeeps | scripts/dkrcmd/utils.py:57-58 | an argument list without empty strings is unchanged |
| DkrUtils.ContainersArgv | scripts/dkrcmd/utils.py:53-94 | no empty argument; the dev filter is present if and only if dev containers are excluded |
| DkrUtils.Containers | scripts/dkrcmd/utils.py:43-113 | output that is all whitespace lists nothing; at most one container per line |
| DkrUtils.ContainersComplete | scripts/dkrcmd/utils.py:60-77 | no line is lost when every line has four fields |
| DkrUtils.ContainersFromLines | scripts/dkrcmd/utils.py:60-77 | container `i` is the first four fields of listed line `idx[i]`, in line order, and every line with four fields gives one |
| DkrUtils.NonDev | scripts/dkrcmd/utils.py:137-139 | exactly the images whose repository does not contain `dev-` |
| DkrUtils.GetImages | scripts/dkrcmd/utils.py:115-148 | with the filter, the unfiltered list without dev images; without it, one image per well-formed line |
| DkrUtils.DevAnywhere | scripts/dkrcmd/utils.py:138 | `dev-` in the middle of a repository name also excludes it |
| DkrUtils.ImagesFromLines | scripts/dkrcmd/utils.py:115-148 | image `i` is the first four fields of listed line `idx[i]`, in line order, and every line with four fields gives one; the filtered list is that list without dev images |
| DkrUtils.FormatContainer | scripts/dkrcmd/utils.py:198-208 | the id cut to 12 characters first, the image last, separated by ` \| ` |
| DkrUtils.FormatContainerReadBack | scripts/dkrcmd/utils.py:198-208 | with no `\|` in any field, the formatted line splits back into its fields |
| DkrUtils.FormatImage | scripts/dkrcmd/utils.py:210-220 | the id cut to 12, then `repository:tag`, then the size, separated by ` \| `, and nothing else |
| DkrUtils.FormatImageReadBack | scripts/dkrcmd/utils.py:210-220 | with no `\|` in any field and no `:` in repository or tag, the line splits back into the cut id, the pair and the size, and the pair into repository and tag |
| DkrConfig.DefaultTag | scripts/dkrcmd/config.py:29-37 | `app-` followed by the lower-cased last path component, with no `/` |
| DkrConfig.TagOfLastComponent | scripts/dkrcmd/config.py:36-37 | directories with the same last component get the same tag |
| DkrConfig.DevPrefixShared | scripts/dkrcmd/config.py:16-17 | the dev prefix is the one every `dev` container name starts with |
| DkrStatus.Ids | scripts/dkrcmd/status.py:34 | exactly the ids of the listed containers |
| DkrStatus.Stopped | scripts/dkrcmd/status.py:35 | exactly the containers of the full list whose id is not running |
| DkrStatus.StoppedAppend | scripts/dkrcmd/status.py:35 | the order of the full list is kept |
| DkrStatus.TableRow | scripts/dkrcmd/status.py:47 | each cell is a prefix of its field of at most 12, 25, 20 and 25 characters |
| DkrStatus.Status | scripts/dkrcmd/status.py:12-83 | always returns true; the running list is the first query read; a stopped container is one of the full list whose id is not running; no dev image is shown |
| DkrRm.RemoveOne | scripts/dkrcmd/rm.py:87-95 | `rm` last; a `stop` before it if and only if the status contains `Up ` |
| DkrRm.RemoveAllCovers | scripts/dkrcmd/rm.py:87-95 | every listed container gets an `rm`, and only containers that are up get a `stop` |
| DkrRm.RemoveAll | scripts/dkrcmd/rm.py:71-100 | always true, since every `rm` result is a string and counts as removed; exactly the listed containers get an `rm`, and exactly those that are up get a `stop` before it |
| DkrRm.RemoveAllCoversEvery | scripts/dkrcmd/rm.py:86-95 | for every id, an `rm` is issued if and only if a listed container has it, and a `stop` if and only if that container is up |
| DkrRm.RemoveSpecific | scripts/dkrcmd/rm.py:42-69 | true if and only if the container exists; a missing one gets no command; a running one is stopped before `rm` |
| DkrRm.InteractiveRemove | scripts/dkrcmd/rm.py:102-153 | false only for an answer that is neither `q`, `a` nor a listed number; `q` and such an answer issue nothing, `a` removes every container of a fresh listing, a number removes that one |
| DkrRm.RmCommand | scripts/dkrcmd/rm.py:11-40 | `--all` wins over `--name`; with neither, the menu, and an empty list succeeds without it |
| DkrRm.NoChoiceNoMutation | scripts/dkrcmd/rm.py:124-153 | without `a` or a valid number the menu removes nothing |
| DkrStop.StopSpecific | scripts/dkrcmd/stop.py:36-58 | true if and only if the container is running, in which case one `docker stop` is issued; otherwise nothing |
| DkrStop.StopEach | scripts/dkrcmd/stop.py:91-95 | one `docker stop` per container, in order |
| DkrStop.InteractiveStop | scripts/dkrcmd/stop.py:60-114 | `q` succeeds with nothing issued, `a` stops every container and succeeds for a non-empty list, a number stops that one and succeeds, other input fails with nothing issued |
| DkrStop.StopCommand | scripts/dkrcmd/stop.py:11-34 | a name goes to the specific stop; no running container succeeds without a menu |
| DkrStop.StopsOnlyListed | scripts/dkrcmd/stop.py:11-114 | every command issued stops the named container or a listed one |
| HostSetup.DetectShell | scripts/setup.py:257-271 | `zsh` if and only if `$SHELL` contains `zsh`, else `bash` |
| HostSetup.ZshFirst | scripts/setup.py:264-271 | `zsh` is looked for first; an unset `$SHELL` gives `bash` |
| HostSetup.CreateSymlink | scripts/setup.py:81-127 | a correct link is left alone; success leaves the link in place and any old target in the backup; no other path changes; failure leaves the target as it was or removed |
| HostSetup.SymlinkIdempotent | scripts/setup.py:103-108 | a second run after a successful one changes nothing |
| HostSetup.AddSourceLine | scripts/setup.py:158-216 | afterwards the rc file holds the source line; a file that held it is unchanged; otherwise the line is appended after a backup |
| HostSetup.AddSourceLineIdempotent | scripts/setup.py:158-216 | running the edit twice adds the line once |
| HostSetup.AddAlias | scripts/setup.py:233-247 | a missing rc file is not created; a file with the alias is unchanged; any other file gets exactly the header and the alias line appended |
| HostSetup.AddAliasIdempotent | scripts/setup.py:236-247 | running the edit twice adds the alias once |
| HostSetup.Missing | scripts/setup.py:287-299 | a tool is reported if and only if it is not found, in the order Docker, Python 3, Git |
| HostSetup.CheckPrerequisites | scripts/setup.py:273-307 | true if and only if docker, python3 and git are all found |
| HostSetup.SetupHost | scripts/setup.py:150-338 | exits if and only if the directory does not end in `dev/scripts` or a tool is missing; otherwise `init.lua` is linked as `create_symlink` does, the rc file of the detected shell keeps its content and then holds the source line and the alias, and the other rc file is untouched |
| HostSetup.ShellEdits | scripts/setup.py:158-247 | after both edits the rc file exists, holds the source line and the alias, and starts with what it held before |
| HostSetup.SuffixNotBoundary | scripts/setup.py:325-326 | the directory check is a plain suffix test: `olddev/scripts` passes |
| BlptUtils.ValidateAsWritten | scripts/blptcmd/utils.py:55-71 | valid if and only if the pattern as written matches and the name is not reserved; the message is empty if and only if valid |
| BlptUtils.TrailingNewlineAccepted | scripts/blptcmd/utils.py:60 | `app\n` passes the pattern as written and is refused by the anchored one |
| BlptUtils.AsWrittenDiffersOnlyByNewline | scripts/blptcmd/utils.py:60-61 | the two validations agree on every name that does not end in a newline |
| BlptUtils.ValidateProjectName | scripts/blptcmd/utils.py:40-71 | empty, malformed and reserved names get their own messages; valid if and only if well formed and not reserved; the message is empty if and only if valid |
| BlptUtils.ValidNameShape | scripts/blptcmd/utils.py:40-71 | an accepted name starts with a letter and holds only letters, digits, `_` and `-` |
| BlptUtils.ReservedRefused | scripts/blptcmd/utils.py:64-69 | `COM1` matches the pattern and is refused as reserved |
| BlptUtils.Suggest | scripts/blptcmd/utils.py:148-170 | a subsequence of the blueprints, holding exactly those that contain the name or are contained in it |
| BlptUtils.EmptySuggestsAll | scripts/blptcmd/utils.py:159-170 | the empty name suggests every blueprint |
| BlptUtils.ApplyAppend | scripts/blptcmd/utils.py:111-112 | the pairs are applied one after another, in dictionary order |
| BlptUtils.ApplyReplacements | scripts/blptcmd/utils.py:111-112 | no pairs keep the content, one pair is one `str.replace`, and a file that mentions none of the search strings is unchanged |
| BlptUtils.ReplaceInFile | scripts/blptcmd/utils.py:96-120 | success if and only if the file was read and written; the new content is the replacements applied |
| BlptUtils.ProcessFiles | scripts/blptcmd/utils.py:122-146 | at most one per file; all files count if and only if each is selected by extension and edited |
| BlptUtils.ProcessFilesAppend | scripts/blptcmd/utils.py:134-146 | the count over a walk split in two is the sum of the counts |
| BlptCreate.ConcatCapitalized | scripts/blptcmd/create.py:93 | the length is the total length of the words; no `_` or `{` appears that was not in them |
| BlptCreate.ConcatOne | scripts/blptcmd/create.py:93 | one word is capitalised on its own |
| BlptCreate.ConcatCapitalizedAppend | scripts/blptcmd/create.py:93 | words are capitalised one by one: the text of `a + b` is the text of `a` then that of `b` |
| BlptCreate.CamelCase | scripts/blptcmd/create.py:93 | no `_`; the name's length less its underscores; no `{` unless the name has one |
| BlptCreate.CamelUnderscore | scripts/blptcmd/create.py:93 | `my_app` becomes `MyApp` |
| BlptCreate.CamelHyphen | scripts/blptcmd/create.py:93 | `my-app` becomes `My-app`: a hyphen does not separate words |
| BlptCreate.CamelOneWord | scripts/blptcmd/create.py:93 | a lower-case name without `_` gets its first letter capitalised |
| BlptCreate.CamelTwoWords | scripts/blptcmd/create.py:93 | `a_b` is `a` and `b` capitalised and run together |
| BlptCreate.CamelNoUnderscore | scripts/blptcmd/create.py:93 | a name without `_` is capitalised whole |
| BlptCreate.CamelSplitsAtUnderscore | scripts/blptcmd/create.py:93 | the first `_` is dropped, the word before it capitalised and the rest converted on its own |
| BlptCreate.Replacements | scripts/blptcmd/create.py:89-94 | the four placeholders, in order, each once |
| BlptCreate.KeysNotPrefixes | scripts/blptcmd/create.py:89-94 | no placeholder is a prefix of a later one |
| BlptCreate.ValuesBraceFree | scripts/blptcmd/create.py:89-94 | for a valid name no replacement value holds a `{` |
| BlptCreate.DockerfileReplacements | scripts/blptcmd/create.py:164-168 | the Dockerfile substitutes the name, upper and lower placeholders only |
| BlptCreate.PlaceholderRenders | scripts/blptcmd/create.py:89-101 | a file whose content is one placeholder ends up as exactly its value |
| BlptCreate.KeyRenders | scripts/blptcmd/create.py:89-101 | the same for any dictionary over the placeholders whose values hold no `{` |
| BlptCreate.ComposeDockerfile | scripts/blptcmd/create.py:134-161 | the base, or the fallback when it is missing; a template replaces the marker, or is appended after a header when there is no marker |
| BlptCreate.GenerateDockerfile | scripts/blptcmd/create.py:119-171 | a composed Dockerfile without any `{` is written unchanged |
| BlptCreate.FallbackNamesProject | scripts/blptcmd/create.py:141-171 | without base or template the Dockerfile is the fallback naming the project |
| BlptCreate.CamelKeptInDockerfile | scripts/blptcmd/create.py:164-171 | the CamelCase placeholder is left verbatim in the Dockerfile |
| BlptCreate.CreateCommand | scripts/blptcmd/create.py:20-117 | as written: unknown blueprint, a name the unanchored check refuses and an existing target are refused in that order, before any copy; success if and only if copied and the copy worked; a Dockerfile if and only if there is a template |
| BlptCreate.CreateCorrected | scripts/blptcmd/create.py:20-117 | the same with the anchored name check: refusals in the same order, success if and only if copied and the copy worked |
| BlptCreate.CreatedNameAsWritten | scripts/blptcmd/create.py:58-75 | a project the command as written creates has a name the unanchored pattern accepts that is not reserved, a known blueprint and a new target |
| BlptCreate.NewlineNameCopied | scripts/blptcmd/utils.py:60 | the command as written copies into a directory named `app` and a newline; the corrected one refuses that name |
| BlptCreate.CreatedNameWellFormed | scripts/blptcmd/create.py:58-75 | a project the corrected command creates has a well-formed name, a known blueprint and a new target |
| BlptList.FirstFive | scripts/blptcmd/list.py:59 | the first five lines, or all of fewer |
| BlptList.FirstDescription | scripts/blptcmd/list.py:62-64 | the line found is non-empty and not a heading |
| BlptList.FirstDescriptionAt | scripts/blptcmd/list.py:62-64 | the line found is the first usable one: every line before it is blank or a heading |
| BlptList.FirstDescriptionFinds | scripts/blptcmd/list.py:62-64 | no line is found if and only if none is usable; otherwise the first usable line, stripped |
| BlptList.DescriptionOf | scripts/blptcmd/list.py:58-72 | the first usable line, stripped and cut to 50 characters, or the generic text when there is none |
| BlptList.ListDescription | scripts/blptcmd/list.py:43-72 | without a README, or with no usable line among its first five, the capitalised directory name and ` project template`; otherwise the first usable line of the five, stripped and cut to 50 characters |
| BlptList.ReadmeDescriptionShape | scripts/blptcmd/list.py:53-64 | a README description is at most 50 characters and begins a usable line |
| BlptList.OnlyFirstFiveLines | scripts/blptcmd/list.py:59 | lines after the fifth never change the description |
| BlptList.NamedAfterDirectory | scripts/blptcmd/list.py:70-72 | without a README the directory name, capitalised, and ` project template` |
| BlptList.GenericDescription | scripts/blptcmd/list.py:70-72 | the `rust` blueprint without a README is the `Rust project template` |
| BlptInfo.Paragraph | scripts/blptcmd/info.py:98-108 | the lines collected so far stay in front |
| BlptInfo.ParagraphLines | scripts/blptcmd/info.py:101-108 | every collected line is a non-empty README line that is not a heading |
| BlptInfo.SkipsBeforeHeading | scripts/blptcmd/info.py:101-106 | lines before the first heading are ignored |
| BlptInfo.HeadingInsideParagraph | scripts/blptcmd/info.py:101-108 | a heading inside the paragraph is dropped without ending it; the first blank line after text ends it |
| BlptInfo.ParagraphEmptyIff | scripts/blptcmd/info.py:98-108 | no paragraph if and only if nothing was collected and no non-empty, non-heading line follows a heading |
| BlptInfo.InfoDescription | scripts/blptcmd/info.py:80-117 | when a text line follows a heading, the paragraph joined with spaces, non-empty and on one line; otherwise `A template for … projects` with the directory name |
| BlptInfo.Visible | scripts/blptcmd/info.py:128 | exactly the entries whose name does not start with `.` |
| BlptInfo.SortEntries | scripts/blptcmd/info.py:128 | sorted by name, and a permutation of its input |
| BlptInfo.Render | scripts/blptcmd/info.py:119-145 | no hidden name is drawn; no line is above the starting depth |
| BlptInfo.RenderFromStep | scripts/blptcmd/info.py:128-145 | an entry draws its own line, then its directory's lines one level deeper, then the entries after it |
| BlptInfo.TopLevelSorted | scripts/blptcmd/info.py:128-145 | the lines at the starting depth list the entries in order, the last one marked last |
| BlptInfo.RenderListsSorted | scripts/blptcmd/info.py:119-145 | the top level of the tree is exactly the visible entries, sorted, with only the last marked last |
| BlptInfo.TreePrefix | scripts/blptcmd/info.py:134-137 | empty at the top; below it four spaces per extra level and `└── ` for the last entry, else `├── ` |
| BlptInfo.PrefixWidens | scripts/blptcmd/info.py:135-137 | one level deeper is four characters wider, over the same indentation |
| BlptInfo.StrippedNonBlankStrips | scripts/blptcmd/info.py:179-181 | every entry is a stripped line and every non-blank line gives its stripped text |
| BlptInfo.StrippedNonBlankAppend | scripts/blptcmd/info.py:179-181 | lines are read one by one, in order |
| BlptInfo.DependencySection | scripts/blptcmd/info.py:178 | the section holds no `[` |
| BlptInfo.CargoDependencies | scripts/blptcmd/info.py:170-181 | nothing if and only if there is no `[dependencies]`; otherwise every non-blank line of the section, stripped, each non-empty, trimmed and without `[` |
| BlptInfo.SectionEntries | scripts/blptcmd/info.py:179-181 | the non-blank lines, stripped, and all of them, holding no `[` |
| BlptInfo.FirstStartingWith | scripts/blptcmd/info.py:196 | the first line with the prefix, or none if no line has it |
| BlptInfo.GoModule | scripts/blptcmd/info.py:190-198 | a module path if and only if some line starts with `module ` |
| BlptInfo.GoModuleReadsPath | scripts/blptcmd/info.py:196-198 | a `module p` line after any lines that do not start with `module ` reads back as `p` |
| BlptInfo.InfoCommand | scripts/blptcmd/info.py:14-78 | shown if and only if the blueprint exists; otherwise the suggestions |
| SrvConfig.ParseU16 | tools/srv/src/config.rs:139 | a value if and only if the text is digits, after an optional `+`, whose value fits in 16 bits; the value is that of the digits, with or without the `+` |
| SrvConfig.ParseU16Decimal | tools/srv/src/config.rs:139 | a port printed in decimal parses back to itself |
| SrvConfig.ParseArguments | tools/srv/src/config.rs:127-147 | `(8000, ".")` alone; a port then the directory or `.`; otherwise the default port and the first argument as directory |
| SrvConfig.ArgumentOrder | tools/srv/src/config.rs:137-146 | `srv 8080 public` serves `public` on 8080; `srv public 8080` ignores the port |
| SrvConfig.OutOfRangePortIsDirectory | tools/srv/src/config.rs:139-146 | `70000` is taken as a directory name |
| SrvConfig.New | tools/srv/src/config.rs:49-75 | the given port and directory, CORS on, hidden files off, symlinks followed, `index.html`, 10 attempts |
| SrvConfig.Merge | tools/srv/src/config.rs:190-205 | the file's port only when the command line gave none; the directory from the command line; every option from the file |
| SrvConfig.MergeIdempotent | tools/srv/src/config.rs:190-205 | merging the same file again changes nothing |
| SrvConfig.JoinPath | tools/srv/src/config.rs:84 | an absolute path replaces the base; otherwise the result ends with the path and stays absolute |
| SrvConfig.LoadConfigFile | tools/srv/src/config.rs:150-187 | a file configuration if and only if one parsed; its directory is absolute as given or relative to the file's directory |
| SrvConfig.ResolveDirectory | tools/srv/src/config.rs:78-99 | an absolute path is kept, a relative one joined to the current directory; loaded with that path if and only if it exists and is a directory; otherwise the error names that path and its cause; no current directory for a relative path is its own error |
| SrvConfig.AbsoluteIgnoresCwd | tools/srv/src/config.rs:79-87 | an absolute directory does not depend on the current directory |
| SrvConfig.LoadConfig | tools/srv/src/config.rs:106-124 | the directory text from the command line, resolved; loaded if and only if that path is a directory; without a file the defaults; with one the merged options |
| SrvConfig.FileDirectoryIgnored | tools/srv/src/config.rs:115-121 | the directory in `.srv.toml` never changes the result |
| SrvConfig.BareInvocation | tools/srv/src/config.rs:106-147 | `srv` alone serves the current directory on 8000 with the defaults |
| SrvServer.FindPortAsWritten | tools/srv/src/server.rs:74-103 | as written, in a debug build: a port found is the first in the window that binds; the overflow happens only when the window reaches past 65535 and no port up to 65535 binds |
| SrvServer.LastPortOverflows | tools/srv/src/server.rs:96 | the loop as written increments past 65535 after a failed bind there |
| SrvServer.Search | tools/srv/src/server.rs:74-103 | a port found is the first in the window that binds; running out if and only if no port in the window binds |
| SrvServer.FindAvailablePort | tools/srv/src/server.rs:74-103 | the first port from the start that binds, within `max_attempts`; the error if and only if none binds; no attempt at all when `max_attempts` is 0 |
| SrvServer.AsWrittenAgrees | tools/srv/src/server.rs:74-103 | below 65535 the loop as written and the corrected one agree |
| SrvServer.FreePortKept | tools/srv/src/server.rs:174-184 | a free requested port is used as it is |
| SrvServer.NextPortWhenTaken | tools/srv/src/server.rs:186-202 | when only the requested port is taken, the next one is used |
| SrvServer.LastPortExhausted | tools/srv/src/server.rs:101-102 | the corrected search reports running out at the last port |
| SrvUtils.DaysInYear | tools/srv/src/utils.rs:127 | the month table sums to 365 |
| SrvUtils.MonthScanFinds | tools/srv/src/utils.rs:127-137 | the month loop stops at the month holding the day |
| SrvUtils.MonthOfDay | tools/srv/src/utils.rs:127-137 | every day of the year has a month from 1 to 12 and a day within it |
| SrvUtils.SameMonth | tools/srv/src/utils.rs:127-137 | a day of the year has only one month and day of the month |
| SrvUtils.FallbackUnreachable | tools/srv/src/utils.rs:139-143 | the fallback to December 31 is never taken |
| SrvUtils.ClockFields | tools/srv/src/utils.rs:149-151 | hours, minutes and seconds add back up to the second of the day |
| SrvUtils.Breakdown | tools/srv/src/utils.rs:117-151 | a valid date and time whose clock fields give the second of the day |
| SrvUtils.BreakdownInverse | tools/srv/src/utils.rs:117-151 | counting the printed date's seconds gives back the input |
| SrvUtils.BreakdownOfEpochSeconds | tools/srv/src/utils.rs:117-151 | each date of the calendar is printed for exactly its own seconds |
| SrvUtils.ReadBack | tools/srv/src/utils.rs:117-151 | seconds counted from a year, month, day and clock break down to exactly those |
| SrvUtils.FormatShape | tools/srv/src/utils.rs:153-154 | up to the year 9999 the text is 19 characters with the separators in place |
| SrvUtils.ModificationTime | tools/srv/src/utils.rs:104-164 | `Unknown time` on failure; otherwise the printed form of a valid date whose seconds are the file's |
| SrvUtils.ModificationTimeOfDate | tools/srv/src/utils.rs:104-164 | a file modified at a valid date shows exactly that date |
| SrvUtils.EpochStart | tools/srv/src/utils.rs:121 | 0 seconds is 1970-01-01 00:00:00 |
| SrvUtils.LeapDaysDrift | tools/srv/src/utils.rs:122-123 | without leap days, 1 March 2000 prints as 2000-03-09 |
| Assoc.Lookup | scripts/devcmd/utils.py:140 | nothing if and only if the key is absent; otherwise a value stored under it |
| Assoc.Put | scripts/devcmd/utils.py:140 | an existing key keeps the key order; a new key is appended |
| Assoc.PutLookup | scripts/devcmd/utils.py:140 | after `d[k] = v` the key maps to `v` and every other key is unchanged |
| Assoc.PutUnique | scripts/devcmd/utils.py:140 | assignment never creates a duplicate key |

## Left out

- Running processes, printing and prompts: commands are recorded, not run. What they print, and what the user types, are parameters. An ended input stream is `InputEnded` or `None`.
- Socket probes, `docker` queries, the file system, `which`, `$SHELL` and the current directory are oracles. The probe's race between check and use is not modelled.
- `hashlib.md5` is an uninterpreted function. `os.path.expanduser` and `os.path.expandvars` are oracles too.
- `os.path.relpath` is exact only for normalised absolute paths, which is what the working-directory mapping receives.
- `chmod`, `os.makedirs` and `os.path.abspath` are not modelled.
- Character classes are ASCII only: `str.lower`, `str.upper`, `str.capitalize` and `str.isdigit`. Whitespace is Python's full `str.isspace` set.
- A lone `\r` line ending is not split. Lines are split on `\n`, which matches `readlines()` and `split('\n')` for Unix files.
- The two init scripts of the `dev` shell are text constants passed in as `InitScripts`. The shell run inside the container is modelled only for its `grep`/append line.
- `start_existing_container` builds a `docker inspect` command and never runs it, so the model has no such step.
- `run_command(..., check=False)` in both tools: `subprocess.run` raises nothing for a failing exit status, so the call returns the stripped output and never `None`. Every `result is not None` test in `dkr rm` and `dkr stop` therefore passes, and `Removed n of m` / `Stopped n of m` always print `n` equal to `m`; the printing itself is not modelled. A missing `docker` binary raises `FileNotFoundError`, which nothing catches; that case is not modelled.
- `run_command(check=True)` of `dev` calls `sys.exit(1)`, which `except Exception` does not catch. A failing checked command therefore ends the process (`Runtime.Execute`), rather than warning and going on.
- `merge_configs` keeps the command line's directory, so the directory rule of `load_config_file` never reaches the result (`SrvConfig.FileDirectoryIgnored`).
- TOML parsing of `.srv.toml` is not modelled: the parsed configuration is a parameter.
- `status_command` (scripts/devcmd/container.py:54) and `logs_command` (scripts/devcmd/container.py:377) only print or stream `docker` output.
- `get_available_blueprints` and `copy_directory` (scripts/blptcmd/utils.py:18, 73) walk the file system. The walk is a parameter of `ProcessFiles` and `CreateCommand`.
- `display_next_steps`, `list_command`, `show_next_steps` and the printed lines of `print_blueprint_specific_info` only print.
- `get_default_image_name` (scripts/dkrcmd/utils.py:150) is not modelled. It is used only by the `run` and `build` commands.
- The help modules, the `argparse` entry points, and `dkr run`, `logs`, `rmi`, `shell` and `build` are not modelled. Neither is `dev build`. They are dispatch and thin wrappers around `docker`.
- `run_server`, `create_app`, `create_serve_dir` and `get_mime_type` are HTTP serving. `setup_logging`, `log_directory_contents` and `get_local_ip` are I/O. `save_config` is never called. `main.rs` and the diagnostics binary are out of scope too.
- `human_readable_size` is floating point.
- A metadata failure or a time before the epoch is the `None` case of `ModificationTime`.
- The C++ test framework and the command-line front end of the blueprint are not modelled.
- AppLib.Add: signed overflow is undefined behaviour in C++. The precondition excludes it instead of modelling a wrap-around.
- AppLib.Subtract: as for `add`.
- SrvUtils.Breakdown: follows the code's calendar without leap years (`LeapDaysDrift`). It is not the real civil calendar.
- DevContainer.RunningDevContainers: states a count bound. Its contents are given by `DevRowsFromLines`, `NothingListed` and `WellFormedListing`.
- DevMaintenance.Images: states a count bound. The contents are given by `ImagesFromLines` and `PrintedNumberAgrees`.
- DevShell.StartPlan: states only the final attach. The order of updates and start is given by `StartPathOrder` and `NoConflictNoUpdate`.
- DevShell.CreatePlan: states only the final attach. The rest is given by `CreateArgv` and `CreateFailureStops`.
- DkrUtils.Containers: states a count bound. The contents are given by `ContainersFromLines`.
- DkrUtils.GetImages: states a count bound and the filter. The contents are given by `ImagesFromLines`.
- BlptInfo.Render: states that no hidden name is drawn and no line is above the starting depth. The order and nesting are given by `RenderFromStep`, `TopLevelSorted` and `RenderListsSorted`.
- BlptInfo.StrippedNonBlank: states a length bound. The entries are given by `StrippedNonBlankStrips` and `StrippedNonBlankAppend`.
- BlptCreate.ConcatCapitalized: states the length and the characters. The text is given by `ConcatOne`, `ConcatTwo` and `ConcatCapitalizedAppend`.
- SrvServer.FindPortAsWritten: models a debug build, where the increment past 65535 panics. A release build wraps to port 0; that case is described under Findings, not modelled.
- BlptUtils.ApplyReplacements: states the no-pair, one-pair and untouched cases. The order of application is given by `ApplyAppend`.
- BlptCreate.GenerateDockerfile: states the case without placeholders. The substitution itself is given by `FallbackNamesProject` and `CamelKeptInDockerfile`.
- BlptInfo.Paragraph: states that what was collected stays in front. The contents are given by `ParagraphLines`, `SkipsBeforeHeading` and `HeadingInsideParagraph`.

## Findings

| source | as written | input that shows it | evidently intended | confidence | as-written member | corrected member |
|---|---|---|---|---|---|---|
| scripts/blptcmd/utils.py:60 | `re.match(r'^[a-zA-Z][a-zA-Z0-9_-]*$', name)`: Python's `$` also matches before a final newline | `"app\n"` is accepted as a project name, and `create_command` copies the blueprint into a directory with that name (`BlptCreate.NewlineNameCopied`) | only letters, digits, `_` and `-` after the first letter, to the true end of the name | medium, not executed | BlptUtils.ValidateAsWritten | BlptUtils.ValidateProjectName |
| tools/srv/src/server.rs:96 | `port += 1` on a `u16` after every failed bind, including one at 65535 | start 65535, port busy: a debug build panics; a release build wraps to port 0, reporting exhaustion after one attempt and binding port 0 (a port the operating system picks) when a second attempt is left | stop the search at 65535 and report running out of attempts | medium, not executed | SrvServer.FindPortAsWritten | SrvServer.FindAvailablePort |
| scripts/devcmd/maintenance.py:115 | `for i, image_info in enumerate(image_list, 1)` numbers every listed line, while a typed number selects `images[int(choice) - 1]` among the well-formed lines only | listing `x` then `a\|b\|c`: the only image is printed as option 2, and typing 2 is refused as an invalid selection (`DevMaintenance.PrintedNumberShifts`) | number the options over the images, so the printed number selects the image beside it | medium, not executed | DevMaintenance.MenuAsWritten | DevMaintenance.NumberedMenu |

=== FILE: app_lib.dfy ===
/** `blueprints/cpp_blueprint_lite/src/app_lib`: the blueprint's example
    library of `int` arithmetic.  An `int` is 32 bits; signed overflow is
    undefined behaviour in C++, so each operation is defined only where its
    result fits, and that is what the preconditions say. */
module AppLib {

  const IntMin: int := -0x8000_0000
  const IntMax: int := 0x7fff_ffff

  type Int32 = x: int | IntMin <= x <= IntMax

  function Abs(x: int): nat {
    if x < 0 then -x else x
  }

  /** `add`: the sum, when it is an `int`. */
  function Add(a: Int32, b: Int32): (r: Int32)
    requires IntMin <= a + b <= IntMax
    ensures r - b == a && r - a == b
  {
    a + b
  }

  /** `subtract`: the difference, when it is an `int`. */
  function Subtract(a: Int32, b: Int32): (r: Int32)
    requires IntMin <= a - b <= IntMax
    ensures r + b == a
  {
    a - b
  }

  /** Subtracting what was added gives back the first operand. */
  lemma SubtractUndoesAdd(a: Int32, b: Int32)
    requires IntMin <= a + b <= IntMax
    ensures Subtract(Add(a, b), b) == a
  {
  }

  /** Adding what was subtracted gives back the first operand. */
  lemma AddUndoesSubtract(a: Int32, b: Int32)
    requires IntMin <= a - b <= IntMax
    ensures Add(Subtract(a, b), b) == a
  {
  }

  /** The order of the operands of `add` does not matter. */
  lemma AddCommutes(a: Int32, b: Int32)
    requires IntMin <= a + b <= IntMax
    ensures Add(a, b) == Add(b, a)
  {
  }

  /** A number less itself is zero, and zero is the unit of `add`. */
  lemma SubtractSelf(x: Int32)
    ensures Subtract(x, x) == 0
    ensures Add(x, 0) == x
  {
  }

  /** The callers' side of `divide`: no division by zero and no `INT_MIN / -1`,
      whose quotient 2^31 is not an `int`. */
  predicate Divisible(a: Int32, b: Int32) {
    b != 0 && !(a == IntMin && b == -1)
  }

  /** What a C++ quotient is: `a == q * b + rem` with the remainder smaller
      than the divisor and never of the opposite sign to the dividend, which
      is division rounding toward zero. */
  predicate TruncatedQuotient(a: int, b: int, q: int) {
    var rem := a - q * b;
    Abs(rem) < Abs(b) && (rem == 0 || (rem < 0 <==> a < 0))
  }

  /** Division of naturals: quotient and remainder. */
  function NatDivMod(x: nat, y: nat): (r: (nat, nat))
    requires y > 0
    ensures x == r.0 * y + r.1 && r.1 < y
    ensures r.0 <= x && (y >= 2 ==> 2 * r.0 <= x)
    decreases x
  {
    if x < y then (0, x)
    else
      var (q, m) := NatDivMod(x - y, y);
      (q + 1, m)
  }

  /** `divide`: `a / b` as C++ computes it, rounding toward zero (Dafny's own
      `/` rounds toward negative infinity for a positive divisor). */
  function Divide(a: Int32, b: Int32): (q: Int32)
    requires Divisible(a, b)
    ensures TruncatedQuotient(a, b, q)
  {
    var n: int := NatDivMod(Abs(a), Abs(b)).0;
    var q := if (a < 0) != (b < 0) then -n else n;
    TruncationFacts(a, b);
    q
  }

  lemma TruncationFacts(a: int, b: int)
    requires b != 0
    ensures var n: int := NatDivMod(Abs(a), Abs(b)).0;
            TruncatedQuotient(a, b, if (a < 0) != (b < 0) then -n else n)
  {
    var (n, m) := NatDivMod(Abs(a), Abs(b));
    SignedQuotient(a, b, n, m);
  }

  lemma SignedQuotient(a: int, b: int, n: int, m: int)
    requires b != 0 && n >= 0 && 0 <= m < Abs(b) && Abs(a) == n * Abs(b) + m
    ensures TruncatedQuotient(a, b, if (a < 0) != (b < 0) then -n else n)
  {
    var q: int := if (a < 0) != (b < 0) then -n else n;
    var p := n * Abs(b);
    if b < 0 {
      NegMul(n, b);
      assert n * b == -p;
    }
    if q < 0 {
      NegMul(n, b);
    }
    assert q * b == (if a < 0 then -p else p);
    assert a - q * b == (if a < 0 then -m else m);
  }

  lemma NegMul(x: int, y: int)
    ensures (-x) * y == -(x * y) && x * (-y) == -(x * y)
  {
  }

  /** Only one number is a truncated quotient, so the contract of `Divide`
      pins its result down. */
  lemma TruncatedQuotientUnique(a: int, b: int, q1: int, q2: int)
    requires b != 0 && TruncatedQuotient(a, b, q1) && TruncatedQuotient(a, b, q2)
    ensures q1 == q2
  {
    var r1 := a - q1 * b;
    var r2 := a - q2 * b;
    var d := q2 - q1;
    SameSignGap(r1, r2, Abs(b), a < 0);
    MulDistributes(q1, q2, b);
    assert r1 - r2 == d * b;
    AbsProduct(d, b);
    if d != 0 {
      MulGrows(Abs(d), Abs(b));
    }
  }

  /** Two numbers of the same sign, each smaller than `bound`, are less
      than `bound` apart. */
  lemma SameSignGap(r1: int, r2: int, bound: int, negative: bool)
    requires Abs(r1) < bound && Abs(r2) < bound
    requires negative ==> r1 <= 0 && r2 <= 0
    requires !negative ==> r1 >= 0 && r2 >= 0
    ensures Abs(r1 - r2) < bound
  {
  }

  lemma MulDistributes(q1: int, q2: int, b: int)
    ensures q2 * b - q1 * b == (q2 - q1) * b
  {
  }

  /** A number is the result of `divide` exactly when it is a truncated
      quotient. */
  lemma DivideCharacterised(a: Int32, b: Int32, q: int)
    requires Divisible(a, b)
    ensures TruncatedQuotient(a, b, q) <==> q == Divide(a, b)
  {
    if TruncatedQuotient(a, b, q) {
      TruncatedQuotientUnique(a, b, q, Divide(a, b));
    }
  }

  lemma AbsProduct(k: int, b: int)
    ensures Abs(k * b) == Abs(k) * Abs(b)
  {
    if k < 0 && b < 0 {
      assert k * b == (-k) * (-b);
    } else if k < 0 {
      assert k * b == -((-k) * b);
    } else if b < 0 {
      assert k * b == -(k * (-b));
    }
  }

  lemma {:induction false} MulGrows(k: nat, c: nat)
    requires k >= 1
    ensures k * c >= c
    decreases k
  {
    if k > 1 {
      MulGrows(k - 1, c);
      assert k * c == (k - 1) * c + c;
    }
  }

  /** Negating the dividend negates the quotient; Dafny's Euclidean `/` has no
      such symmetry. */
  lemma DivideOdd(a: Int32, b: Int32)
    requires Divisible(a, b) && a != IntMin
    ensures Divisible(-a, b) && Divide(-a, b) == -Divide(a, b)
  {
  }

  /** `divide(-7, 2)` is -3 where Dafny's `-7 / 2` is -4. */
  lemma DivideIsNotEuclidean()
    ensures Divide(-7, 2) == -3 && -7 / 2 == -4
  {
  }

  /** The cases the blueprint's tests check. */
  lemma TestedValues()
    ensures Add(5, 5) == 10 && Add(-5, -5) == -10 && Add(5, -5) == 0
    ensures Subtract(10, 5) == 5 && Subtract(5, 10) == -5 && Subtract(5, 5) == 0
    ensures Divide(10, 5) == 2 && Divide(3, 2) == 1 && Divide(-10, 5) == -2
  {
  }
}

=== FILE: assoc.dfy ===
/** Python dictionaries as the scripts use them: keys kept in insertion order,
    and assigning to a key that is already present keeps its position. */
module Assoc {
  import opened Runtime

  /** Keys and values are strings everywhere the scripts use a dictionary. */
  type Dict = seq<(string, string)>

  function Keys(d: Dict): (ks: seq<string>)
    ensures |ks| == |d|
    ensures forall i :: 0 <= i < |d| ==> ks[i] == d[i].0
  {
    if |d| == 0 then [] else [d[0].0] + Keys(d[1..])
  }

  /** No key appears twice. */
  predicate UniqueKeys(d: Dict) {
    forall i, j :: 0 <= i < j < |d| ==> d[i].0 != d[j].0
  }

  /** `d.get(k)`. */
  function Lookup(d: Dict, k: string): (r: Option<string>)
    ensures r.None? <==> k !in Keys(d)
    ensures r.Some? ==> exists i :: 0 <= i < |d| && d[i] == (k, r.value)
  {
    if |d| == 0 then None
    else if d[0].0 == k then Some(d[0].1)
    else
      var r := Lookup(d[1..], k);
      assert Keys(d) == [d[0].0] + Keys(d[1..]);
      if r.Some? then
        var i :| 0 <= i < |d[1..]| && d[1..][i] == (k, r.value);
        assert d[i + 1] == (k, r.value);
        r
      else r
  }

  /** `d[k] = v`. */
  function Put(d: Dict, k: string, v: string): (r: Dict)
    ensures k in Keys(d) ==> Keys(r) == Keys(d)
    ensures k !in Keys(d) ==> r == d + [(k, v)]
    ensures |r| >= |d|
  {
    if |d| == 0 then [(k, v)]
    else if d[0].0 == k then [(k, v)] + d[1..]
    else
      assert Keys(d) == [d[0].0] + Keys(d[1..]);
      var rest := Put(d[1..], k, v);
      assert Keys([d[0]] + rest) == [d[0].0] + Keys(rest);
      [d[0]] + rest
  }

  /** After `d[k] = v` the key maps to `v` and every other key is unchanged. */
  lemma {:induction false} PutLookup(d: Dict, k: string, v: string, j: string)
    ensures Lookup(Put(d, k, v), j) == if j == k then Some(v) else Lookup(d, j)
  {
    if |d| > 0 && d[0].0 != k {
      PutLookup(d[1..], k, v, j);
      assert Put(d, k, v)[1..] == Put(d[1..], k, v);
    }
  }

  /** Assignment never creates a duplicate key. */
  lemma PutUnique(d: Dict, k: string, v: string)
    ensures UniqueKeys(d) ==> UniqueKeys(Put(d, k, v))
  {
    var r := Put(d, k, v);
    if UniqueKeys(d) {
      if k in Keys(d) {
        forall i, j | 0 <= i < j < |r| ensures r[i].0 != r[j].0 {
          assert r[i].0 == Keys(r)[i] == Keys(d)[i] == d[i].0;
          assert r[j].0 == Keys(r)[j] == Keys(d)[j] == d[j].0;
        }
      } else {
        forall i | 0 <= i < |d| ensures d[i].0 != k {
          assert Keys(d)[i] == d[i].0;
        }
      }
    }
  }
}

=== FILE: blpt_create.dfy ===
/** `blptcmd/create.py`: creating a project from a blueprint, the placeholder
    values derived from the project name, and the composed Dockerfile. */
module BlptCreate {
  import opened Text
  import opened Runtime
  import opened Assoc
  import opened BlptUtils

  // ---------------------------------------------------------------------
  // The placeholder values
  // ---------------------------------------------------------------------

  function TotalLength(parts: seq<string>): nat {
    if |parts| == 0 then 0 else |parts[0]| + TotalLength(parts[1..])
  }

  /** The pieces of a split hold every character except the separators. */
  lemma {:induction false} SplitLength(s: string, c: char)
    ensures TotalLength(Split(s, c)) == |s| - Count(s, c)
    decreases |s|
  {
    if |s| > 0 {
      SplitLength(s[1..], c);
      var rest := Split(s[1..], c);
      if s[0] != c {
        assert Split(s, c) == [[s[0]] + rest[0]] + rest[1..];
        assert TotalLength(rest) == |rest[0]| + TotalLength(rest[1..]);
      }
    }
  }

  /** `''.join(word.capitalize() for word in words)`. */
  function ConcatCapitalized(words: seq<string>): (r: string)
    ensures |r| == TotalLength(words)
    ensures (forall i :: 0 <= i < |words| ==> '_' !in words[i]) ==> '_' !in r
    ensures (forall i :: 0 <= i < |words| ==> '{' !in words[i]) ==> '{' !in r
  {
    if |words| == 0 then []
    else
      var head := Capitalize(words[0]);
      var rest := ConcatCapitalized(words[1..]);
      assert forall i :: 1 <= i < |words| ==> words[i] == words[1..][i - 1];
      CapitalizeFree(words[0], '_');
      CapitalizeFree(words[0], '{');
      head + rest
  }

  /** Case changes neither remove nor create a character that is not a
      letter. */
  lemma CapitalizeFree(w: string, ch: char)
    ensures !IsAsciiLetter(ch) && ch !in w ==> ch !in Capitalize(w)
  {
    if !IsAsciiLetter(ch) && ch !in w {
      var c := Capitalize(w);
      forall i | 0 <= i < |c| ensures c[i] != ch {
        if i > 0 {
          assert c[i] == c[1..][i - 1] == LowerChar(w[1..][i - 1]);
          assert w[1..][i - 1] == w[i];
        }
      }
    }
  }

  /** `{PROJECT_NAME_CAMEL}`: the `_`-separated pieces, each capitalised,
      run together.  `-` does not separate pieces. */
  function CamelCase(name: string): (r: string)
    ensures '_' !in r
    ensures |r| == |name| - Count(name, '_')
    ensures '{' !in name ==> '{' !in r
  {
    var words := Split(name, '_');
    SplitPiecesFree(name, '_');
    SplitLength(name, '_');
    assert '{' !in name ==> forall i :: 0 <= i < |words| ==> '{' !in words[i] by {
      forall i | 0 <= i < |words| ensures '{' in words[i] ==> '{' in name {
        SplitPieceChars(name, '_', i);
      }
    }
    ConcatCapitalized(words)
  }

  /** Underscores separate the words; hyphens are kept and the rest of each
      word is lower-cased. */
  lemma CamelUnderscore()
    ensures CamelCase("my_app") == "MyApp"
  {
    var a, b := "my", "app";
    assert a + "_" + b == "my_app";
    CamelTwoWords(a, b);
    assert [UpperChar(a[0])] + a[1..] + [UpperChar(b[0])] + b[1..] == "MyApp";
  }

  lemma CamelHyphen(name: string)
    requires name == "my-app"
    ensures CamelCase(name) == "My-app"
  {
    var a, b := "my", "app";
    assert name == a + "-" + b;
    CamelOneWord(name);
  }

  /** A name without `_` is one word, capitalised. */
  lemma CamelOneWord(w: string)
    requires '_' !in w && |w| > 0 && forall i :: 1 <= i < |w| ==> !IsAsciiUpper(w[i])
    ensures CamelCase(w) == [UpperChar(w[0])] + w[1..]
  {
    SplitNoSep(w, '_');
    ConcatOne(w);
    CapitalizeWord(w);
  }

  /** `a_b` is `a` and `b`, each capitalised, run together. */
  lemma CamelTwoWords(a: string, b: string)
    requires '_' !in a && |a| > 0 && forall i :: 1 <= i < |a| ==> !IsAsciiUpper(a[i])
    requires '_' !in b && |b| > 0 && forall i :: 1 <= i < |b| ==> !IsAsciiUpper(b[i])
    ensures CamelCase(a + "_" + b) == [UpperChar(a[0])] + a[1..] + [UpperChar(b[0])] + b[1..]
  {
    SplitConcat(a, '_', b);
    SplitNoSep(b, '_');
    ConcatTwo(a, b);
    CapitalizeWord(a);
    CapitalizeWord(b);
  }

  /** A word whose tail has no capitals is capitalised by its first letter
      alone. */
  lemma CapitalizeWord(w: string)
    requires |w| > 0 && forall i :: 1 <= i < |w| ==> !IsAsciiUpper(w[i])
    ensures Capitalize(w) == [UpperChar(w[0])] + w[1..]
  {
    assert Lower(w[1..]) == w[1..];
  }

  /** One word is capitalised on its own. */
  lemma ConcatOne(a: string)
    ensures ConcatCapitalized([a]) == Capitalize(a)
  {
    assert [a][1..] == [];
  }

  /** Capitalising word by word: the words of `a + b` give the text of `a`
      followed by the text of `b`. */
  lemma {:induction false} ConcatCapitalizedAppend(a: seq<string>, b: seq<string>)
    ensures ConcatCapitalized(a + b) == ConcatCapitalized(a) + ConcatCapitalized(b)
  {
    if |a| > 0 {
      var ab := a + b;
      var tail := a[1..];
      assert ab[0] == a[0] && ab[1..] == tail + b;
      ConcatStep(ab);
      ConcatStep(a);
      ConcatCapitalizedAppend(tail, b);
      StringAssoc(Capitalize(a[0]), ConcatCapitalized(tail), ConcatCapitalized(b));
    } else {
      assert a + b == b;
    }
  }

  lemma StringAssoc(x: string, y: string, z: string)
    ensures x + (y + z) == (x + y) + z
  {
  }

  lemma ConcatStep(ws: seq<string>)
    requires |ws| > 0
    ensures ConcatCapitalized(ws) == Capitalize(ws[0]) + ConcatCapitalized(ws[1..])
  {
  }

  /** A name without `_` is a single word: it is capitalised whole, so the
      rest of it is lower-cased. */
  lemma CamelNoUnderscore(w: string)
    requires '_' !in w
    ensures CamelCase(w) == Capitalize(w)
  {
    SplitNoSep(w, '_');
    ConcatOne(w);
  }

  /** The first `_` ends the first word: it is dropped, the word before it is
      capitalised, and the rest of the name is converted on its own. */
  lemma CamelSplitsAtUnderscore(a: string, b: string)
    requires '_' !in a
    ensures CamelCase(a + "_" + b) == Capitalize(a) + CamelCase(b)
  {
    SplitConcat(a, '_', b);
    ConcatCapitalizedAppend([a], Split(b, '_'));
    ConcatOne(a);
  }

  lemma ConcatTwo(a: string, b: string)
    ensures ConcatCapitalized([a, b]) == Capitalize(a) + Capitalize(b)
  {
    assert [a, b][1..] == [b];
    ConcatOne(b);
  }

  const NameKey: string := "{PROJECT_NAME}"
  const UpperKey: string := "{PROJECT_NAME_UPPER}"
  const LowerKey: string := "{PROJECT_NAME_LOWER}"
  const CamelKey: string := "{PROJECT_NAME_CAMEL}"

  const PlaceholderKeys: seq<string> := [NameKey, UpperKey, LowerKey, CamelKey]

  /** The replacement dictionary of `create_command`, in its order. */
  function Replacements(name: string): (d: Dict)
    ensures Keys(d) == PlaceholderKeys
    ensures UniqueKeys(d)
  {
    [(NameKey, name), (UpperKey, Upper(name)), (LowerKey, Lower(name)), (CamelKey, CamelCase(name))]
  }

  /** The three placeholders the Dockerfile substitutes; the CamelCase one is
      not among them. */
  function DockerfileReplacements(name: string): (d: Dict)
    ensures Keys(d) == [NameKey, UpperKey, LowerKey]
  {
    Replacements(name)[..3]
  }

  /** In a text whose only `{` is its first character, a pattern starting
      with `{` can only occur as a prefix. */
  lemma HeadOnlyOccurs(s: string, p: string)
    requires |s| > 0 && s[0] == '{' && '{' !in s[1..]
    requires |p| > 0 && p[0] == '{'
    ensures Contains(s, p) ==> StartsWith(s, p)
  {
    assert forall m :: 1 <= m < |s| ==> s[m] == s[1..][m - 1];
    if Contains(s, p) {
      var i :| 0 <= i <= |s| && OccursAt(s, p, i);
      assert s[i..i + |p|][0] == s[i];
    }
  }

  /** A pattern starting with `{` occurs only in a text holding a `{`. */
  lemma BraceOccurs(s: string, p: string)
    requires |p| > 0 && p[0] == '{'
    ensures Contains(s, p) ==> '{' in s
  {
    if Contains(s, p) {
      var i :| 0 <= i <= |s| && OccursAt(s, p, i);
      assert s[i..i + |p|][0] == s[i];
    }
  }

  /** No placeholder is a prefix of a later one. */
  lemma KeysNotPrefixes(j: nat, k: nat)
    requires j < k < 4
    ensures !StartsWith(PlaceholderKeys[k], PlaceholderKeys[j])
  {
    var ks := PlaceholderKeys;
    assert ks[0][13] == '}' && ks[1][13] == '_' && ks[2][13] == '_' && ks[3][13] == '_';
    assert ks[1][14] == 'U' && ks[2][14] == 'L' && ks[3][14] == 'C';
    PrefixAgrees(ks[k], ks[j], 13);
    PrefixAgrees(ks[k], ks[j], 14);
  }

  /** Every placeholder opens with its only `{`. */
  lemma KeyShape(k: nat)
    requires k < 4
    ensures |PlaceholderKeys[k]| > 13 && PlaceholderKeys[k][0] == '{' && '{' !in PlaceholderKeys[k][1..]
  {
    if k == 0 {
      assert '{' !in NameKey[1..];
    } else if k == 1 {
      assert '{' !in UpperKey[1..];
    } else if k == 2 {
      assert '{' !in LowerKey[1..];
    } else {
      assert '{' !in CamelKey[1..];
    }
  }

  lemma PrefixAgrees(a: string, b: string, m: nat)
    ensures m < |b| && StartsWith(a, b) ==> a[m] == b[m]
  {
    if m < |b| && StartsWith(a, b) {
      assert a[..|b|][m] == a[m];
    }
  }

  lemma ReplaceWhole(p: string, r: string)
    requires |p| > 0
    ensures ReplaceAll(p, p, r) == r
  {
    assert StartsWith(p, p);
    assert p[|p|..] == [];
  }

  /** A valid name and the values derived from it contain no `{`. */
  lemma ValuesBraceFree(name: string)
    requires ValidateProjectName(name).valid
    ensures forall i :: 0 <= i < 4 ==> '{' !in Replacements(name)[i].1
  {
    forall k | 0 <= k < |name| ensures name[k] != '{' {
      ValidNameShape(name, k);
    }
  }

  /** The placeholders before the `k`-th leave it alone. */
  lemma EarlierKeysAbsent(d: Dict, k: nat)
    requires Keys(d) == PlaceholderKeys && k < 4
    ensures ApplyReplacements(d[k].0, d[..k]) == d[k].0
  {
    var key := d[k].0;
    assert Keys(d)[k] == key;
    KeyShape(k);
    forall j | 0 <= j < k ensures |d[..k][j].0| > 0 && !Contains(key, d[..k][j].0) {
      assert d[..k][j] == d[j];
      assert Keys(d)[j] == d[j].0;
      KeyShape(j);
      KeysNotPrefixes(j, k);
      HeadOnlyOccurs(key, d[j].0);
    }
    assert ApplyReplacements(key, d[..k]) == key;
  }

  /** A text without `{` is left alone by any of the placeholders. */
  lemma BraceFreeUntouched(s: string, d: Dict)
    requires '{' !in s
    requires forall j :: 0 <= j < |d| ==> d[j].0 in PlaceholderKeys
    ensures ApplyReplacements(s, d) == s
  {
    forall j | 0 <= j < |d| ensures |d[j].0| > 0 && !Contains(s, d[j].0) {
      var k :| 0 <= k < 4 && PlaceholderKeys[k] == d[j].0;
      KeyShape(k);
      BraceOccurs(s, d[j].0);
    }
    assert ApplyReplacements(s, d) == s;
  }

  /** A file whose whole content is one placeholder ends up as that
      placeholder's value. */
  lemma PlaceholderRenders(name: string, k: nat)
    requires ValidateProjectName(name).valid && k < 4
    ensures ApplyReplacements(Replacements(name)[k].0, Replacements(name)) == Replacements(name)[k].1
  {
    ValuesBraceFree(name);
    KeyRenders(Replacements(name), k);
  }

  /** The same for any dictionary over the four keys whose values are free
      of `{`. */
  lemma KeyRenders(d: Dict, k: nat)
    requires Keys(d) == PlaceholderKeys && k < 4
    requires forall i :: 0 <= i < 4 ==> '{' !in d[i].1
    ensures ApplyReplacements(d[k].0, d) == d[k].1
  {
    var later := d[k + 1..];
    EarlierKeysAbsent(d, k);
    OwnKey(d, k);
    LaterKeys(d, k, later);
    assert '{' !in d[k].1;
    BraceFreeUntouched(d[k].1, later);
    RenderAt(d, k);
  }

  /** A key untouched by the pairs before it, replaced by its own pair, and
      a value untouched by the pairs after it: the key renders as the value. */
  lemma RenderAt(d: Dict, k: nat)
    requires k < |d| && |d[k].0| > 0
    requires ApplyReplacements(d[k].0, d[..k]) == d[k].0
    requires ApplyReplacements(d[k].1, d[k + 1..]) == d[k].1
    ensures ApplyReplacements(d[k].0, d) == d[k].1
  {
    assert d == d[..k] + ([d[k]] + d[k + 1..]);
    RenderSteps(d[k].0, d[k].1, d[..k], d[k + 1..]);
  }

  lemma OwnKey(d: Dict, k: nat)
    requires Keys(d) == PlaceholderKeys && k < 4
    ensures |d[k].0| > 0
  {
    assert Keys(d)[k] == d[k].0;
    KeyShape(k);
  }

  lemma LaterKeys(d: Dict, k: nat, later: Dict)
    requires Keys(d) == PlaceholderKeys && k < 4 && later == d[k + 1..]
    ensures forall j :: 0 <= j < |later| ==> later[j].0 in PlaceholderKeys
  {
    forall j | 0 <= j < |later| ensures later[j].0 in PlaceholderKeys {
      assert later[j] == d[k + 1 + j] && Keys(d)[k + 1 + j] == d[k + 1 + j].0;
    }
  }

  lemma RenderSteps(key: string, value: string, before: Dict, later: Dict)
    requires |key| > 0
    requires ApplyReplacements(key, before) == key
    requires ApplyReplacements(value, later) == value
    ensures ApplyReplacements(key, before + ([(key, value)] + later)) == value
  {
    ReplaceWhole(key, value);
    assert ApplyReplacements(key, [(key, value)]) == value;
    ApplyAppend(key, before, [(key, value)] + later);
    ApplyAppend(key, [(key, value)], later);
  }

  // ---------------------------------------------------------------------
  // generate_dockerfile
  // ---------------------------------------------------------------------

  /** The base used when the base Dockerfile is missing or unreadable:
      "FROM ubuntu:22.04", a blank line, and a comment naming the project. */
  const FallbackBase: string := FallbackHead + (NameKey + "\n")
  const FallbackHead: string := "FROM ubuntu:22.04\n\n# Base Dockerfile for "
  const SpecificMarker: string := "# {BLUEPRINT_SPECIFIC}"
  const AdditionsHeader: string := "\n\n# Blueprint specific additions\n"

  /** The Dockerfile before substitution.  `base` is the content of the base
      Dockerfile (`None` when it is missing or cannot be read) and `template`
      that of the blueprint's template (`None` when it cannot be read). */
  function ComposeDockerfile(base: Option<string>, template: Option<string>): (c: string)
    ensures var b := if base.Some? then base.value else FallbackBase;
            && (template.None? ==> c == b)
            && (template.Some? && Contains(b, SpecificMarker) ==> c == ReplaceAll(b, SpecificMarker, template.value))
            && (template.Some? && !Contains(b, SpecificMarker) ==>
                  StartsWith(c, b) && EndsWith(c, template.value) && c == b + AdditionsHeader + template.value)
  {
    var b := if base.Some? then base.value else FallbackBase;
    match template
    case None => b
    case Some(t) =>
      if Contains(b, SpecificMarker) then ReplaceAll(b, SpecificMarker, t)
      else
        var c := b + AdditionsHeader + t;
        assert c[..|b|] == b && c[|c| - |t|..] == t;
        c
  }

  /** `generate_dockerfile`: the content written to the project's
      `Dockerfile`.  A composed Dockerfile without any `{` holds no
      placeholder and is written as it is. */
  function GenerateDockerfile(base: Option<string>, template: Option<string>, name: string): (r: string)
    ensures '{' !in ComposeDockerfile(base, template) ==> r == ComposeDockerfile(base, template)
  {
    var c := ComposeDockerfile(base, template);
    var d := DockerfileReplacements(name);
    if '{' !in c then
      forall j | 0 <= j < |d| ensures d[j].0 in PlaceholderKeys {
        assert Keys(d)[j] == d[j].0;
      }
      BraceFreeUntouched(c, d);
      ApplyReplacements(c, d)
    else ApplyReplacements(c, d)
  }

  lemma HeadBraceFree()
    ensures '{' !in FallbackHead
  {
  }

  lemma TailOnce(name: string)
    ensures ReplaceAll(NameKey + "\n", NameKey, name) == name + "\n"
  {
    assert StartsWith(NameKey + "\n", NameKey);
    assert (NameKey + "\n")[|NameKey|..] == "\n";
    assert !StartsWith("\n", NameKey);
    assert ReplaceAll("\n", NameKey, name) == "\n" + ReplaceAll([], NameKey, name);
  }

  lemma NameAfterFree(head: string, name: string)
    requires '{' !in head
    ensures ReplaceAll(head + (NameKey + "\n"), NameKey, name) == head + name + "\n"
  {
    ReplaceAfterFree(head, NameKey + "\n", NameKey, name);
    TailOnce(name);
  }

  lemma FallbackOnce(name: string)
    ensures ReplaceAll(FallbackBase, NameKey, name) == FallbackHead + name + "\n"
  {
    HeadBraceFree();
    NameAfterFree(FallbackHead, name);
  }

  /** Without a base Dockerfile or template the fallback names the project. */
  lemma FallbackNamesProject(name: string)
    requires ValidateProjectName(name).valid
    ensures GenerateDockerfile(None, None, name) == FallbackHead + name + "\n"
  {
    var d := DockerfileReplacements(name);
    var once := FallbackHead + name + "\n";
    FallbackOnce(name);
    assert d[0] == (NameKey, name);
    ValuesBraceFree(name);
    HeadBraceFree();
    assert '{' !in once;
    assert d[1].0 == UpperKey && d[2].0 == LowerKey;
    FirstThenFree(FallbackBase, once, d);
  }

  /** When the first pair turns `s` into text without `{`, the two pairs
      after it change nothing more. */
  lemma FirstThenFree(s: string, once: string, d: Dict)
    requires |d| == 3 && ReplaceAll(s, d[0].0, d[0].1) == once && '{' !in once
    requires d[1].0 in PlaceholderKeys && d[2].0 in PlaceholderKeys
    ensures ApplyReplacements(s, d) == once
  {
    assert ApplyReplacements(s, d[..1]) == ApplyReplacements(once, []) == once;
    assert d[1..][0].0 == d[1].0 && d[1..][1].0 == d[2].0 && |d[1..]| == 2;
    BraceFreeUntouched(once, d[1..]);
    assert d == d[..1] + d[1..];
    ApplyAppend(s, d[..1], d[1..]);
  }

  /** The CamelCase placeholder is left as it is in the Dockerfile. */
  lemma CamelKeptInDockerfile(name: string)
    ensures GenerateDockerfile(Some(CamelKey), None, name) == CamelKey
  {
    var d := Replacements(name);
    EarlierKeysAbsent(d, 3);
    assert d[3].0 == CamelKey && d[..3] == DockerfileReplacements(name);
  }

  // ---------------------------------------------------------------------
  // create_command
  // ---------------------------------------------------------------------

  const Extensions: seq<string> :=
    [".cpp", ".h", ".py", ".md", ".txt", ".html", ".css", ".js",
     ".json", ".toml", ".yaml", ".yml", ".rs", ".go", "CMakeLists.txt"]

  datatype CreateOutcome =
    | UnknownBlueprint(suggestions: seq<string>)
    | InvalidName(message: string)
    | TargetExists
    | CopyFailed
    | Created(processed: nat, dockerfile: Option<string>)

  /** The command returns true only for a created project. */
  predicate Succeeded(r: CreateOutcome) {
    r.Created?
  }

  /** The blueprint was copied into the target directory (or tried to be). */
  predicate Copied(r: CreateOutcome) {
    r.CopyFailed? || r.Created?
  }

  /** The steps of `create_command` after the name check chosen by
      `validate`. */
  function CreateWith(validate: string -> Validation, blueprints: seq<string>, blueprint: string, projectDir: string,
                      targetExists: bool, copyOk: bool, files: seq<string>, edited: string -> bool,
                      hasTemplate: bool, base: Option<string>, template: Option<string>): CreateOutcome
  {
    if blueprint !in blueprints then UnknownBlueprint(Suggest(blueprint, blueprints))
    else
      var v := validate(projectDir);
      if !v.valid then InvalidName(v.message)
      else if targetExists then TargetExists
      else if !copyOk then CopyFailed
      else
        var n := ProcessFiles(files, Extensions, edited);
        Created(n, if hasTemplate then Some(GenerateDockerfile(base, template, projectDir)) else None)
  }

  /** `create_command` as written, checking the name with the pattern as
      written.  `blueprints` are the names found in the blueprints
      directory, `targetExists` whether the project directory is already
      there, `copyOk` whether the copy succeeded, `files` the files walked in
      the copy, `edited` whether each one was rewritten, `hasTemplate` whether
      the blueprint has a `Dockerfile.template`, and `base`/`template` what
      reading the two Dockerfiles gave. */
  function CreateCommand(blueprints: seq<string>, blueprint: string, projectDir: string,
                         targetExists: bool, copyOk: bool, files: seq<string>, edited: string -> bool,
                         hasTemplate: bool, base: Option<string>, template: Option<string>): (r: CreateOutcome)
    ensures blueprint !in blueprints ==> r == UnknownBlueprint(Suggest(blueprint, blueprints))
    ensures blueprint in blueprints && !ValidateAsWritten(projectDir).valid ==>
              r == InvalidName(ValidateAsWritten(projectDir).message) && r.message != []
    ensures blueprint in blueprints && ValidateAsWritten(projectDir).valid && targetExists ==> r == TargetExists
    ensures Copied(r) <==> blueprint in blueprints && ValidateAsWritten(projectDir).valid && !targetExists
    ensures Succeeded(r) <==> Copied(r) && copyOk
    ensures r.Created? ==> r.processed <= |files|
    ensures r.Created? ==> (r.dockerfile.Some? <==> hasTemplate)
    ensures r.Created? && hasTemplate ==> r.dockerfile.value == GenerateDockerfile(base, template, projectDir)
  {
    CreateWith(ValidateAsWritten, blueprints, blueprint, projectDir, targetExists, copyOk, files, edited,
               hasTemplate, base, template)
  }

  /** `create_command` with the name check anchored at the true end of the
      name. */
  function CreateCorrected(blueprints: seq<string>, blueprint: string, projectDir: string,
                           targetExists: bool, copyOk: bool, files: seq<string>, edited: string -> bool,
                           hasTemplate: bool, base: Option<string>, template: Option<string>): (r: CreateOutcome)
    ensures blueprint !in blueprints ==> r == UnknownBlueprint(Suggest(blueprint, blueprints))
    ensures blueprint in blueprints && !ValidateProjectName(projectDir).valid ==>
              r == InvalidName(ValidateProjectName(projectDir).message) && r.message != []
    ensures blueprint in blueprints && ValidateProjectName(projectDir).valid && targetExists ==> r == TargetExists
    ensures Copied(r) <==> blueprint in blueprints && ValidateProjectName(projectDir).valid && !targetExists
    ensures Succeeded(r) <==> Copied(r) && copyOk
    ensures r.Created? ==> r.processed <= |files|
    ensures r.Created? ==> (r.dockerfile.Some? <==> hasTemplate)
    ensures r.Created? && hasTemplate ==> r.dockerfile.value == GenerateDockerfile(base, template, projectDir)
  {
    CreateWith(ValidateProjectName, blueprints, blueprint, projectDir, targetExists, copyOk, files, edited,
               hasTemplate, base, template)
  }

  /** A project the command as written creates has a name the pattern as
      written accepts, a known blueprint and a new target. */
  lemma CreatedNameAsWritten(blueprints: seq<string>, blueprint: string, projectDir: string,
                             targetExists: bool, copyOk: bool, files: seq<string>, edited: string -> bool,
                             hasTemplate: bool, base: Option<string>, template: Option<string>)
    requires CreateCommand(blueprints, blueprint, projectDir, targetExists, copyOk, files, edited,
                           hasTemplate, base, template).Created?
    ensures MatchesAsWritten(projectDir) && Lower(projectDir) !in ReservedNames
    ensures blueprint in blueprints && !targetExists
  {
  }

  /** The command as written copies the blueprint into a directory named
      `app` followed by a newline; the corrected one refuses the name. */
  lemma NewlineNameCopied(blueprints: seq<string>, blueprint: string, files: seq<string>, edited: string -> bool,
                          hasTemplate: bool, base: Option<string>, template: Option<string>)
    requires blueprint in blueprints
    ensures CreateCommand(blueprints, blueprint, "app\n", false, true, files, edited, hasTemplate, base, template).Created?
    ensures CreateCorrected(blueprints, blueprint, "app\n", false, true, files, edited, hasTemplate, base, template)
              == InvalidName(CharsMessage)
  {
    TrailingNewlineAccepted();
    var name := "app\n";
    assert !WellFormedName(name) by { assert !NameChar(name[3]); }
  }

  /** A project the corrected command creates has a well-formed name. */
  lemma CreatedNameWellFormed(blueprints: seq<string>, blueprint: string, projectDir: string,
                              targetExists: bool, copyOk: bool, files: seq<string>, edited: string -> bool,
                              hasTemplate: bool, base: Option<string>, template: Option<string>)
    requires CreateCorrected(blueprints, blueprint, projectDir, targetExists, copyOk, files, edited,
                             hasTemplate, base, template).Created?
    ensures WellFormedName(projectDir) && blueprint in blueprints && !targetExists
  {
  }
}

=== FILE: blpt_info.dfy ===
/** `blptcmd/info.py`: the detailed description, the file tree and the
    project facts shown by `blpt info`. */
module BlptInfo {
  import opened Text
  import opened Runtime
  import opened BlptUtils

  // ---------------------------------------------------------------------
  // get_blueprint_description
  // ---------------------------------------------------------------------

  /** `line.strip()` for every line. */
  function StripLines(lines: seq<string>): (r: seq<string>)
    ensures |r| == |lines|
    ensures forall i :: 0 <= i < |lines| ==> r[i] == Strip(lines[i])
  {
    seq(|lines|, i requires 0 <= i < |lines| => Strip(lines[i]))
  }

  /** `line.startswith('#')`. */
  predicate Heading(line: string) {
    |line| > 0 && line[0] == '#'
  }

  /** The paragraph scan over the stripped README lines: `foundHeader` turns
      on at the first `#` line, and the collected lines end at the first blank
      line after some were collected. */
  function Paragraph(lines: seq<string>, foundHeader: bool, collected: seq<string>): (r: seq<string>)
    ensures |r| >= |collected| && r[..|collected|] == collected
    decreases |lines|
  {
    if |lines| == 0 then collected
    else if Heading(lines[0]) then Paragraph(lines[1..], true, collected)
    else if foundHeader && lines[0] != [] then Paragraph(lines[1..], foundHeader, collected + [lines[0]])
    else if collected != [] && lines[0] == [] then collected
    else Paragraph(lines[1..], foundHeader, collected)
  }

  /** Each line of `r` is non-empty, not a heading, and taken from `collected`
      or from `lines`. */
  predicate DrawnFrom(r: seq<string>, collected: seq<string>, lines: seq<string>) {
    forall i :: 0 <= i < |r| ==> r[i] != [] && !Heading(r[i]) && (r[i] in collected || r[i] in lines)
  }

  /** Every line of the paragraph is a non-empty line of the README that is
      not a heading. */
  lemma {:induction false} ParagraphLines(lines: seq<string>, foundHeader: bool, collected: seq<string>)
    requires forall i :: 0 <= i < |collected| ==> collected[i] != [] && !Heading(collected[i])
    ensures DrawnFrom(Paragraph(lines, foundHeader, collected), collected, lines)
    decreases |lines|
  {
    var r := Paragraph(lines, foundHeader, collected);
    if |lines| > 0 && !(collected != [] && lines[0] == []) {
      var rest := lines[1..];
      var found := foundHeader || Heading(lines[0]);
      var more := if !Heading(lines[0]) && foundHeader && lines[0] != [] then collected + [lines[0]] else collected;
      var r' := Paragraph(rest, found, more);
      assert r == r';
      ParagraphLines(rest, found, more);
      assert DrawnFrom(r', more, rest);
      forall i | 0 <= i < |r| ensures r[i] != [] && !Heading(r[i]) && (r[i] in collected || r[i] in lines) {
        assert r[i] == r'[i];
        if r[i] in rest {
          assert r[i] == lines[1 + IndexIn(r[i], rest)];
        }
      }
    } else {
      assert r == collected;
    }
  }

  /** Where an element sits in a sequence. */
  function IndexIn<T(==)>(x: T, xs: seq<T>): (k: nat)
    requires x in xs
    ensures k < |xs| && xs[k] == x
  {
    if xs[0] == x then 0 else 1 + IndexIn(x, xs[1..])
  }

  /** Before the first heading nothing is collected, so those lines are
      skipped whatever they hold. */
  lemma {:induction false} SkipsBeforeHeading(before: seq<string>, rest: seq<string>)
    requires forall i :: 0 <= i < |before| ==> !Heading(before[i])
    ensures Paragraph(before + rest, false, []) == Paragraph(rest, false, [])
  {
    if |before| > 0 {
      assert (before + rest)[0] == before[0];
      assert (before + rest)[1..] == before[1..] + rest;
      assert forall i :: 1 <= i < |before| ==> before[i] == before[1..][i - 1];
      SkipsBeforeHeading(before[1..], rest);
    } else {
      assert before + rest == rest;
    }
  }

  /** A heading inside the paragraph is dropped without ending it, and the
      blank line after the text does end it: whatever follows is ignored. */
  lemma HeadingInsideParagraph(title: string, a: string, note: string, b: string, rest: seq<string>)
    requires Heading(title) && Heading(note)
    requires a != [] && !Heading(a) && b != [] && !Heading(b)
    ensures Paragraph([title, a, note, b, ""] + rest, false, []) == [a, b]
  {
    var l0 := [title, a, note, b, ""] + rest;
    var l1 := [a, note, b, ""] + rest;
    var l2 := [note, b, ""] + rest;
    var l3 := [b, ""] + rest;
    var l4 := [""] + rest;
    assert l0[0] == title && l0[1..] == l1;
    assert l1[0] == a && l1[1..] == l2;
    assert l2[0] == note && l2[1..] == l3;
    assert l3[0] == b && l3[1..] == l4;
    assert l4[0] == "";
    assert [] + [a] == [a] && [a] + [b] == [a, b];
    assert Paragraph(l0, false, []) == Paragraph(l1, true, []);
    assert Paragraph(l1, true, []) == Paragraph(l2, true, [a]);
    assert Paragraph(l2, true, [a]) == Paragraph(l3, true, [a]);
    assert Paragraph(l3, true, [a]) == Paragraph(l4, true, [a, b]);
  }

  /** Some line after a heading (or after the start, once a heading was
      seen) has text and is not itself a heading: exactly what the scan
      needs to collect anything. */
  predicate TextAfterHeading(lines: seq<string>, foundHeader: bool) {
    exists j :: 0 <= j < |lines| && lines[j] != [] && !Heading(lines[j]) &&
      (foundHeader || exists h :: 0 <= h < j && Heading(lines[h]))
  }

  /** The scan comes back empty exactly when nothing was collected before and
      no line of text follows a heading. */
  lemma {:induction false} ParagraphEmptyIff(lines: seq<string>, foundHeader: bool, collected: seq<string>)
    ensures Paragraph(lines, foundHeader, collected) == [] <==>
              collected == [] && !TextAfterHeading(lines, foundHeader)
    decreases |lines|
  {
    if |lines| > 0 {
      var rest := lines[1..];
      if Heading(lines[0]) {
        ParagraphEmptyIff(rest, true, collected);
        HeadingStartsText(lines);
      } else if foundHeader && lines[0] != [] {
        assert TextAfterHeading(lines, foundHeader);
      } else if collected != [] && lines[0] == [] {
      } else {
        ParagraphEmptyIff(rest, foundHeader, collected);
        PlainLineSkipped(lines, foundHeader);
      }
    }
  }

  /** After a heading, text anywhere in the remaining lines counts. */
  lemma HeadingStartsText(lines: seq<string>)
    requires |lines| > 0 && Heading(lines[0])
    ensures TextAfterHeading(lines, false) <==> TextAfterHeading(lines[1..], true)
    ensures TextAfterHeading(lines, true) <==> TextAfterHeading(lines[1..], true)
  {
    var rest := lines[1..];
    if TextAfterHeading(rest, true) {
      var j :| 0 <= j < |rest| && rest[j] != [] && !Heading(rest[j]);
      assert lines[j + 1] == rest[j];
      assert Heading(lines[0]) && 0 < j + 1;
    }
    if TextAfterHeading(lines, false) || TextAfterHeading(lines, true) {
      var j :| 0 <= j < |lines| && lines[j] != [] && !Heading(lines[j]);
      assert j > 0 && rest[j - 1] == lines[j];
    }
  }

  /** A first line that is neither a heading nor collectable changes nothing
      about what follows. */
  lemma PlainLineSkipped(lines: seq<string>, foundHeader: bool)
    requires |lines| > 0 && !Heading(lines[0]) && (!foundHeader || lines[0] == [])
    ensures TextAfterHeading(lines, foundHeader) <==> TextAfterHeading(lines[1..], foundHeader)
  {
    var rest := lines[1..];
    if TextAfterHeading(rest, foundHeader) {
      var j :| 0 <= j < |rest| && rest[j] != [] && !Heading(rest[j]) &&
        (foundHeader || exists h :: 0 <= h < j && Heading(rest[h]));
      assert lines[j + 1] == rest[j];
      if !foundHeader {
        var h :| 0 <= h < j && Heading(rest[h]);
        assert lines[h + 1] == rest[h];
      }
    }
    if TextAfterHeading(lines, foundHeader) {
      var j :| 0 <= j < |lines| && lines[j] != [] && !Heading(lines[j]) &&
        (foundHeader || exists h :: 0 <= h < j && Heading(lines[h]));
      assert j > 0 && rest[j - 1] == lines[j];
      if !foundHeader {
        var h :| 0 <= h < j && Heading(lines[h]);
        assert h > 0 && rest[h - 1] == lines[h];
      }
    }
  }

  /** The stripped lines of a README. */
  function ReadmeLines(readme: string): (ls: seq<string>)
    ensures forall i :: 0 <= i < |ls| ==> '\n' !in ls[i]
  {
    var pieces := Split(readme, '\n');
    SplitPiecesFree(readme, '\n');
    forall i | 0 <= i < |pieces| ensures '\n' !in Strip(pieces[i]) {
      StripChars(pieces[i]);
    }
    StripLines(pieces)
  }

  /** `get_blueprint_description` of the info command: when some line of
      text follows a heading, the paragraph joined with single spaces, a
      single line; otherwise a generic text naming the directory. */
  function InfoDescription(readme: Option<string>, blueprintPath: string): (d: string)
    ensures readme.Some? && TextAfterHeading(ReadmeLines(readme.value), false) ==>
              d == Join(Paragraph(ReadmeLines(readme.value), false, []), " ") && d != [] && '\n' !in d
    ensures readme.None? || !TextAfterHeading(ReadmeLines(readme.value), false) ==>
              d == "A template for " + Basename(blueprintPath) + " projects"
  {
    var para :=
      if readme.Some? then
        ParagraphEmptyIff(ReadmeLines(readme.value), false, []);
        Paragraph(ReadmeLines(readme.value), false, [])
      else [];
    if para != [] then
      ParagraphLines(ReadmeLines(readme.value), false, []);
      JoinWithout(para, " ", '\n');
      JoinNonEmpty(para, " ");
      Join(para, " ")
    else "A template for " + Basename(blueprintPath) + " projects"
  }

  /** A character in no piece and not in the separator is not in the join. */
  lemma {:induction false} JoinWithout(parts: seq<string>, sep: string, c: char)
    requires forall i :: 0 <= i < |parts| ==> c !in parts[i]
    requires c !in sep
    ensures c !in Join(parts, sep)
  {
    if |parts| > 1 {
      JoinWithout(parts[1..], sep, c);
    }
  }

  lemma JoinNonEmpty(parts: seq<string>, sep: string)
    requires |parts| > 0 && parts[0] != []
    ensures Join(parts, sep) != []
  {
  }

  // ---------------------------------------------------------------------
  // show_directory_structure
  // ---------------------------------------------------------------------

  /** What a directory holds: files, and directories with their contents. */
  datatype Entry = File(name: string) | Dir(name: string, children: seq<Entry>)

  /** `name.startswith('.')`. */
  predicate Dotted(name: string) {
    |name| > 0 && name[0] == '.'
  }

  predicate Hidden(e: Entry) {
    Dotted(e.name)
  }

  /** The entries not starting with `.`, in listing order. */
  function Visible(es: seq<Entry>): (r: seq<Entry>)
    ensures forall x :: x in r <==> x in es && !Hidden(x)
    ensures multiset(r) <= multiset(es)
  {
    if |es| == 0 then []
    else
      var rest := Visible(es[1..]);
      assert es == [es[0]] + es[1..];
      if Hidden(es[0]) then rest else [es[0]] + rest
  }

  /** Python's `<=` on strings: code point by code point, a prefix first. */
  predicate NameLe(a: string, b: string) {
    if |a| == 0 then true
    else if |b| == 0 then false
    else if a[0] != b[0] then a[0] < b[0]
    else NameLe(a[1..], b[1..])
  }

  lemma {:induction false} NameLeTotal(a: string, b: string)
    ensures NameLe(a, b) || NameLe(b, a)
  {
    if |a| > 0 && |b| > 0 && a[0] == b[0] {
      NameLeTotal(a[1..], b[1..]);
    }
  }

  predicate Sorted(es: seq<Entry>) {
    forall i :: 0 <= i < |es| - 1 ==> NameLe(es[i].name, es[i + 1].name)
  }

  function Insert(e: Entry, es: seq<Entry>): (r: seq<Entry>)
    requires Sorted(es)
    ensures Sorted(r)
    ensures multiset(r) == multiset(es) + multiset{e}
    ensures |r| == |es| + 1
    ensures r[0] == e || (|es| > 0 && r[0] == es[0])
  {
    if |es| == 0 then [e]
    else if NameLe(e.name, es[0].name) then [e] + es
    else
      NameLeTotal(e.name, es[0].name);
      var rest := Insert(e, es[1..]);
      assert es == [es[0]] + es[1..];
      [es[0]] + rest
  }

  /** `sorted(...)`: ordered by name, the same entries. */
  function SortEntries(es: seq<Entry>): (r: seq<Entry>)
    ensures Sorted(r)
    ensures multiset(r) == multiset(es)
  {
    if |es| == 0 then []
    else
      assert es == [es[0]] + es[1..];
      Insert(es[0], SortEntries(es[1..]))
  }

  /** One printed line of the tree, before its prefix is drawn. */
  datatype TreeLine = TreeLine(depth: nat, last: bool, text: string)

  function Label(e: Entry): string {
    if e.Dir? then e.name + "/" else e.name
  }

  /** `show_directory_structure(directory, indent)`. */
  function Render(es: seq<Entry>, indent: nat): (r: seq<TreeLine>)
    ensures forall i :: 0 <= i < |r| ==> r[i].depth >= indent && !Dotted(r[i].text)
    decreases es, 1
  {
    var items := SortEntries(Visible(es));
    assert forall x :: x in items ==> x in es && !Hidden(x) by {
      forall x | x in items ensures x in es && !Hidden(x) {
        assert x in multiset(items);
      }
    }
    RenderFrom(items, 0, indent, es)
  }

  function RenderFrom(items: seq<Entry>, k: nat, indent: nat, es: seq<Entry>): (r: seq<TreeLine>)
    requires k <= |items|
    requires forall x :: x in items ==> x in es && !Hidden(x)
    ensures forall i :: 0 <= i < |r| ==> r[i].depth >= indent && !Dotted(r[i].text)
    decreases es, 0, |items| - k
  {
    if k == |items| then []
    else
      var item := items[k];
      assert item in es;
      var line := TreeLine(indent, k == |items| - 1, Label(item));
      assert !Hidden(item);
      assert !Dotted(line.text) by {
        if |item.name| > 0 {
          assert Label(item)[0] == item.name[0];
        } else if item.Dir? {
          assert Label(item) == "/";
        }
      }
      var sub := if item.Dir? then Render(item.children, indent + 1) else [];
      [line] + sub + RenderFrom(items, k + 1, indent, es)
  }

  /** The lines drawn at one depth. */
  function AtDepth(lines: seq<TreeLine>, depth: nat): (r: seq<TreeLine>)
    ensures forall i :: 0 <= i < |r| ==> r[i].depth == depth
  {
    if |lines| == 0 then []
    else if lines[0].depth == depth then [lines[0]] + AtDepth(lines[1..], depth)
    else AtDepth(lines[1..], depth)
  }

  lemma {:induction false} AtDepthAppend(a: seq<TreeLine>, b: seq<TreeLine>, depth: nat)
    ensures AtDepth(a + b, depth) == AtDepth(a, depth) + AtDepth(b, depth)
  {
    if |a| > 0 {
      assert (a + b)[0] == a[0] && (a + b)[1..] == a[1..] + b;
      AtDepthAppend(a[1..], b, depth);
    } else {
      assert a + b == b;
    }
  }

  lemma {:induction false} AtDepthDeeper(lines: seq<TreeLine>, depth: nat)
    requires forall i :: 0 <= i < |lines| ==> lines[i].depth > depth
    ensures AtDepth(lines, depth) == []
  {
    if |lines| > 0 {
      AtDepthDeeper(lines[1..], depth);
    }
  }

  /** `top` lists `items[k..]` by label, with only the last marked last. */
  predicate ListsFrom(top: seq<TreeLine>, items: seq<Entry>, k: nat) {
    k <= |items| && |top| == |items| - k &&
    forall i :: 0 <= i < |top| ==>
      top[i].text == Label(items[k + i]) && (top[i].last <==> k + i == |items| - 1)
  }

  /** The lines at the first level list the visible entries in sorted order,
      and only the last of them is drawn with the closing corner. */
  lemma {:induction false} TopLevelSorted(items: seq<Entry>, k: nat, indent: nat, es: seq<Entry>)
    requires k <= |items|
    requires forall x :: x in items ==> x in es && !Hidden(x)
    ensures ListsFrom(AtDepth(RenderFrom(items, k, indent, es), indent), items, k)
    decreases |items| - k
  {
    if k < |items| {
      var line := TreeLine(indent, k == |items| - 1, Label(items[k]));
      var rest := RenderFrom(items, k + 1, indent, es);
      var sub := RenderFromStep(items, k, indent, es);
      TopStep(line, sub, rest, indent);
      TopLevelSorted(items, k + 1, indent, es);
      ListsCons(line, AtDepth(rest, indent), items, k);
    }
  }

  /** The top level of the tree is exactly the visible entries, sorted by
      name, each drawn once. */
  lemma RenderListsSorted(es: seq<Entry>, indent: nat)
    ensures var items := SortEntries(Visible(es));
            Sorted(items) && (forall x :: x in items <==> x in es && !Hidden(x)) &&
            ListsFrom(AtDepth(Render(es, indent), indent), items, 0)
  {
    var items := SortEntries(Visible(es));
    forall x ensures x in items <==> x in es && !Hidden(x) {
      assert x in items <==> x in multiset(items);
      assert x in Visible(es) <==> x in multiset(Visible(es));
    }
    TopLevelSorted(items, 0, indent, es);
  }

  lemma ListsCons(line: TreeLine, top: seq<TreeLine>, items: seq<Entry>, k: nat)
    requires k < |items| && ListsFrom(top, items, k + 1)
    requires line.text == Label(items[k]) && (line.last <==> k == |items| - 1)
    ensures ListsFrom([line] + top, items, k)
  {
    var t := [line] + top;
    forall i | 0 <= i < |t|
      ensures t[i].text == Label(items[k + i]) && (t[i].last <==> k + i == |items| - 1)
    {
      if i > 0 {
        assert t[i] == top[i - 1];
      }
    }
  }

  /** One entry's lines: its own, then its directory's (all deeper), then
      its successors'. */
  lemma RenderFromStep(items: seq<Entry>, k: nat, indent: nat, es: seq<Entry>) returns (sub: seq<TreeLine>)
    requires k < |items|
    requires forall x :: x in items ==> x in es && !Hidden(x)
    ensures RenderFrom(items, k, indent, es) ==
              [TreeLine(indent, k == |items| - 1, Label(items[k]))] + sub + RenderFrom(items, k + 1, indent, es)
    ensures sub == if items[k].Dir? then Render(items[k].children, indent + 1) else []
    ensures forall i :: 0 <= i < |sub| ==> sub[i].depth >= indent + 1
  {
    sub := if items[k].Dir? then Render(items[k].children, indent + 1) else [];
  }

  /** An entry's own line is the only one at its depth before its
      successors'. */
  lemma TopStep(line: TreeLine, sub: seq<TreeLine>, rest: seq<TreeLine>, indent: nat)
    requires line.depth == indent
    requires forall i :: 0 <= i < |sub| ==> sub[i].depth >= indent + 1
    ensures AtDepth([line] + sub + rest, indent) == [line] + AtDepth(rest, indent)
  {
    AtDepthAppend([line] + sub, rest, indent);
    AtDepthAppend([line], sub, indent);
    AtDepthDeeper(sub, indent);
    assert AtDepth([line], indent) == [line];
  }

  /** `prefix`: nothing at the top; below it four spaces per extra level and
      a corner for the last entry, a tee otherwise. */
  function TreePrefix(depth: nat, last: bool): (p: string)
    ensures depth == 0 ==> p == []
    ensures depth > 0 ==> |p| == 4 * depth
    ensures depth > 0 ==> AllSpace(p[..4 * (depth - 1)])
    ensures depth > 0 ==> p[4 * (depth - 1)..] == (if last then "└── " else "├── ")
  {
    var spaces := seq(4 * depth, _ => ' ');
    if depth == 0 then spaces
    else spaces[..|spaces| - 4] + (if last then "└── " else "├── ")
  }

  /** The printed line. */
  function DrawLine(l: TreeLine): string {
    TreePrefix(l.depth, l.last) + l.text
  }

  /** Lines one level deeper are indented four characters more. */
  lemma PrefixWidens(depth: nat, a: bool, b: bool)
    requires depth > 0
    ensures |TreePrefix(depth + 1, a)| == |TreePrefix(depth, b)| + 4
    ensures TreePrefix(depth, a)[..4 * (depth - 1)] == TreePrefix(depth, b)[..4 * (depth - 1)]
  {
    var p := TreePrefix(depth, a);
    var q := TreePrefix(depth, b);
    assert forall i :: 0 <= i < 4 * (depth - 1) ==> p[i] == ' ' == q[i];
  }

  // ---------------------------------------------------------------------
  // print_blueprint_specific_info
  // ---------------------------------------------------------------------

  const DependenciesHeader: string := "[dependencies]"

  /** Each entry is a stripped line, and every line that is not blank gives
      its entry. */
  predicate StripsOf(r: seq<string>, ls: seq<string>) {
    (forall i :: 0 <= i < |r| ==> exists j :: 0 <= j < |ls| && r[i] == Strip(ls[j])) &&
    (forall j :: 0 <= j < |ls| && Strip(ls[j]) != [] ==> Strip(ls[j]) in r)
  }

  /** The non-blank lines, stripped. */
  function StrippedNonBlank(ls: seq<string>): (r: seq<string>)
    ensures |r| <= |ls|
  {
    if |ls| == 0 then [] else KeepEntry(Strip(ls[0]), StrippedNonBlank(ls[1..]))
  }

  /** One line's contribution in front of the later lines' entries. */
  function KeepEntry(x: string, rest: seq<string>): (r: seq<string>)
    ensures |r| <= |rest| + 1
  {
    if x == [] then rest else [x] + rest
  }

  /** The entries are exactly the stripped non-blank lines. */
  lemma StrippedNonBlankStrips(ls: seq<string>)
    ensures StripsOf(StrippedNonBlank(ls), ls)
  {
    StrippedNonBlankFrom(ls);
    StrippedNonBlankComplete(ls);
  }

  lemma StrippedNonBlankFrom(ls: seq<string>)
    ensures var r := StrippedNonBlank(ls);
            forall i :: 0 <= i < |r| ==> exists j :: 0 <= j < |ls| && r[i] == Strip(ls[j])
  {
    var r := StrippedNonBlank(ls);
    forall i | 0 <= i < |r| ensures exists j :: 0 <= j < |ls| && r[i] == Strip(ls[j]) {
      var j := EntryOrigin(ls, i);
    }
  }

  /** The line entry `i` was stripped from. */
  lemma {:induction false} EntryOrigin(ls: seq<string>, i: nat) returns (j: nat)
    requires i < |StrippedNonBlank(ls)|
    ensures j < |ls| && StrippedNonBlank(ls)[i] == Strip(ls[j])
    decreases |ls|
  {
    var k := EarlierEntry(ls, i);
    if k < 0 {
      j := 0;
    } else {
      var j' := EntryOrigin(ls[1..], k);
      assert ls[1..][j'] == ls[j' + 1];
      j := j' + 1;
    }
  }

  lemma {:induction false} StrippedNonBlankComplete(ls: seq<string>)
    ensures forall j :: 0 <= j < |ls| && Strip(ls[j]) != [] ==> Strip(ls[j]) in StrippedNonBlank(ls)
  {
    if |ls| > 0 {
      var rest := StrippedNonBlank(ls[1..]);
      StrippedNonBlankComplete(ls[1..]);
      StrippedNonBlankCons(ls);
      forall j | 0 < j < |ls| && Strip(ls[j]) != [] ensures Strip(ls[j]) in rest {
        assert ls[j] == ls[1..][j - 1];
      }
    }
  }

  /** Lines are read one by one, so the entries keep the order of the lines. */
  lemma {:induction false} StrippedNonBlankAppend(a: seq<string>, b: seq<string>)
    ensures StrippedNonBlank(a + b) == StrippedNonBlank(a) + StrippedNonBlank(b)
  {
    if |a| > 0 {
      var x := Strip(a[0]);
      assert (a + b)[0] == a[0] && (a + b)[1..] == a[1..] + b;
      assert StrippedNonBlank(a + b) == KeepEntry(x, StrippedNonBlank(a[1..] + b));
      StrippedNonBlankAppend(a[1..], b);
      KeepEntryAppend(x, StrippedNonBlank(a[1..]), StrippedNonBlank(b));
    } else {
      assert a + b == b;
    }
  }

  lemma KeepEntryAppend(x: string, r: seq<string>, s: seq<string>)
    ensures KeepEntry(x, r + s) == KeepEntry(x, r) + s
  {
    if x != [] {
      assert [x] + (r + s) == ([x] + r) + s;
    }
  }

  /** No entry is blank, and none has whitespace at either end. */
  lemma {:induction false} StrippedNonBlankTrimmed(ls: seq<string>)
    ensures var r := StrippedNonBlank(ls);
            forall i :: 0 <= i < |r| ==> r[i] != [] && Trimmed(r[i])
  {
    if |ls| > 0 {
      var rest := StrippedNonBlank(ls[1..]);
      StrippedNonBlankTrimmed(ls[1..]);
      StripNoOuterSpace(ls[0]);
      var r := StrippedNonBlank(ls);
      forall i | 0 <= i < |r| ensures r[i] != [] && Trimmed(r[i]) {
        var k := EarlierEntry(ls, i);
        if k >= 0 {
          assert r[i] == rest[k];
        }
      }
    }
  }

  /** A character that no line holds is in no entry. */
  lemma {:induction false} StrippedNonBlankWithout(ls: seq<string>, c: char)
    requires forall j :: 0 <= j < |ls| ==> c !in ls[j]
    ensures var r := StrippedNonBlank(ls);
            forall i :: 0 <= i < |r| ==> c !in r[i]
  {
    if |ls| > 0 {
      var rest := StrippedNonBlank(ls[1..]);
      assert forall j :: 0 <= j < |ls[1..]| ==> c !in ls[1..][j] by {
        forall j | 0 <= j < |ls[1..]| ensures c !in ls[1..][j] {
          assert ls[1..][j] == ls[j + 1];
        }
      }
      StrippedNonBlankWithout(ls[1..], c);
      CharAbsentAfterStrip(ls[0], c);
      var r := StrippedNonBlank(ls);
      forall i | 0 <= i < |r| ensures c !in r[i] {
        var k := EarlierEntry(ls, i);
        if k >= 0 {
          assert r[i] == rest[k];
        }
      }
    }
  }

  lemma StrippedNonBlankCons(ls: seq<string>)
    requires |ls| > 0
    ensures StrippedNonBlank(ls) ==
              if Strip(ls[0]) == [] then StrippedNonBlank(ls[1..]) else [Strip(ls[0])] + StrippedNonBlank(ls[1..])
  {
  }

  /** Where entry `i` of `StrippedNonBlank(ls)` comes from: entry `k` of the
      other lines' entries, or, when `k < 0`, the first line itself. */
  lemma EarlierEntry(ls: seq<string>, i: nat) returns (k: int)
    requires |ls| > 0 && i < |StrippedNonBlank(ls)|
    ensures var rest := StrippedNonBlank(ls[1..]);
            k < |rest| && (k >= 0 ==> StrippedNonBlank(ls)[i] == rest[k])
    ensures k < 0 ==> StrippedNonBlank(ls)[i] == Strip(ls[0]) && Strip(ls[0]) != []
  {
    k := KeptFrom(Strip(ls[0]), StrippedNonBlank(ls[1..]), i);
  }

  /** Entry `i` of one step: entry `k` of the later ones, or the line itself
      when `k < 0`. */
  lemma KeptFrom(x: string, rest: seq<string>, i: nat) returns (k: int)
    requires i < |KeepEntry(x, rest)|
    ensures k < |rest| && (k >= 0 ==> KeepEntry(x, rest)[i] == rest[k])
    ensures k < 0 ==> KeepEntry(x, rest)[i] == x && x != []
  {
    if x == [] {
      k := i;
    } else {
      k := i - 1;
    }
  }

  /** The text after the first `[dependencies]` up to the next `[`. */
  function DependencySection(content: string): (section: string)
    requires Contains(content, DependenciesHeader)
    ensures '[' !in section
  {
    FindIffContains(content, DependenciesHeader);
    var i := Find(content, DependenciesHeader);
    var after := content[i + |DependenciesHeader|..];
    SplitPieceChars(after, '[', 0);
    SplitPiecesFree(after, '[');
    Split(after, '[')[0]
  }

  /** The dependencies listed for a Rust blueprint, `None` when `Cargo.toml`
      has no `[dependencies]` table. */
  function CargoDependencies(content: string): (r: Option<seq<string>>)
    ensures r.None? <==> !Contains(content, DependenciesHeader)
    ensures r.Some? ==> forall i :: 0 <= i < |r.value| ==>
              r.value[i] != [] && '[' !in r.value[i] && Trimmed(r.value[i])
    ensures r.Some? ==> StripsOf(r.value, Split(Strip(DependencySection(content)), '\n'))
  {
    if !Contains(content, DependenciesHeader) then None
    else Some(SectionEntries(DependencySection(content)))
  }

  /** The stripped non-blank lines of the stripped section. */
  function SectionEntries(section: string): (deps: seq<string>)
    requires '[' !in section
    ensures forall i :: 0 <= i < |deps| ==> deps[i] != [] && '[' !in deps[i] && Trimmed(deps[i])
    ensures StripsOf(deps, Split(Strip(section), '\n'))
  {
    var ls := Split(Strip(section), '\n');
    var deps := StrippedNonBlank(ls);
    StrippedNonBlankStrips(ls);
    SectionLinesWithout(section, '[', ls);
    CleanEntries(ls, '[', deps);
    deps
  }

  /** A character the section lacks is on none of its lines. */
  lemma SectionLinesWithout(section: string, c: char, ls: seq<string>)
    requires c !in section && ls == Split(Strip(section), '\n')
    ensures forall j :: 0 <= j < |ls| ==> c !in ls[j]
  {
    var t := Strip(section);
    CharAbsentAfterStrip(section, c);
    forall j | 0 <= j < |ls| ensures c !in ls[j] {
      CharAbsentFromPiece(t, '\n', j, c);
    }
  }

  lemma CleanEntries(ls: seq<string>, c: char, deps: seq<string>)
    requires deps == StrippedNonBlank(ls)
    requires forall j :: 0 <= j < |ls| ==> c !in ls[j]
    ensures forall i :: 0 <= i < |deps| ==> deps[i] != [] && c !in deps[i] && Trimmed(deps[i])
  {
    StrippedNonBlankTrimmed(ls);
    StrippedNonBlankWithout(ls, c);
  }

  lemma CharAbsentAfterStrip(s: string, c: char)
    requires c !in s
    ensures c !in Strip(s)
  {
    StripChars(s);
  }

  lemma CharAbsentFromPiece(s: string, sep: char, j: nat, c: char)
    requires c !in s && j < |Split(s, sep)|
    ensures c !in Split(s, sep)[j]
  {
    SplitPieceChars(s, sep, j);
  }

  /** The index of the first line starting with `prefix`. */
  function FirstStartingWith(ls: seq<string>, prefix: string): (r: Option<nat>)
    ensures r.None? <==> forall i :: 0 <= i < |ls| ==> !StartsWith(ls[i], prefix)
    ensures r.Some? ==> r.value < |ls| && StartsWith(ls[r.value], prefix)
    ensures r.Some? ==> forall i :: 0 <= i < r.value ==> !StartsWith(ls[i], prefix)
  {
    if |ls| == 0 then None
    else if StartsWith(ls[0], prefix) then Some(0)
    else
      var r := FirstStartingWith(ls[1..], prefix);
      assert forall i :: 1 <= i < |ls| ==> ls[i] == ls[1..][i - 1];
      if r.None? then None else Some(r.value + 1)
  }

  const ModulePrefix: string := "module "

  /** The module path of a Go blueprint: the first line starting with
      `module `, with every `module ` removed from it. */
  function GoModule(content: string): (r: Option<string>)
    ensures r.Some? <==> exists i :: 0 <= i < |Split(content, '\n')| && StartsWith(Split(content, '\n')[i], ModulePrefix)
  {
    var ls := Split(content, '\n');
    var first := FirstStartingWith(ls, ModulePrefix);
    if first.None? then None
    else
      assert 0 <= first.value < |Split(content, '\n')| && StartsWith(Split(content, '\n')[first.value], ModulePrefix);
      Some(ReplaceAll(ls[first.value], ModulePrefix, ""))
  }

  /** Lines written out, each ended by a newline. */
  function Terminated(ls: seq<string>): string {
    if |ls| == 0 then [] else ls[0] + "\n" + Terminated(ls[1..])
  }

  /** Splitting a text that starts with newline-terminated lines gives those
      lines first. */
  lemma {:induction false} SplitTerminated(ls: seq<string>, rest: string)
    requires forall i :: 0 <= i < |ls| ==> '\n' !in ls[i]
    ensures Split(Terminated(ls) + rest, '\n') == ls + Split(rest, '\n')
  {
    if |ls| > 0 {
      var tail := Terminated(ls[1..]) + rest;
      assert forall i :: 0 <= i < |ls[1..]| ==> ls[1..][i] == ls[i + 1];
      SplitTerminated(ls[1..], rest);
      assert Terminated(ls) + rest == ls[0] + ['\n'] + tail;
      SplitConcat(ls[0], '\n', tail);
      calc {
        Split(Terminated(ls) + rest, '\n');
        [ls[0]] + Split(tail, '\n');
        [ls[0]] + (ls[1..] + Split(rest, '\n'));
        { assert ls == [ls[0]] + ls[1..]; }
        ls + Split(rest, '\n');
      }
    } else {
      assert Terminated(ls) + rest == rest;
    }
  }

  /** A `module` line is read back as the path it names, whatever lines
      before it hold, as long as none of them starts with `module `. */
  lemma GoModuleReadsPath(before: seq<string>, path: string, rest: string)
    requires forall i :: 0 <= i < |before| ==> '\n' !in before[i] && !StartsWith(before[i], ModulePrefix)
    requires '\n' !in path && !Contains(path, ModulePrefix)
    ensures GoModule(Terminated(before) + ModulePrefix + path + "\n" + rest) == Some(path)
  {
    var line := ModulePrefix + path;
    var ls := ModuleLines(before, path, rest);
    FirstIs(ls, ModulePrefix, |before|);
    assert line[|ModulePrefix|..] == path;
    assert ReplaceAll(line, ModulePrefix, "") == ReplaceAll(path, ModulePrefix, "");
    ReplaceAbsent(path, ModulePrefix, "");
  }

  /** The lines of such a text: the lines before, then the `module` line. */
  lemma ModuleLines(before: seq<string>, path: string, rest: string) returns (ls: seq<string>)
    requires forall i :: 0 <= i < |before| ==> '\n' !in before[i] && !StartsWith(before[i], ModulePrefix)
    requires '\n' !in path
    ensures ls == Split(Terminated(before) + ModulePrefix + path + "\n" + rest, '\n')
    ensures |before| < |ls| && ls[|before|] == ModulePrefix + path && StartsWith(ls[|before|], ModulePrefix)
    ensures forall i :: 0 <= i < |before| ==> !StartsWith(ls[i], ModulePrefix)
  {
    var line := ModulePrefix + path;
    assert '\n' !in ModulePrefix;
    assert '\n' !in line;
    var all := before + [line];
    assert forall i :: 0 <= i < |all| ==> '\n' !in all[i];
    TerminatedAppend(before, line);
    assert Terminated(before) + ModulePrefix + path + "\n" + rest == Terminated(all) + rest;
    SplitTerminated(all, rest);
    ls := all + Split(rest, '\n');
    assert ls[|before|] == line;
    assert StartsWith(line, ModulePrefix);
    assert forall i :: 0 <= i < |before| ==> ls[i] == before[i];
  }

  lemma {:induction false} TerminatedAppend(ls: seq<string>, line: string)
    ensures Terminated(ls + [line]) == Terminated(ls) + line + "\n"
  {
    if |ls| > 0 {
      assert (ls + [line])[1..] == ls[1..] + [line];
      TerminatedAppend(ls[1..], line);
    } else {
      assert [] + [line] == [line];
    }
  }

  lemma FirstIs(ls: seq<string>, prefix: string, k: nat)
    requires k < |ls| && StartsWith(ls[k], prefix)
    requires forall i :: 0 <= i < k ==> !StartsWith(ls[i], prefix)
    ensures FirstStartingWith(ls, prefix) == Some(k)
  {
  }

  // ---------------------------------------------------------------------
  // info_command
  // ---------------------------------------------------------------------

  datatype InfoOutcome = NotFound(suggestions: seq<string>) | Shown(description: string)

  /** `info_command`: true exactly when the blueprint exists. */
  function InfoCommand(blueprints: seq<string>, blueprint: string, readme: Option<string>, blueprintPath: string): (r: InfoOutcome)
    ensures r.Shown? <==> blueprint in blueprints
    ensures r.NotFound? ==> forall x :: x in r.suggestions <==> x in blueprints && Similar(blueprint, x)
    ensures r.Shown? ==> r.description == InfoDescription(readme, blueprintPath)
  {
    if blueprint !in blueprints then NotFound(Suggest(blueprint, blueprints))
    else Shown(InfoDescription(readme, blueprintPath))
  }
}

=== FILE: blpt_list.dfy ===
/** `blptcmd/list.py`: the one-line description shown next to each blueprint
    in `blpt list`. */
module BlptList {
  import opened Text
  import opened Runtime

  /** A stripped README line that can serve as a description. */
  predicate Describes(line: string) {
    line != [] && !StartsWith(line, "#")
  }

  /** `readlines()[:5]`. */
  function FirstFive(lines: seq<string>): (r: seq<string>)
    ensures |r| <= 5 && |r| <= |lines| && r == lines[..|r|]
    ensures |lines| >= 5 ==> |r| == 5
    ensures |lines| < 5 ==> r == lines
  {
    if |lines| <= 5 then lines else lines[..5]
  }

  /** The first line that, stripped, can serve as a description. */
  function FirstDescription(lines: seq<string>): (r: Option<string>)
    ensures r.Some? ==> Describes(r.value)
  {
    if |lines| == 0 then None
    else
      var line := Strip(lines[0]);
      if Describes(line) then Some(line) else FirstDescription(lines[1..])
  }

  /** The line `FirstDescription` picks: every line before it is unusable,
      and there is none exactly when no line is usable. */
  lemma {:induction false} FirstDescriptionAt(lines: seq<string>) returns (k: nat)
    ensures k <= |lines|
    ensures forall j :: 0 <= j < k ==> !Describes(Strip(lines[j]))
    ensures FirstDescription(lines).None? <==> k == |lines|
    ensures k < |lines| ==> FirstDescription(lines) == Some(Strip(lines[k]))
  {
    if |lines| == 0 {
      k := 0;
    } else if Describes(Strip(lines[0])) {
      k := 0;
    } else {
      var k' := FirstDescriptionAt(lines[1..]);
      k := k' + 1;
      UnusableBefore(lines, k');
      if k < |lines| {
        assert lines[1..][k'] == lines[k];
      }
    }
  }

  lemma UnusableBefore(lines: seq<string>, k: nat)
    requires 0 < |lines| && k < |lines| && !Describes(Strip(lines[0]))
    requires forall j :: 0 <= j < k ==> !Describes(Strip(lines[1..][j]))
    ensures forall j :: 0 <= j < k + 1 ==> !Describes(Strip(lines[j]))
  {
    var stripped := seq(|lines|, i requires 0 <= i < |lines| => Strip(lines[i]));
    forall j | 0 <= j < k + 1 ensures !Describes(Strip(lines[j])) {
      assert stripped[j] == Strip(lines[j]);
      if j > 0 {
        assert lines[1..][j - 1] == lines[j];
        assert stripped[j] == Strip(lines[1..][j - 1]);
      }
    }
  }

  /** Line `k` is the first of `lines` that, stripped, can serve as a
      description. */
  predicate FirstUsable(lines: seq<string>, k: nat) {
    k < |lines| && Describes(Strip(lines[k])) && forall j :: 0 <= j < k ==> !Describes(Strip(lines[j]))
  }

  predicate NoneUsable(lines: seq<string>) {
    forall j :: 0 <= j < |lines| ==> !Describes(Strip(lines[j]))
  }

  /** `FirstDescription` finds the first usable line, and nothing when there
      is none. */
  lemma FirstDescriptionFinds(lines: seq<string>)
    ensures NoneUsable(lines) <==> FirstDescription(lines).None?
    ensures forall k: nat :: FirstUsable(lines, k) ==> FirstDescription(lines) == Some(Strip(lines[k]))
  {
    var k0 := FirstDescriptionAt(lines);
    if k0 < |lines| {
      assert Describes(Strip(lines[k0]));
      assert !NoneUsable(lines);
    }
    forall k: nat | FirstUsable(lines, k)
      ensures FirstDescription(lines) == Some(Strip(lines[k]))
    {
      if k0 != k {
        assert false;
      }
    }
  }

  /** The text shown when the README gives no description. */
  function Generic(blueprintPath: string): string {
    Capitalize(Basename(blueprintPath)) + " project template"
  }

  /** The description the README lines `lines` give: the first usable one,
      stripped and cut to 50 characters, or the generic text. */
  function DescriptionOf(lines: seq<string>, blueprintPath: string): (d: string)
    ensures NoneUsable(lines) ==> d == Generic(blueprintPath)
    ensures forall k: nat :: FirstUsable(lines, k) ==> d == Take(Strip(lines[k]), 50)
  {
    FirstDescriptionFinds(lines);
    var found := FirstDescription(lines);
    if found.Some? then Take(found.value, 50) else Generic(blueprintPath)
  }

  /** `get_blueprint_description`: `readme` is the README's content, `None`
      when it is missing or cannot be read.  The first of the README's first
      five lines that is not blank and not a heading, stripped and cut to 50
      characters; otherwise the generic text. */
  function ListDescription(readme: Option<string>, blueprintPath: string): (d: string)
    ensures readme.None? ==> d == Generic(blueprintPath)
    ensures readme.Some? && NoneUsable(FirstFive(Split(readme.value, '\n'))) ==> d == Generic(blueprintPath)
    ensures readme.Some? ==>
              var ls := FirstFive(Split(readme.value, '\n'));
              forall k: nat :: FirstUsable(ls, k) ==> d == Take(Strip(ls[k]), 50)
  {
    if readme.None? then Generic(blueprintPath)
    else DescriptionOf(FirstFive(Split(readme.value, '\n')), blueprintPath)
  }

  /** A description taken from the README is at most 50 characters, comes from
      one of its first five lines, and is not a heading. */
  lemma ReadmeDescriptionShape(readme: string, blueprintPath: string)
    requires FirstDescription(FirstFive(Split(readme, '\n'))).Some?
    ensures var d := ListDescription(Some(readme), blueprintPath);
            |d| <= 50 && d != [] && d[0] != '#' &&
            exists k :: 0 <= k < 5 && k < |Split(readme, '\n')| && StartsWith(Strip(Split(readme, '\n')[k]), d)
  {
    var lines := Split(readme, '\n');
    var found := FirstDescription(FirstFive(lines)).value;
    var d := Take(found, 50);
    HeadOfDescription(found, d);
    var k := FirstFiveWitness(lines);
    assert StartsWith(Strip(lines[k]), d);
  }

  lemma FirstFiveWitness(lines: seq<string>) returns (k: nat)
    requires FirstDescription(FirstFive(lines)).Some?
    ensures k < 5 && k < |lines| && FirstDescription(FirstFive(lines)).value == Strip(lines[k])
  {
    var first := FirstFive(lines);
    k := FirstDescriptionAt(first);
    assert first[k] == lines[k];
  }

  lemma HeadOfDescription(found: string, d: string)
    requires Describes(found) && d == Take(found, 50)
    ensures d != [] && d[0] != '#' && StartsWith(found, d)
  {
    assert d[0] == found[0];
    assert found[..1] != "#";
  }

  /** Lines after the fifth are never looked at. */
  lemma OnlyFirstFiveLines(a: string, b: string, blueprintPath: string)
    requires FirstFive(Split(a, '\n')) == FirstFive(Split(b, '\n'))
    ensures ListDescription(Some(a), blueprintPath) == ListDescription(Some(b), blueprintPath)
  {
  }

  /** Without a usable README the directory name, capitalised, is used. */
  lemma NamedAfterDirectory(dir: string, name: string)
    requires '/' !in name && |name| > 0 && forall i :: 1 <= i < |name| ==> !IsAsciiUpper(name[i])
    ensures ListDescription(None, dir + "/" + name) == [UpperChar(name[0])] + name[1..] + " project template"
  {
    BasenameOfJoin(dir, name);
    assert Lower(name[1..]) == name[1..];
  }

  /** The `rust` blueprint without a README is the "Rust project template",
      wherever the blueprints live. */
  lemma GenericDescription(dir: string)
    ensures ListDescription(None, dir + "/rust") == "Rust" + " project template"
  {
    var name := "rust";
    assert dir + "/rust" == dir + "/" + name;
    NamedAfterDirectory(dir, name);
    assert [UpperChar(name[0])] + name[1..] == "Rust" by {
      assert UpperChar(name[0]) == 'R' && name[1..] == "ust";
    }
  }
}

=== FILE: blpt_utils.dfy ===
/** `blptcmd/utils.py`: project-name validation, suggestions for a mistyped
    blueprint name, and the placeholder substitution applied to the files of
    a new project. */
module BlptUtils {
  import opened Text
  import opened Runtime
  import opened Assoc

  // ---------------------------------------------------------------------
  // validate_project_name
  // ---------------------------------------------------------------------

  predicate NameChar(c: char) {
    IsAsciiLetter(c) || IsDigit(c) || c == '_' || c == '-'
  }

  /** `[a-zA-Z][a-zA-Z0-9_-]*` over the whole string. */
  predicate WellFormedName(s: string) {
    |s| > 0 && IsAsciiLetter(s[0]) && forall i :: 1 <= i < |s| ==> NameChar(s[i])
  }

  /** What `re.match(r'^[a-zA-Z][a-zA-Z0-9_-]*$', s)` accepts: Python's `$`
      also matches just before one newline that ends the string. */
  predicate MatchesAsWritten(s: string) {
    WellFormedName(s) || (|s| > 0 && s[|s| - 1] == '\n' && WellFormedName(s[..|s| - 1]))
  }

  const ReservedNames: seq<string> :=
    ["con", "prn", "aux", "nul", "com1", "com2", "com3", "com4",
     "com5", "com6", "com7", "com8", "com9", "lpt1", "lpt2",
     "lpt3", "lpt4", "lpt5", "lpt6", "lpt7", "lpt8", "lpt9"]

  const EmptyMessage: string := "Project name cannot be empty"
  const CharsMessage: string :=
    "Project name must start with a letter and contain only letters, numbers, hyphens, and underscores"

  function ReservedMessage(name: string): string {
    "'" + name + "' is a reserved name and cannot be used"
  }

  /** The `(is_valid, error_message)` pair. */
  datatype Validation = Validation(valid: bool, message: string)

  /** `validate_project_name` as written, with the pattern test of
      `MatchesAsWritten`. */
  function ValidateAsWritten(name: string): (r: Validation)
    ensures name == [] ==> r == Validation(false, EmptyMessage)
    ensures r.valid <==> MatchesAsWritten(name) && Lower(name) !in ReservedNames
    ensures r.valid <==> r.message == []
  {
    if name == [] then Validation(false, EmptyMessage)
    else if !MatchesAsWritten(name) then Validation(false, CharsMessage)
    else if Lower(name) in ReservedNames then Validation(false, ReservedMessage(name))
    else Validation(true, "")
  }

  /** `validate_project_name` with the pattern anchored at the true end of the
      name, as its documentation describes. */
  function ValidateProjectName(name: string): (r: Validation)
    ensures name == [] ==> r == Validation(false, EmptyMessage)
    ensures name != [] && !WellFormedName(name) ==> r == Validation(false, CharsMessage)
    ensures WellFormedName(name) && Lower(name) in ReservedNames ==> r == Validation(false, ReservedMessage(name))
    ensures r.valid <==> WellFormedName(name) && Lower(name) !in ReservedNames
    ensures r.valid <==> r.message == []
  {
    if name == [] then Validation(false, EmptyMessage)
    else if !WellFormedName(name) then Validation(false, CharsMessage)
    else if Lower(name) in ReservedNames then Validation(false, ReservedMessage(name))
    else Validation(true, "")
  }

  /** The pattern as written lets a name through with a trailing newline. */
  lemma TrailingNewlineAccepted()
    ensures ValidateAsWritten("app\n").valid
    ensures !ValidateProjectName("app\n").valid
  {
    var name := "app\n";
    assert name[..3] == "app";
    assert MatchesAsWritten(name);
    assert !WellFormedName(name) by { assert !NameChar(name[3]); }
    assert Lower(name) == name;
    if name in ReservedNames {
      ReservedShape(name);
    }
  }

  /** Every device name is three letters, or three letters and a digit. */
  lemma ReservedShape(x: string)
    requires x in ReservedNames
    ensures |x| == 3 || (|x| == 4 && IsDigit(x[3]))
  {
  }

  /** The two tests differ only on names that end in a newline. */
  lemma AsWrittenDiffersOnlyByNewline(name: string)
    requires |name| == 0 || name[|name| - 1] != '\n'
    ensures ValidateAsWritten(name) == ValidateProjectName(name)
  {
  }

  /** An accepted name is made only of letters, digits, `_` and `-`, starts
      with a letter and is not a device name in any letter case. */
  lemma ValidNameShape(name: string, i: nat)
    requires ValidateProjectName(name).valid && i < |name|
    ensures NameChar(name[i]) && IsAsciiLetter(name[0])
    ensures name[i] != '\n' && name[i] != '/' && name[i] != ' '
  {
    if i > 0 {
      assert NameChar(name[i]);
    }
  }

  /** Device names are refused even though they match the pattern. */
  lemma ReservedRefused()
    ensures WellFormedName("COM1") && !ValidateProjectName("COM1").valid
    ensures ValidateProjectName("COM1").message == ReservedMessage("COM1")
  {
    var n := "COM1";
    assert IsAsciiLetter(n[0]) && NameChar(n[1]) && NameChar(n[2]) && NameChar(n[3]);
    assert Lower(n) == [LowerChar(n[0]), LowerChar(n[1]), LowerChar(n[2]), LowerChar(n[3])];
    assert Lower(n) == "com1" == ReservedNames[4];
  }

  // ---------------------------------------------------------------------
  // suggest_similar_blueprints
  // ---------------------------------------------------------------------

  predicate Similar(name: string, blueprint: string) {
    Contains(blueprint, name) || Contains(name, blueprint)
  }

  /** The blueprint names, in listing order, that contain the mistyped name or
      are contained in it. */
  function Suggest(name: string, blueprints: seq<string>): (r: seq<string>)
    ensures |r| <= |blueprints|
    ensures SubsequenceOf(r, blueprints)
    ensures forall x :: x in r <==> x in blueprints && Similar(name, x)
  {
    if |blueprints| == 0 then []
    else
      var rest := Suggest(name, blueprints[1..]);
      assert blueprints == [blueprints[0]] + blueprints[1..];
      if Similar(name, blueprints[0]) then
        assert ([blueprints[0]] + rest)[1..] == rest;
        [blueprints[0]] + rest
      else
        SubsequenceCons(rest, blueprints[0], blueprints[1..]);
        rest
  }

  /** The empty name is contained in every name, so it suggests them all. */
  lemma {:induction false} EmptySuggestsAll(blueprints: seq<string>)
    ensures Suggest("", blueprints) == blueprints
  {
    if |blueprints| > 0 {
      assert OccursAt(blueprints[0], "", 0);
      EmptySuggestsAll(blueprints[1..]);
    }
  }

  // ---------------------------------------------------------------------
  // replace_in_file and process_files_recursively
  // ---------------------------------------------------------------------

  /** The content transform of `replace_in_file`: each `(search, replace)`
      pair applied with `str.replace`, in dictionary order.  No pairs leave
      the content as it is, one pair is one `str.replace`, and a content that
      mentions none of the search strings is left as it was. */
  function ApplyReplacements(content: string, replacements: Dict): (r: string)
    ensures |replacements| == 0 ==> r == content
    ensures |replacements| == 1 ==> r == ReplaceAll(content, replacements[0].0, replacements[0].1)
    ensures (forall i :: 0 <= i < |replacements| ==> |replacements[i].0| > 0 && !Contains(content, replacements[i].0)) ==>
              r == content
    decreases |replacements|
  {
    if |replacements| == 0 then content
    else
      var once := ReplaceAll(content, replacements[0].0, replacements[0].1);
      if |replacements[0].0| > 0 && !Contains(content, replacements[0].0) then
        ReplaceAbsent(content, replacements[0].0, replacements[0].1);
        ApplyReplacements(once, replacements[1..])
      else ApplyReplacements(once, replacements[1..])
  }

  /** The pairs are applied one after another: a dictionary split in two is
      the first half applied, then the second. */
  lemma {:induction false} ApplyAppend(content: string, a: Dict, b: Dict)
    ensures ApplyReplacements(content, a + b) == ApplyReplacements(ApplyReplacements(content, a), b)
    decreases |a|
  {
    if |a| > 0 {
      assert (a + b)[0] == a[0] && (a + b)[1..] == a[1..] + b;
      ApplyAppend(ReplaceAll(content, a[0].0, a[0].1), a[1..], b);
    } else {
      assert a + b == b;
    }
  }

  /** `replace_in_file`: `file` is the content read, `None` when reading
      failed, and `writeOk` whether writing back succeeded.  Returns what is
      written and the boolean result. */
  function ReplaceInFile(file: Option<string>, replacements: Dict, writeOk: bool): (r: (Option<string>, bool))
    ensures r.1 <==> file.Some? && writeOk
    ensures file.None? ==> r.0.None?
    ensures file.Some? ==> r.0 == Some(ApplyReplacements(file.value, replacements))
  {
    if file.None? then (None, false)
    else (Some(ApplyReplacements(file.value, replacements)), writeOk)
  }

  /** The extension filter: an empty list (or none at all) selects every
      file. */
  predicate Selected(file: string, extensions: seq<string>) {
    |extensions| == 0 || exists i :: 0 <= i < |extensions| && EndsWith(file, extensions[i])
  }

  /** `process_files_recursively`: `files` are the walked file names in walk
      order and `edited` says whether `replace_in_file` returned true. */
  function ProcessFiles(files: seq<string>, extensions: seq<string>, edited: string -> bool): (n: nat)
    ensures n <= |files|
    ensures n == |files| <==> forall i :: 0 <= i < |files| ==> Selected(files[i], extensions) && edited(files[i])
    ensures (forall i :: 0 <= i < |files| ==> !Selected(files[i], extensions)) ==> n == 0
  {
    if |files| == 0 then 0
    else
      var rest := ProcessFiles(files[1..], extensions, edited);
      assert forall i :: 1 <= i < |files| ==> files[i] == files[1..][i - 1];
      (if Selected(files[0], extensions) && edited(files[0]) then 1 else 0) + rest
  }

  /** The count over a walk split in two is the sum of the counts. */
  lemma {:induction false} ProcessFilesAppend(a: seq<string>, b: seq<string>, extensions: seq<string>, edited: string -> bool)
    ensures ProcessFiles(a + b, extensions, edited) == ProcessFiles(a, extensions, edited) + ProcessFiles(b, extensions, edited)
  {
    if |a| > 0 {
      assert (a + b)[0] == a[0] && (a + b)[1..] == a[1..] + b;
      ProcessFilesAppend(a[1..], b, extensions, edited);
    } else {
      assert a + b == b;
    }
  }
}

=== FILE: dev_container.dfy ===
/** `dev stop`, `dev delete`, `dev exec` and `dev cleanup`: the commands that
    act on containers that already exist.  Every `docker` command that changes
    a container goes through `run_command` with `check=True`, so a failing one
    ends the process; the two listings run with `check=False` and always get
    the text back, and `exec` itself is handed to `subprocess.run` unchecked. */
module DevContainer {
  import opened Text
  import opened Runtime
  import opened Listing
  import opened Menu

  /** One line of `docker ps --format {{.ID}}|{{.Names}}|{{.Status}}`. */
  datatype DevRow = DevRow(id: string, name: string, status: string)

  function StopArgv(target: string): Argv {
    ["docker", "stop", "-t", "1", target]
  }

  function RmArgv(target: string): Argv {
    ["docker", "rm", target]
  }

  function StartArgv(target: string): Argv {
    ["docker", "start", target]
  }

  // ---------------------------------------------------------------------
  // Listing the running development containers
  // ---------------------------------------------------------------------

  function ToDevRows(rows: seq<seq<string>>): (r: seq<DevRow>)
    requires forall i :: 0 <= i < |rows| ==> |rows[i]| >= 3
    ensures |r| == |rows|
    ensures forall i :: 0 <= i < |rows| ==> r[i] == DevRow(rows[i][0], rows[i][1], rows[i][2])
  {
    seq(|rows|, i requires 0 <= i < |rows| => DevRow(rows[i][0], rows[i][1], rows[i][2]))
  }

  /** `get_running_dev_containers`, given what the query printed (the
      `check=False` call always passes `Some`; `None` reads as no output): one
      record per non-blank line with at least three fields. */
  function RunningDevContainers(out: Option<string>): (r: seq<DevRow>)
    ensures |r| <= |OutputLines(out)|
  {
    ToDevRows(Rows(OutputLines(out), 3))
  }

  /** Every record is read from one listed line: its first three fields. */
  lemma ListedFromLines(out: Option<string>, i: nat)
    requires i < |RunningDevContainers(out)|
    ensures exists f :: |f| >= 3 && Join(f, "|") in OutputLines(out) &&
                        RunningDevContainers(out)[i] == DevRow(f[0], f[1], f[2])
  {
    var rows := Rows(OutputLines(out), 3);
    assert |rows[i]| >= 3 && Join(rows[i], "|") in OutputLines(out);
  }

  /** The records are read from the listed lines: record `i` holds the first
      three fields of line `idx[i]`, the lines are taken in order, and every
      line with at least three fields gives one. */
  lemma DevRowsFromLines(out: Option<string>) returns (idx: seq<nat>)
    ensures ReadFrom(idx, Rows(OutputLines(out), 3), OutputLines(out), 3)
    ensures RunningDevContainers(out) == ToDevRows(Rows(OutputLines(out), 3))
  {
    idx := RowsIndexed(OutputLines(out), 3);
  }

  /** `None` and blank output both list nothing. */
  lemma NothingListed(out: Option<string>)
    requires out.None? || Blank(out.value)
    ensures RunningDevContainers(out) == []
  {
    if out.Some? {
      BlankOutputLists(out.value);
    }
  }

  /** No line is lost when every line is well formed. */
  lemma WellFormedListing(out: Option<string>)
    requires forall i :: 0 <= i < |OutputLines(out)| ==> |Fields(OutputLines(out)[i])| >= 3
    ensures |RunningDevContainers(out)| == |OutputLines(out)|
  {
    RowsAllIff(OutputLines(out), 3);
  }

  // ---------------------------------------------------------------------
  // The selection menu
  // ---------------------------------------------------------------------

  /** What `display_container_selection` hands back. */
  datatype Selection = NotShown | Answer(value: string) | InputEnded

  /** `display_container_selection`: `None` for an empty list, otherwise the
      first usable answer as `'none'`, `'all'` or the picked container's id. */
  function Select(containers: seq<DevRow>, answers: seq<string>): (r: Selection)
    ensures containers == [] <==> r == NotShown
    ensures containers != [] ==>
              (r == InputEnded <==> Ask(answers, |containers|).None?)
    ensures containers != [] && Ask(answers, |containers|) == Some(Quit) ==> r == Answer("none")
    ensures containers != [] && Ask(answers, |containers|) == Some(All) ==> r == Answer("all")
    ensures containers != [] && Ask(answers, |containers|).Some? && Ask(answers, |containers|).value.Pick? ==>
              r == Answer(containers[Ask(answers, |containers|).value.index].id)
  {
    if containers == [] then NotShown
    else
      match Ask(answers, |containers|)
      case None => InputEnded
      case Some(Quit) => Answer("none")
      case Some(All) => Answer("all")
      case Some(Pick(k)) => Answer(containers[k].id)
      case Some(Invalid) => InputEnded
  }

  // ---------------------------------------------------------------------
  // dev stop
  // ---------------------------------------------------------------------

  function StopAll(containers: seq<DevRow>): (steps: seq<Step>)
    ensures |steps| == |containers|
    ensures forall i :: 0 <= i < |containers| ==> steps[i] == Step(StopArgv(containers[i].id), true)
  {
    seq(|containers|, i requires 0 <= i < |containers| => Step(StopArgv(containers[i].id), true))
  }

  /** What the selection menu makes `stop_command` do: `'none'` stops
      nothing, `'all'` stops every listed container in listing order, and any
      other answer is the id to stop. */
  function StopSelected(containers: seq<DevRow>, sel: Selection, ok: Argv -> bool): (r: Run)
    ensures sel == InputEnded <==> r.ending == Raised
    ensures sel == Answer("none") ==> r == Run([], Finished)
    ensures sel == Answer("all") && (forall a :: ok(a)) ==>
              r.ending == Finished && |r.issued| == |containers| &&
              forall i :: 0 <= i < |containers| ==> r.issued[i] == StopArgv(containers[i].id)
    ensures sel.Answer? && sel.value != "none" && sel.value != "all" ==>
              r.issued == [StopArgv(sel.value)]
  {
    match sel
    case NotShown => Run([], Finished)
    case InputEnded => Run([], Raised)
    case Answer(v) =>
      if v == "none" then Run([], Finished)
      else if v == "all" then Execute(StopAll(containers), ok)
      else Execute([Step(StopArgv(v), true)], ok)
  }

  /** `stop_command` with `--name`: only a running container is stopped. */
  function StopNamed(name: string, running: string -> bool, ok: Argv -> bool): (r: Run)
    ensures r.issued != [] <==> running(name)
    ensures r.issued == [] || r.issued == [StopArgv(name)]
  {
    if running(name) then Execute([Step(StopArgv(name), true)], ok) else Run([], Finished)
  }

  /** `stop_command` without a name: none, the only one, or the menu. */
  function StopUnnamed(cs: seq<DevRow>, answers: seq<string>, ok: Argv -> bool): (r: Run)
    ensures cs == [] ==> r == Run([], Finished)
    ensures |cs| == 1 ==> r.issued == [StopArgv(cs[0].id)]
    ensures |cs| >= 2 ==> r == StopSelected(cs, Select(cs, answers), ok)
  {
    if |cs| == 0 then Run([], Finished)
    else if |cs| == 1 then Execute([Step(StopArgv(cs[0].id), true)], ok)
    else StopSelected(cs, Select(cs, answers), ok)
  }

  /** `stop_command`: `name` is `--name` (empty when not given), `running` the
      `container_running` query, `listing` what the `docker ps` query printed
      and `answers` the lines typed at the menu. */
  function StopCommand(name: string, running: string -> bool, listing: Option<string>,
                       answers: seq<string>, ok: Argv -> bool): (r: Run)
    ensures name != "" ==> r == StopNamed(name, running, ok)
    ensures name == "" ==> r == StopUnnamed(RunningDevContainers(listing), answers, ok)
  {
    if name != "" then StopNamed(name, running, ok)
    else StopUnnamed(RunningDevContainers(listing), answers, ok)
  }

  predicate IsStop(a: Argv) {
    |a| == 5 && a[..4] == ["docker", "stop", "-t", "1"]
  }

  /** `dev stop` never issues anything but `docker stop`. */
  lemma StopOnlyStops(cs: seq<DevRow>, sel: Selection, ok: Argv -> bool)
    ensures forall a :: a in StopSelected(cs, sel, ok).issued ==> IsStop(a)
  {
    var p := (a: Argv) => IsStop(a);
    if sel == Answer("all") {
      IssuedArePlanned(StopAll(cs), ok, p);
    } else if sel.Answer? && sel.value != "none" {
      IssuedArePlanned([Step(StopArgv(sel.value), true)], ok, p);
    }
  }

  // ---------------------------------------------------------------------
  // dev delete and dev exec
  // ---------------------------------------------------------------------

  /** The container a command acts on: `--name`, or the one derived from the
      working directory. */
  function Target(name: string, derived: string): (t: string)
    ensures name != "" ==> t == name
    ensures name == "" ==> t == derived
  {
    if name != "" then name else derived
  }

  /** `delete_command`. */
  function DeleteCommand(name: string, derived: string, exists_: string -> bool, running: string -> bool,
                         ok: Argv -> bool): (r: Run)
    ensures var t := Target(name, derived);
            && r.ending != Raised
            && (!exists_(t) ==> r.issued == [])
            && (RmArgv(t) in r.issued ==> exists_(t))
            && (RmArgv(t) in r.issued && running(t) ==> r.issued == [StopArgv(t), RmArgv(t)])
            && (RmArgv(t) in r.issued && !running(t) ==> r.issued == [RmArgv(t)])
            && (exists_(t) && (!running(t) || ok(StopArgv(t))) ==> RmArgv(t) in r.issued)
            && (!running(t) ==> StopArgv(t) !in r.issued)
            && (exists_(t) && running(t) ==> |r.issued| > 0 && r.issued[0] == StopArgv(t))
            && (r.ending == Exited <==> exists_(t) && ((running(t) && !ok(StopArgv(t))) || !ok(RmArgv(t))))
  {
    var t := Target(name, derived);
    if !exists_(t) then Run([], Finished)
    else if running(t) then Execute([Step(StopArgv(t), true), Step(RmArgv(t), true)], ok)
    else Execute([Step(RmArgv(t), true)], ok)
  }

  /** The command to run inside the container: a word list, or a string
      handed to `bash -c`. */
  datatype Command = Words(words: seq<string>) | Line(text: string)

  function CommandWords(c: Command): seq<string> {
    match c
    case Words(ws) => ws
    case Line(t) => ["bash", "-c", t]
  }

  /** `docker exec [-it] NAME COMMAND...`. */
  function ExecArgv(target: string, interactive: bool, c: Command): (a: Argv)
    ensures |a| >= 3 && a[..2] == ["docker", "exec"]
    ensures target != "-it" ==> (a[2] == "-it" <==> interactive)
    ensures var rest := if interactive then a[3..] else a[2..];
            |rest| >= 1 && rest[0] == target && rest[1..] == CommandWords(c)
  {
    ["docker", "exec"] + (if interactive then ["-it"] else []) + [target] + CommandWords(c)
  }

  /** The exec command line can be read back: whether it is interactive, the
      container and the command. */
  lemma ExecArgvReadBack(t1: string, i1: bool, c1: Command, t2: string, i2: bool, c2: Command)
    requires t1 != "-it" && t2 != "-it"
    requires ExecArgv(t1, i1, c1) == ExecArgv(t2, i2, c2)
    ensures t1 == t2 && i1 == i2 && CommandWords(c1) == CommandWords(c2)
  {
    var a := ExecArgv(t1, i1, c1);
    assert a[2] == "-it" <==> i1;
  }

  /** `exec_command`: a stopped container is started first; a missing one
      gets nothing. */
  function ExecCommand(name: string, derived: string, running: string -> bool, exists_: string -> bool,
                       interactive: bool, c: Command, ok: Argv -> bool): (r: Run)
    ensures var t := Target(name, derived);
            && r.ending != Raised
            && (!running(t) && !exists_(t) ==> r == Run([], Finished))
            && (running(t) ==> r == Run([ExecArgv(t, interactive, c)], Finished))
            && (!running(t) && exists_(t) ==> |r.issued| > 0 && r.issued[0] == StartArgv(t))
            && (!running(t) && exists_(t) ==>
                  (ok(StartArgv(t)) <==> r == Run([StartArgv(t), ExecArgv(t, interactive, c)], Finished)))
  {
    var t := Target(name, derived);
    var exec := Step(ExecArgv(t, interactive, c), false);
    if running(t) then Execute([exec], ok)
    else if exists_(t) then Execute([Step(StartArgv(t), true), exec], ok)
    else Run([], Finished)
  }

  // ---------------------------------------------------------------------
  // dev cleanup
  // ---------------------------------------------------------------------

  /** The commands for one row of `docker ps -a`: stop when "Up" occurs
      anywhere in the line, then remove. */
  function CleanupRow(row: seq<string>): (steps: seq<Step>)
    requires |row| >= 1
    ensures |steps| >= 1 && steps[|steps| - 1] == Step(RmArgv(row[0]), true)
    ensures |steps| == 2 <==> Contains(Join(row, "|"), "Up")
    ensures |steps| == 2 ==> steps[0] == Step(StopArgv(row[0]), true)
  {
    (if Contains(Join(row, "|"), "Up") then [Step(StopArgv(row[0]), true)] else [])
      + [Step(RmArgv(row[0]), true)]
  }

  function CleanupSteps(rows: seq<seq<string>>): seq<Step>
    requires forall i :: 0 <= i < |rows| ==> |rows[i]| >= 1
  {
    if |rows| == 0 then [] else CleanupRow(rows[0]) + CleanupSteps(rows[1..])
  }

  /** The number of `docker rm` commands among the issued ones. */
  function Removals(issued: seq<Argv>): nat {
    if |issued| == 0 then 0
    else (if |issued[0]| == 3 && issued[0][..2] == ["docker", "rm"] then 1 else 0) + Removals(issued[1..])
  }

  lemma {:induction false} RemovalsAppend(a: seq<Argv>, b: seq<Argv>)
    ensures Removals(a + b) == Removals(a) + Removals(b)
  {
    if |a| > 0 {
      assert (a + b)[1..] == a[1..] + b;
      RemovalsAppend(a[1..], b);
    } else {
      assert a + b == b;
    }
  }

  lemma ArgvsAppend(a: seq<Step>, b: seq<Step>)
    ensures Argvs(a + b) == Argvs(a) + Argvs(b)
  {
  }

  /** One `docker rm` per row. */
  lemma {:induction false} CleanupRemovesEachRow(rows: seq<seq<string>>)
    requires forall i :: 0 <= i < |rows| ==> |rows[i]| >= 1
    ensures Removals(Argvs(CleanupSteps(rows))) == |rows|
  {
    if |rows| > 0 {
      var head := CleanupRow(rows[0]);
      CleanupRemovesEachRow(rows[1..]);
      ArgvsAppend(head, CleanupSteps(rows[1..]));
      RemovalsAppend(Argvs(head), Argvs(CleanupSteps(rows[1..])));
      if |head| == 2 {
        assert Argvs(head) == [StopArgv(rows[0][0]), RmArgv(rows[0][0])];
        assert Removals(Argvs(head)) == Removals([RmArgv(rows[0][0])]) by {
          assert Argvs(head)[1..] == [RmArgv(rows[0][0])];
        }
      } else {
        assert Argvs(head) == [RmArgv(rows[0][0])];
      }
    }
  }

  /** `cleanup_command`: the commands issued and the count it reports. */
  function Cleanup(out: Option<string>, ok: Argv -> bool): (r: (Run, nat))
    ensures r.0.ending != Raised
    ensures r.1 <= |OutputLines(out)|
    ensures r.0.ending == Finished ==> r.1 == Removals(r.0.issued)
    ensures r.1 == |Rows(OutputLines(out), 2)| && r.0 == Execute(CleanupSteps(Rows(OutputLines(out), 2)), ok)
  {
    CleanupLines(OutputLines(out), ok)
  }

  /** The cleanup of the listed lines `ID|Status`. */
  function CleanupLines(lines: seq<string>, ok: Argv -> bool): (r: (Run, nat))
    ensures r.0.ending != Raised
    ensures r.1 <= |lines|
    ensures r.0.ending == Finished ==> r.1 == Removals(r.0.issued)
    ensures r.1 == |Rows(lines, 2)| && r.0 == Execute(CleanupSteps(Rows(lines, 2)), ok)
  {
    var rows := Rows(lines, 2);
    CleanupRemovesEachRow(rows);
    (Execute(CleanupSteps(rows), ok), |rows|)
  }

  /** `None` or blank output removes nothing. */
  lemma NothingToClean(out: Option<string>, ok: Argv -> bool)
    requires out.None? || Blank(out.value)
    ensures Cleanup(out, ok) == (Run([], Finished), 0)
  {
    if out.Some? {
      BlankOutputLists(out.value);
    }
  }
}

=== FILE: dev_maintenance.dfy ===
/** `dev prune`, `dev prune-images` and the `shell_functions` path rewrite.
    The `docker` commands here go through `subprocess.run` without `check`,
    so every planned command is issued whatever the earlier ones did. */
module DevMaintenance {
  import opened Text
  import opened Runtime
  import opened Listing
  import opened Menu

  // ---------------------------------------------------------------------
  // dev prune
  // ---------------------------------------------------------------------

  const ContainerPrune: Argv := ["docker", "container", "prune", "-f"]
  const NetworkPrune: Argv := ["docker", "network", "prune", "-f"]
  const ImagePruneAll: Argv := ["docker", "image", "prune", "-a", "-f"]
  const VolumePrune: Argv := ["docker", "volume", "prune", "-f"]
  const ImagePrune: Argv := ["docker", "image", "prune", "-f"]

  /** `prune_command`: `confirm` is the answer to the `[y/N]` question, which
      is lower-cased but not stripped. */
  function Prune(all: bool, volumes: bool, confirm: string): (issued: seq<Argv>)
    ensures !all ==> issued == [ContainerPrune, ImagePrune]
    ensures all && Lower(confirm) != "y" ==> issued == []
    ensures VolumePrune in issued <==> all && volumes && Lower(confirm) == "y"
    ensures all && Lower(confirm) == "y" ==> |issued| >= 3 && issued[..3] == [ContainerPrune, NetworkPrune, ImagePruneAll]
  {
    if all then
      if Lower(confirm) == "y" then
        [ContainerPrune, NetworkPrune, ImagePruneAll] + (if volumes then [VolumePrune] else [])
      else []
    else [ContainerPrune, ImagePrune]
  }

  /** Only `y` or `Y` confirms: surrounding spaces cancel. */
  lemma ConfirmNotStripped(volumes: bool)
    ensures Prune(true, volumes, "Y") != []
    ensures Prune(true, volumes, " y") == []
  {
    assert Lower(" y") == " y";
  }

  // ---------------------------------------------------------------------
  // dev prune-images
  // ---------------------------------------------------------------------

  /** One line of `docker images --format {{.ID}}|{{.Repository}}:{{.Tag}}|{{.Size}}`. */
  datatype Image = Image(id: string, repoTag: string, size: string)

  function ToImages(rows: seq<seq<string>>): (r: seq<Image>)
    requires forall i :: 0 <= i < |rows| ==> |rows[i]| >= 3
    ensures |r| == |rows|
    ensures forall i :: 0 <= i < |rows| ==> r[i] == Image(rows[i][0], rows[i][1], rows[i][2])
  {
    seq(|rows|, i requires 0 <= i < |rows| => Image(rows[i][0], rows[i][1], rows[i][2]))
  }

  /** The images offered: one per listed line with at least three fields. */
  function Images(lines: seq<string>): (r: seq<Image>)
    ensures |r| <= |lines|
  {
    ToImages(Rows(lines, 3))
  }

  function RmiArgv(id: string): Argv {
    ["docker", "rmi", "-f", id]
  }

  function RemoveAll(images: seq<Image>): (issued: seq<Argv>)
    ensures |issued| == |images|
    ensures forall i :: 0 <= i < |images| ==> issued[i] == RmiArgv(images[i].id)
  {
    seq(|images|, i requires 0 <= i < |images| => RmiArgv(images[i].id))
  }

  /** `prune_images_command`: `out` is what the image listing printed
      (`None` when it failed), `force` is `--force` and `answer` the line
      typed at the prompt (not read when forced). */
  function PruneImages(out: Option<string>, force: bool, answer: string): (issued: seq<Argv>)
    ensures OutputLines(out) == [] ==> issued == []
    ensures var images := Images(OutputLines(out));
            (force ==> issued == RemoveAll(images)) &&
            (!force && ParseChoice(answer, |images|) == Quit ==> issued == []) &&
            (!force && ParseChoice(answer, |images|) == Invalid ==> issued == []) &&
            (!force && ParseChoice(answer, |images|) == All ==> issued == RemoveAll(images)) &&
            (!force && ParseChoice(answer, |images|).Pick? ==>
               issued == [RmiArgv(images[ParseChoice(answer, |images|).index].id)])
  {
    var lines := OutputLines(out);
    if lines == [] then []
    else
      var images := Images(lines);
      if force then RemoveAll(images)
      else Chosen(images, ParseChoice(answer, |images|))
  }

  /** The removals a menu choice asks for. */
  function Chosen(images: seq<Image>, choice: Choice): (issued: seq<Argv>)
    requires choice.Pick? ==> choice.index < |images|
    ensures choice == All ==> issued == RemoveAll(images)
    ensures choice.Pick? ==> issued == [RmiArgv(images[choice.index].id)]
    ensures choice == Quit || choice == Invalid ==> issued == []
  {
    match choice
    case Quit => []
    case All => RemoveAll(images)
    case Pick(k) => [RmiArgv(images[k].id)]
    case Invalid => []
  }

  /** The images are read from the listed lines: image `i` holds the first
      three fields of line `idx[i]`, the lines are taken in order, and every
      line with at least three fields gives one. */
  lemma ImagesFromLines(lines: seq<string>) returns (idx: seq<nat>)
    ensures ReadFrom(idx, Rows(lines, 3), lines, 3) && Images(lines) == ToImages(Rows(lines, 3))
  {
    idx := RowsIndexed(lines, 3);
  }

  /** The menu numbers the lines as listed, malformed ones included, while a
      number selects among the well-formed ones.  The two agree on a line
      when every line before it is well formed: typing the number printed
      next to it removes that line's image. */
  lemma {:induction false} PrintedNumberAgrees(lines: seq<string>, p: nat)
    requires p < |lines| && |Fields(lines[p])| >= 3
    requires forall q :: 0 <= q < p ==> |Fields(lines[q])| >= 3
    ensures p < |Images(lines)|
    ensures Images(lines)[p] == Image(Fields(lines[p])[0], Fields(lines[p])[1], Fields(lines[p])[2])
  {
    var before := lines[..p];
    var rest := lines[p + 1..];
    assert lines == before + [lines[p]] + rest;
    RowsAppend(before + [lines[p]], rest, 3);
    RowsAppend(before, [lines[p]], 3);
    RowsAllIff(before, 3);
    assert Rows([lines[p]], 3) == [Fields(lines[p])];
  }

  /** The menu as printed: each image with the number `enumerate` gives its
      line, `first` for the first listed line.  A malformed line prints
      nothing but still uses up a number, so the numbers run ahead of the
      positions in `Images`. */
  function MenuAsWritten(lines: seq<string>, first: nat): (m: seq<(nat, Image)>)
    ensures |m| == |Rows(lines, 3)|
    ensures forall i :: 0 <= i < |m| ==>
              var row := Rows(lines, 3)[i]; m[i].1 == Image(row[0], row[1], row[2])
    ensures forall i :: 0 <= i < |m| ==> first + i <= m[i].0 < first + |lines|
  {
    if |lines| == 0 then []
    else
      var rest := MenuAsWritten(lines[1..], first + 1);
      if |Fields(lines[0])| >= 3 then
        var f := Fields(lines[0]);
        [(first, Image(f[0], f[1], f[2]))] + rest
      else rest
  }

  /** One malformed line in front shifts every later image: the number
      printed next to the only image does not select it. */
  lemma PrintedNumberShifts()
    ensures |Images(["x", "a|b|c"])| == 1 && ParseChoice("2", 1) == Invalid
    ensures MenuAsWritten(["x", "a|b|c"], 1) == [(2, Image("a", "b", "c"))]
  {
    SampleRows();
    SampleNumber();
    SampleFields();
    var m := MenuAsWritten(["x", "a|b|c"], 1);
    assert |m| == 1 && 2 <= m[0].0 < 3;
    assert Rows(["x", "a|b|c"], 3)[0] == ["a", "b", "c"] by {
      assert ["x", "a|b|c"][1..] == ["a|b|c"];
      assert ["a|b|c"][1..] == [];
    }
  }

  /** The menu numbered over the images themselves, `enumerate(images, 1)`,
      which is how the selection reads a number. */
  function NumberedMenu(images: seq<Image>): (m: seq<(nat, Image)>)
    ensures |m| == |images|
    ensures forall i :: 0 <= i < |m| ==> m[i].1 == images[i] && m[i].0 == i + 1
  {
    seq(|images|, i requires 0 <= i < |images| => (i + 1, images[i]))
  }

  /** The number printed next to each image of the numbered menu, typed at
      the prompt, picks that image. */
  lemma NumberedMenuPicks(images: seq<Image>, i: nat)
    requires i < |NumberedMenu(images)|
    ensures ParseChoice(Decimal(NumberedMenu(images)[i].0), |images|) == Pick(i)
  {
    PickTyped(i + 1, |images|);
  }

  /** With the menu numbered over the images, typing the number printed
      next to an image removes exactly that image, whatever malformed lines
      the listing holds. */
  lemma MenuNumberSelects(out: Option<string>, i: nat)
    requires i < |NumberedMenu(Images(OutputLines(out)))|
    ensures var e := NumberedMenu(Images(OutputLines(out)))[i];
            PruneImages(out, false, Decimal(e.0)) == [RmiArgv(e.1.id)]
  {
    var images := Images(OutputLines(out));
    NumberedMenuPicks(images, i);
  }

  lemma SampleFields()
    ensures Fields("x") == ["x"] && Fields("a|b|c") == ["a", "b", "c"]
  {
    SplitNoSep("x", '|');
    SplitNoSep("c", '|');
    SplitConcat("b", '|', "c");
    assert "b" + "|" + "c" == "b|c";
    SplitConcat("a", '|', "b|c");
    assert "a" + "|" + "b|c" == "a|b|c";
    assert ["a"] + (["b"] + ["c"]) == ["a", "b", "c"];
  }

  lemma SampleRows()
    ensures |Images(["x", "a|b|c"])| == 1
  {
    SampleFields();
    assert Rows(["x", "a|b|c"], 3) == [["a", "b", "c"]] by {
      assert ["x", "a|b|c"][1..] == ["a|b|c"];
      assert ["a|b|c"][1..] == [];
    }
  }

  lemma SampleNumber()
    ensures ParseChoice("2", 1) == Invalid
  {
    assert Decimal(2) == "2";
    OutOfRangeInvalid(2, 1);
  }

  // ---------------------------------------------------------------------
  // update_srv_function
  // ---------------------------------------------------------------------

  const OldHomePath := "$HOME/dev/"
  const NewHomePath := "$HOME/.dev/"
  const OldTildePath := "~/dev/"
  const NewTildePath := "~/.dev/"

  /** The rewrite of the file's content: neither old path survives it. */
  function RewritePaths(content: string): (r: string)
    ensures !Contains(r, OldHomePath) && !Contains(r, OldTildePath)
  {
    NoOldPathsLeft(content);
    ReplaceAll(ReplaceAll(content, OldHomePath, NewHomePath), OldTildePath, NewTildePath)
  }

  /** `update_srv_function`: the new content of `shell_functions`, or `None`
      when the file does not exist and nothing is written. */
  function UpdateSrvFunction(file: Option<string>): (r: Option<string>)
    ensures r.None? <==> file.None?
    ensures r.Some? ==> !Contains(r.value, OldHomePath) && !Contains(r.value, OldTildePath)
    ensures r.Some? ==> r.value == RewritePaths(file.value)
  {
    if file.None? then None
    else Some(RewritePaths(file.value))
  }

  /** Neither old path survives the two replacements. */
  lemma NoOldPathsLeft(content: string)
    ensures var r := ReplaceAll(ReplaceAll(content, OldHomePath, NewHomePath), OldTildePath, NewTildePath);
            !Contains(r, OldHomePath) && !Contains(r, OldTildePath)
  {
    var once := ReplaceAll(content, OldHomePath, NewHomePath);
    assert OldHomePath[..1] == "$" && NewHomePath[..10] == "$HOME/.dev";
    assert '$' !in OldHomePath[1..] && '$' !in NewHomePath[1..];
    ReplaceLeavesNone(content, OldHomePath, NewHomePath);
    assert '$' !in NewTildePath && '~' !in OldHomePath;
    ReplaceKeepsAbsent(once, OldTildePath, NewTildePath, OldHomePath);
    assert '~' !in OldTildePath[1..] && '~' !in NewTildePath[1..];
    assert NewTildePath[..6] == "~/.dev";
    ReplaceLeavesNone(once, OldTildePath, NewTildePath);
  }

  /** Content without either old path is left exactly as it was. */
  lemma RewriteKeepsClean(content: string)
    requires !Contains(content, OldHomePath) && !Contains(content, OldTildePath)
    ensures RewritePaths(content) == content
  {
    ReplaceAbsent(content, OldHomePath, NewHomePath);
    ReplaceAbsent(content, OldTildePath, NewTildePath);
  }

  /** Running the update twice is the same as running it once. */
  lemma UpdateIdempotent(file: Option<string>)
    ensures UpdateSrvFunction(UpdateSrvFunction(file)) == UpdateSrvFunction(file)
  {
    if file.Some? {
      RewriteKeepsClean(RewritePaths(file.value));
    }
  }

  /** Text that holds neither `$` nor `~` cannot hold an old path. */
  lemma PlainTextKept(a: string)
    requires '$' !in a && '~' !in a
    ensures RewritePaths(a) == a
  {
    ReplaceAfterFree(a, [], OldHomePath, NewHomePath);
    ReplaceAfterFree(a, [], OldTildePath, NewTildePath);
    assert a + [] == a;
  }

  /** A `$HOME/dev/` is rewritten in place to `$HOME/.dev/`: the text before
      it is kept and the text after it is rewritten in turn. */
  lemma RewriteHomePath(a: string, b: string)
    requires '$' !in a && '~' !in a
    ensures RewritePaths(a + OldHomePath + b) == RewritePaths(a) + NewHomePath + RewritePaths(b)
  {
    PlainTextKept(a);
    var b1 := ReplaceAll(b, OldHomePath, NewHomePath);
    Assoc3(a, OldHomePath, b);
    ReplaceAfterFree(a, OldHomePath + b, OldHomePath, NewHomePath);
    ReplaceAtStart(OldHomePath, b, NewHomePath);
    Assoc3(a, NewHomePath, b1);
    NotInAppend('~', a, NewHomePath);
    ReplaceAfterFree(a + NewHomePath, b1, OldTildePath, NewTildePath);
  }

  /** A `~/dev/` is rewritten in place to `~/.dev/` the same way. */
  lemma RewriteTildePath(a: string, b: string)
    requires '$' !in a && '~' !in a
    ensures RewritePaths(a + OldTildePath + b) == RewritePaths(a) + NewTildePath + RewritePaths(b)
  {
    PlainTextKept(a);
    var b1 := ReplaceAll(b, OldHomePath, NewHomePath);
    NotInAppend('$', a, OldTildePath);
    ReplaceAfterFree(a + OldTildePath, b, OldHomePath, NewHomePath);
    Assoc3(a, OldTildePath, b1);
    ReplaceAfterFree(a, OldTildePath + b1, OldTildePath, NewTildePath);
    ReplaceAtStart(OldTildePath, b1, NewTildePath);
  }

  lemma Assoc3<T>(x: seq<T>, y: seq<T>, z: seq<T>)
    ensures x + y + z == x + (y + z)
  {
  }

  lemma NotInAppend<T>(c: T, x: seq<T>, y: seq<T>)
    requires c !in x && c !in y
    ensures c !in x + y
  {
  }
}

=== FILE: dev_shell.dfy ===
/** The `dev` command: pick the container for the current directory, work
    out where the shell should start inside it, and then either attach to
    the running container, start the stopped one, or create it. */
module DevShell {
  import opened Text
  import opened Runtime
  import opened Assoc
  import opened DevUtils

  const Image: string := "christi-dev:latest"

  // ---------------------------------------------------------------------
  // Host paths and container paths
  // ---------------------------------------------------------------------

  /** The path without trailing slashes, as `os.path` normalises it; the root
      stays `/`. */
  function DropTrailingSlashes(p: string): (r: string)
    ensures StartsWith(p, r)
    ensures |r| > 1 ==> r[|r| - 1] != '/'
    ensures |p| > 0 && p[0] == '/' ==> |r| > 0 && r[0] == '/'
    decreases |p|
  {
    if |p| > 1 && p[|p| - 1] == '/' then DropTrailingSlashes(p[..|p| - 1]) else p
  }

  /** `os.path.relpath(cwd, host)` for a directory `cwd` that starts with the
      text of `host`.  Exact for absolute paths without `.`, `..` or `//`
      components, which are the paths the container is set up with. */
  function RelPath(cwd: string, host: string): string {
    var h := DropTrailingSlashes(host);
    if cwd == h then "."
    else if h == "/" && StartsWith(cwd, "/") then cwd[1..]
    else if StartsWith(cwd, h + "/") then cwd[|h| + 1..]
    else if StartsWith(cwd, h) then "../" + Basename(h) + cwd[|h|..]
    else cwd
  }

  /** `os.path.join(a, b)`. */
  function PathJoin(a: string, b: string): (r: string)
    ensures StartsWith(b, "/") ==> r == b
    ensures !StartsWith(b, "/") ==> EndsWith(r, b) && StartsWith(r, a)
  {
    if StartsWith(b, "/") then b
    else if a == [] || EndsWith(a, "/") then a + b
    else a + "/" + b
  }

  /** Position of the first mount whose expanded host path is a plain text
      prefix of `cwd`, or -1.  `expand` stands for
      `os.path.expanduser(os.path.expandvars(...))`. */
  function FirstMount(ms: seq<Mount>, cwd: string, expand: string -> string): (i: int)
    ensures -1 <= i < |ms|
    ensures i >= 0 ==> StartsWith(cwd, expand(ms[i].hostPath))
    ensures forall j :: 0 <= j < |ms| && (i == -1 || j < i) ==> !StartsWith(cwd, expand(ms[j].hostPath))
  {
    if |ms| == 0 then -1
    else if StartsWith(cwd, expand(ms[0].hostPath)) then 0
    else
      var k := FirstMount(ms[1..], cwd, expand);
      if k == -1 then -1 else k + 1
  }

  /** `determine_working_directory`: the container path of the first mount
      that covers `cwd`, extended by the relative path; otherwise the default
      working directory.  Later mounts are never consulted. */
  function WorkingDirectory(cwd: string, d: Descriptor, expand: string -> string): (w: string)
    ensures (forall j :: 0 <= j < |d.mounts| ==> !StartsWith(cwd, expand(d.mounts[j].hostPath))) ==>
              w == d.defaultWorkdir
    ensures var i := FirstMount(d.mounts, cwd, expand);
            i >= 0 ==> w == PathJoin(d.mounts[i].containerPath, RelPath(cwd, expand(d.mounts[i].hostPath)))
    ensures var i := FirstMount(d.mounts, cwd, expand);
            i >= 0 && PlainDir(expand(d.mounts[i].hostPath)) && cwd == expand(d.mounts[i].hostPath) ==>
              w == PathJoin(d.mounts[i].containerPath, ".")
    ensures var i := FirstMount(d.mounts, cwd, expand);
            i >= 0 && PlainDir(expand(d.mounts[i].hostPath)) && StartsWith(cwd, expand(d.mounts[i].hostPath) + "/") ==>
              w == PathJoin(d.mounts[i].containerPath, cwd[|expand(d.mounts[i].hostPath)| + 1..])
  {
    var i := FirstMount(d.mounts, cwd, expand);
    if i == -1 then d.defaultWorkdir
    else
      var m := d.mounts[i];
      PlainDirKept(expand(m.hostPath));
      PathJoin(m.containerPath, RelPath(cwd, expand(m.hostPath)))
  }

  /** A plain directory has no trailing slash to drop. */
  lemma PlainDirKept(h: string)
    ensures PlainDir(h) ==> DropTrailingSlashes(h) == h
  {
  }

  /** A host path as the container is set up with: absolute, no trailing
      slash, not the root. */
  predicate PlainDir(h: string) {
    |h| > 1 && h[0] == '/' && h[|h| - 1] != '/'
  }

  /** Inside a mount, the shell starts at the same relative place under the
      container path. */
  lemma WorkdirInsideMount(cwd: string, d: Descriptor, expand: string -> string, rest: string)
    requires var i := FirstMount(d.mounts, cwd, expand);
             i >= 0 && PlainDir(expand(d.mounts[i].hostPath))
             && cwd == expand(d.mounts[i].hostPath) + "/" + rest
             && !StartsWith(rest, "/")
    ensures var i := FirstMount(d.mounts, cwd, expand);
            WorkingDirectory(cwd, d, expand) == PathJoin(d.mounts[i].containerPath, rest)
  {
    var i := FirstMount(d.mounts, cwd, expand);
    var h := expand(d.mounts[i].hostPath);
    assert DropTrailingSlashes(h) == h;
    assert StartsWith(cwd, h + "/");
    assert cwd[|h| + 1..] == rest;
  }

  /** At the mount point itself the shell starts at the container path
      (joined with `.`). */
  lemma WorkdirAtMount(cwd: string, d: Descriptor, expand: string -> string)
    requires var i := FirstMount(d.mounts, cwd, expand);
             i >= 0 && PlainDir(expand(d.mounts[i].hostPath)) && cwd == expand(d.mounts[i].hostPath)
    ensures var i := FirstMount(d.mounts, cwd, expand);
            WorkingDirectory(cwd, d, expand) == PathJoin(d.mounts[i].containerPath, ".")
  {
    var i := FirstMount(d.mounts, cwd, expand);
    assert DropTrailingSlashes(cwd) == cwd;
  }

  /** The match is not boundary-aware: a sibling directory whose name merely
      starts with the mount's name also matches, and the shell starts in a
      `../` path next to the container path. */
  lemma WorkdirSibling(cwd: string, d: Descriptor, expand: string -> string, tail: string)
    requires var i := FirstMount(d.mounts, cwd, expand);
             i >= 0 && PlainDir(expand(d.mounts[i].hostPath))
             && cwd == expand(d.mounts[i].hostPath) + tail
             && tail != [] && tail[0] != '/'
    ensures var i := FirstMount(d.mounts, cwd, expand);
            var h := expand(d.mounts[i].hostPath);
            WorkingDirectory(cwd, d, expand) == PathJoin(d.mounts[i].containerPath, "../" + Basename(h) + tail)
  {
    var i := FirstMount(d.mounts, cwd, expand);
    var h := expand(d.mounts[i].hostPath);
    assert DropTrailingSlashes(h) == h;
    assert cwd != h by { assert |cwd| > |h|; }
    assert !StartsWith(cwd, h + "/") by { assert cwd[|h|] == tail[0]; }
    assert StartsWith(cwd, h) && cwd[|h|..] == tail;
  }

  /** Mounts are tried in declaration order: once one covers `cwd`, a later
      one never decides the directory, even a longer, closer match. */
  lemma WorkdirFirstMountWins(cwd: string, d: Descriptor, expand: string -> string, j: nat)
    requires j < |d.mounts| && StartsWith(cwd, expand(d.mounts[j].hostPath))
    ensures 0 <= FirstMount(d.mounts, cwd, expand) <= j
  {
  }

  // ---------------------------------------------------------------------
  // Command lines
  // ---------------------------------------------------------------------

  /** The interactive shell every path ends with. */
  function ShellArgv(name: string, workdir: string): Argv {
    ["docker", "exec", "-it", "-w", workdir, name, "/bin/bash"]
  }

  /** The initialisation script run after a create: links the editor
      configuration and adds the shell-functions line to `~/.bashrc`. */
  const CreateInitScript: string :=
    "\n    # Create Neovim config directory\n    mkdir -p /home/me/.config/nvim\n\n"
    + "    # Set up Neovim configuration\n"
    + "    # Always use the in-container path to avoid symlink issues with host\n"
    + "    ln -sf /home/me/.dev/config/init.lua /home/me/.config/nvim/init.lua\n\n"
    + "    # Set up bashrc to source shell_functions\n"
    + "    if ! grep -q \"" + SourceLine + "\" /home/me/.bashrc; then\n"
    + "        echo \"" + SourceLine + "\" >> /home/me/.bashrc\n"
    + "    fi\n    "

  /** The script run after a start: the same, then the functions are sourced. */
  const StartInitScript: string :=
    "\n    # Create Neovim config directory\n    mkdir -p /home/me/.config/nvim\n\n"
    + "    # Set up Neovim configuration\n"
    + "    # Always use the in-container path to avoid symlink issues with host\n"
    + "    ln -sf /home/me/.dev/config/init.lua /home/me/.config/nvim/init.lua\n\n"
    + "    # Set up bashrc to source shell_functions\n"
    + "    if ! grep -q \"" + SourceLine + "\" /home/me/.bashrc; then\n"
    + "        echo \"" + SourceLine + "\" >> /home/me/.bashrc\n"
    + "    fi\n    \n"
    + "    # Source shell_functions in this session to ensure commands are available immediately\n"
    + "    " + SourceLine + " || true\n    "

  /** The two scripts, as the plans below receive them. */
  datatype InitScripts = InitScripts(create: string, start: string)

  const Scripts: InitScripts := InitScripts(CreateInitScript, StartInitScript)

  function InitArgv(name: string, script: string): Argv {
    ["docker", "exec", name, "bash", "-c", script]
  }

  function StartArgv(name: string): Argv {
    ["docker", "start", name]
  }

  function UpdateArgv(name: string, hostPort: string): Argv {
    ["docker", "container", "update", "--publish-rm", hostPort, name]
  }

  /** `--volume=host:container[:options]`. */
  function VolumeFlag(m: Mount): string {
    "--volume=" + m.hostPath + ":" + m.containerPath + (if m.options != [] then ":" + m.options else [])
  }

  /** The volume flag names its mount unambiguously when no part holds a `:`. */
  lemma VolumeFlagRoundTrip(m: Mount)
    requires ':' !in m.hostPath && ':' !in m.containerPath && ':' !in m.options
    ensures var f := VolumeFlag(m);
            StartsWith(f, "--volume=")
            && Split(f[9..], ':') == [m.hostPath, m.containerPath] + (if m.options != [] then [m.options] else [])
  {
    var f := VolumeFlag(m);
    var body := m.hostPath + ":" + m.containerPath + (if m.options != [] then ":" + m.options else []);
    assert f == "--volume=" + body;
    assert f[9..] == body;
    if m.options != [] {
      assert body == m.hostPath + [':'] + (m.containerPath + [':'] + m.options);
      SplitConcat(m.hostPath, ':', m.containerPath + [':'] + m.options);
      SplitConcat(m.containerPath, ':', m.options);
      SplitNoSep(m.options, ':');
    } else {
      assert body == m.hostPath + [':'] + m.containerPath;
      SplitConcat(m.hostPath, ':', m.containerPath);
      SplitNoSep(m.containerPath, ':');
    }
  }

  function VolumeFlags(ms: seq<Mount>): (fs: seq<string>)
    ensures |fs| == |ms|
    ensures forall i :: 0 <= i < |ms| ==> fs[i] == VolumeFlag(ms[i])
  {
    if |ms| == 0 then [] else [VolumeFlag(ms[0])] + VolumeFlags(ms[1..])
  }

  function EnvFlags(vars: Dict): (fs: seq<string>)
    ensures |fs| == |vars|
    ensures forall i :: 0 <= i < |vars| ==> fs[i] == "--env=" + vars[i].0 + "=" + vars[i].1
  {
    if |vars| == 0 then [] else ["--env=" + vars[0].0 + "=" + vars[0].1] + EnvFlags(vars[1..])
  }

  /** `mapping.split(':')[0]`: the host side of a port mapping. */
  function HostPort(mapping: string): string {
    Split(mapping, ':')[0]
  }

  /** Whether the create path can read a mapping at all: `host, container =
      mapping.split(':')` needs exactly one `:`. */
  predicate TwoFields(mapping: string) {
    |Split(mapping, ':')| == 2
  }

  /** The `--publish=` flags of the create path, or `None` when a mapping does
      not unpack or a probe raises.  Mappings whose host port is in use are
      skipped. */
  function PublishFlags(ports: seq<string>, probe: string -> Probe): (r: Option<seq<string>>)
    ensures r.Some? <==> forall i :: 0 <= i < |ports| ==>
                           TwoFields(ports[i]) && probe(HostPort(ports[i])) != ProbeRaises
    ensures r.Some? ==> |r.value| <= |ports|
    ensures r.Some? ==> forall x :: x in r.value <==>
              exists i :: 0 <= i < |ports| && probe(HostPort(ports[i])) == Available
                          && x == "--publish=" + ports[i]
  {
    if |ports| == 0 then Some([])
    else if !TwoFields(ports[0]) || probe(HostPort(ports[0])) == ProbeRaises then None
    else
      var rest := PublishFlags(ports[1..], probe);
      if rest.None? then
        None
      else
        var mine := if probe(HostPort(ports[0])) == Available then ["--publish=" + ports[0]] else [];
        assert forall i :: 1 <= i < |ports| ==> ports[i] == ports[1..][i - 1];
        assert forall x :: x in rest.value ==>
                 exists i :: 0 <= i < |ports| && probe(HostPort(ports[i])) == Available
                             && x == "--publish=" + ports[i] by {
          forall x | x in rest.value
            ensures exists i :: 0 <= i < |ports| && probe(HostPort(ports[i])) == Available
                                && x == "--publish=" + ports[i] {
            var j :| 0 <= j < |ports[1..]| && probe(HostPort(ports[1..][j])) == Available
                     && x == "--publish=" + ports[1..][j];
            assert ports[j + 1] == ports[1..][j];
          }
        }
        Some(mine + rest.value)
  }

  /** One mapping gives its own flag when its host port is free, and none
      when the port is in use. */
  lemma PublishFlagsOne(port: string, probe: string -> Probe)
    requires TwoFields(port) && probe(HostPort(port)) != ProbeRaises
    ensures PublishFlags([port], probe)
            == Some(if probe(HostPort(port)) == Available then ["--publish=" + port] else [])
  {
    var ports := [port];
    assert ports[0] == port && ports[1..] == [];
    assert PublishFlags(ports[1..], probe) == Some([]);
    var mine: seq<string> := if probe(HostPort(port)) == Available then ["--publish=" + port] else [];
    assert PublishFlags(ports, probe).value == mine + [];
    assert mine + [] == mine;
  }

  /** The flags follow the configured mappings in order: the flags of `a + b`
      are those of `a`, then those of `b`. */
  lemma {:induction false} PublishFlagsAppend(a: seq<string>, b: seq<string>, probe: string -> Probe)
    requires PublishFlags(a, probe).Some? && PublishFlags(b, probe).Some?
    ensures PublishFlags(a + b, probe) == Some(PublishFlags(a, probe).value + PublishFlags(b, probe).value)
  {
    if |a| == 0 {
      assert a + b == b;
      assert PublishFlags(a, probe).value == [];
      assert PublishFlags(a + b, probe) == PublishFlags(b, probe);
      assert PublishFlags(a, probe).value + PublishFlags(b, probe).value == PublishFlags(b, probe).value;
    } else {
      assert (a + b)[0] == a[0];
      assert (a + b)[1..] == a[1..] + b;
      PublishFlagsAppend(a[1..], b, probe);
      var mine := if probe(HostPort(a[0])) == Available then ["--publish=" + a[0]] else [];
      assert PublishFlags(a, probe).value == mine + PublishFlags(a[1..], probe).value;
      assert PublishFlags(a + b, probe).value == mine + PublishFlags(a[1..] + b, probe).value;
      StringSeqAssoc(mine, PublishFlags(a[1..], probe).value, PublishFlags(b, probe).value);
    }
  }

  lemma StringSeqAssoc(x: seq<string>, y: seq<string>, z: seq<string>)
    ensures x + (y + z) == (x + y) + z
  {
  }

  /** Every flag up to the port mappings: name and volumes. */
  function RunHead(name: string, d: Descriptor): Argv {
    ["docker", "run", "-d", "-it", "--name", name] + VolumeFlags(d.mounts)
  }

  /** Every flag after the port mappings: network, security, environment,
      working directory, image. */
  function RunTail(d: Descriptor, workdir: string): Argv {
    ["--network", "bridge", "--cap-add=SYS_PTRACE", "--security-opt", "seccomp=unconfined"]
    + EnvFlags(d.envVars) + ["--workdir=" + workdir, Image]
  }

  /** The `docker run` command line of the create path. */
  function CreateArgv(name: string, d: Descriptor, workdir: string, probe: string -> Probe): (r: Option<Argv>)
    ensures r.None? <==> PublishFlags(d.ports, probe).None?
    ensures r.Some? ==>
              exists pubs :: r.value == RunHead(name, d) + pubs + RunTail(d, workdir)
                             && PublishFlags(d.ports, probe) == Some(pubs)
    ensures r.Some? ==> |r.value| > 1 && r.value[1] == "run"
  {
    var pubs := PublishFlags(d.ports, probe);
    if pubs.None? then None
    else
      var a := RunHead(name, d) + pubs.value + RunTail(d, workdir);
      assert a[1] == RunHead(name, d)[1];
      Some(a)
  }

  /** The layout of the create command: name first, one volume per mount in
      order, the working directory and the image last. */
  lemma CreateArgvLayout(name: string, d: Descriptor, workdir: string, probe: string -> Probe)
    requires CreateArgv(name, d, workdir, probe).Some?
    ensures var a := CreateArgv(name, d, workdir, probe).value;
            && |a| >= 6 + |d.mounts| + 7 + |d.envVars|
            && a[..6] == ["docker", "run", "-d", "-it", "--name", name]
            && (forall i :: 0 <= i < |d.mounts| ==> a[6 + i] == VolumeFlag(d.mounts[i]))
            && a[|a| - 2] == "--workdir=" + workdir
            && a[|a| - 1] == Image
  {
    var a := CreateArgv(name, d, workdir, probe).value;
    var pubs :| a == RunHead(name, d) + pubs + RunTail(d, workdir);
    var tail := RunTail(d, workdir);
    assert |tail| == 7 + |d.envVars|;
    assert a[|a| - 1] == tail[|tail| - 1];
    assert a[|a| - 2] == tail[|tail| - 2];
    forall i | 0 <= i < |d.mounts| ensures a[6 + i] == VolumeFlag(d.mounts[i]) {
      assert a[6 + i] == RunHead(name, d)[6 + i];
    }
  }

  /** Port probes decide only the `--publish=` flags: whatever they report,
      everything before and after those flags is the same. */
  lemma ProbesOnlyChangePublish(name: string, d: Descriptor, workdir: string,
                                probe1: string -> Probe, probe2: string -> Probe)
    requires CreateArgv(name, d, workdir, probe1).Some? && CreateArgv(name, d, workdir, probe2).Some?
    ensures exists p1, p2 :: CreateArgv(name, d, workdir, probe1).value == RunHead(name, d) + p1 + RunTail(d, workdir)
                          && CreateArgv(name, d, workdir, probe2).value == RunHead(name, d) + p2 + RunTail(d, workdir)
  {
  }

  /** The host ports of the configured mappings that are in use now, or
      `None` when a probe raises. */
  function ConflictPorts(ports: seq<string>, probe: string -> Probe): (r: Option<seq<string>>)
    ensures r.Some? <==> forall i :: 0 <= i < |ports| ==> probe(HostPort(ports[i])) != ProbeRaises
    ensures r.Some? ==> |r.value| <= |ports|
    ensures r.Some? ==> forall h :: h in r.value <==>
              exists i :: 0 <= i < |ports| && h == HostPort(ports[i]) && probe(h) == InUse
  {
    if |ports| == 0 then Some([])
    else if probe(HostPort(ports[0])) == ProbeRaises then None
    else
      var rest := ConflictPorts(ports[1..], probe);
      if rest.None? then None
      else
        var mine := if probe(HostPort(ports[0])) == InUse then [HostPort(ports[0])] else [];
        assert forall i :: 1 <= i < |ports| ==> ports[i] == ports[1..][i - 1];
        assert forall h :: h in rest.value ==>
                 exists i :: 0 <= i < |ports| && h == HostPort(ports[i]) && probe(h) == InUse by {
          forall h | h in rest.value
            ensures exists i :: 0 <= i < |ports| && h == HostPort(ports[i]) && probe(h) == InUse {
            var j :| 0 <= j < |ports[1..]| && h == HostPort(ports[1..][j]) && probe(h) == InUse;
            assert ports[j + 1] == ports[1..][j];
          }
        }
        Some(mine + rest.value)
  }

  /** One mapping is a conflict exactly when its host port is in use. */
  lemma ConflictPortsOne(port: string, probe: string -> Probe)
    requires probe(HostPort(port)) != ProbeRaises
    ensures ConflictPorts([port], probe)
            == Some(if probe(HostPort(port)) == InUse then [HostPort(port)] else [])
  {
    var ports := [port];
    assert ports[0] == port && ports[1..] == [];
    assert ConflictPorts(ports[1..], probe) == Some([]);
    var mine: seq<string> := if probe(HostPort(port)) == InUse then [HostPort(port)] else [];
    assert ConflictPorts(ports, probe).value == mine + [];
    assert mine + [] == mine;
  }

  /** The first mapping's conflict, then the rest's. */
  lemma ConflictPortsCons(ports: seq<string>, probe: string -> Probe)
    requires |ports| > 0 && ConflictPorts(ports, probe).Some?
    ensures ConflictPorts(ports[1..], probe).Some?
    ensures ConflictPorts(ports, probe).value
            == (if probe(HostPort(ports[0])) == InUse then [HostPort(ports[0])] else [])
               + ConflictPorts(ports[1..], probe).value
  {
  }

  /** Conflicts are collected in the order of the configured mappings, one
      per mapping in use, repeats included: those of `a + b` are those of
      `a`, then those of `b`. */
  lemma {:induction false} ConflictPortsAppend(a: seq<string>, b: seq<string>, probe: string -> Probe)
    requires ConflictPorts(a, probe).Some? && ConflictPorts(b, probe).Some?
    ensures ConflictPorts(a + b, probe) == Some(ConflictPorts(a, probe).value + ConflictPorts(b, probe).value)
  {
    if |a| == 0 {
      assert a + b == b;
      assert ConflictPorts(a, probe).value == [];
      assert ConflictPorts(a + b, probe) == ConflictPorts(b, probe);
      assert ConflictPorts(a, probe).value + ConflictPorts(b, probe).value == ConflictPorts(b, probe).value;
    } else {
      assert (a + b)[0] == a[0];
      assert (a + b)[1..] == a[1..] + b;
      ConflictPortsCons(a, probe);
      ConflictPortsAppend(a[1..], b, probe);
      ConflictPortsCons(a + b, probe);
      var mine := if probe(HostPort(a[0])) == InUse then [HostPort(a[0])] else [];
      StringSeqAssoc(mine, ConflictPorts(a[1..], probe).value, ConflictPorts(b, probe).value);
    }
  }

  /** One `container update --publish-rm` per conflicting host port. */
  function UpdateSteps(name: string, conflicts: seq<string>): (s: seq<Step>)
    ensures |s| == |conflicts|
    ensures forall i :: 0 <= i < |s| ==> s[i] == Step(UpdateArgv(name, conflicts[i]), false)
  {
    if |conflicts| == 0 then [] else [Step(UpdateArgv(name, conflicts[0]), false)] + UpdateSteps(name, conflicts[1..])
  }

  /** `start_existing_container`: drop the conflicting mappings, start, run
      the start script, attach.  The inspect command is built but not run. */
  function StartPlan(name: string, d: Descriptor, workdir: string, probe: string -> Probe, scripts: InitScripts): (r: Option<seq<Step>>)
    ensures r.Some? ==> |r.value| > 0 && r.value[|r.value| - 1] == Step(ShellArgv(name, workdir), false)
  {
    var conflicts := ConflictPorts(d.ports, probe);
    if conflicts.None? then None else Some(StartSteps(name, conflicts.value, workdir, scripts.start))
  }

  function StartSteps(name: string, conflicts: seq<string>, workdir: string, script: string): seq<Step> {
    UpdateSteps(name, conflicts)
    + [Step(StartArgv(name), true), Step(InitArgv(name, script), true),
       Step(ShellArgv(name, workdir), false)]
  }

  /** `create_new_container`: run, run the create script, attach. */
  function CreatePlan(name: string, d: Descriptor, workdir: string, probe: string -> Probe, scripts: InitScripts): (r: Option<seq<Step>>)
    ensures r.Some? ==> |r.value| > 0 && r.value[|r.value| - 1] == Step(ShellArgv(name, workdir), false)
  {
    var run := CreateArgv(name, d, workdir, probe);
    if run.None? then None
    else Some([Step(run.value, true), Step(InitArgv(name, scripts.create), true),
               Step(ShellArgv(name, workdir), false)])
  }

  datatype State = Running | Stopped | Absent

  /** The three-way dispatch: running is asked first, existence second. */
  function StateOf(name: string, running: string -> bool, exists_: string -> bool): (s: State)
    ensures s == Running <==> running(name)
    ensures s == Stopped <==> !running(name) && exists_(name)
  {
    if running(name) then Running else if exists_(name) then Stopped else Absent
  }

  /** The host environment one `dev` invocation sees. */
  datatype Host = Host(
    cwd: string,                    // os.getcwd()
    devDir: string,                 // DEV_DIR
    envFile: Option<string>,        // contents of DEV_DIR/dev.env, if present
    md5: string -> string,          // hashlib.md5(...).hexdigest()
    pathExists: string -> bool,     // os.path.exists
    expandUser: string -> string,   // os.path.expanduser
    expand: string -> string,       // expanduser(expandvars(...))
    running: string -> bool,        // container_running
    exists_: string -> bool,        // container_exists
    probe: string -> Probe,         // check_port_availability
    ok: Argv -> bool)               // whether a command succeeds

  function SessionName(h: Host): string {
    ContainerName(h.cwd, h.devDir, h.md5)
  }

  function SessionDescriptor(h: Host): Descriptor {
    ParseDevEnv(h.envFile, h.devDir, h.pathExists, h.expandUser)
  }

  /** The working directory is computed once, before the dispatch. */
  function SessionWorkdir(h: Host): string {
    WorkingDirectory(h.cwd, SessionDescriptor(h), h.expand)
  }

  /** What happens once the state of the container is known: attach,
      start-and-attach, or create-and-attach. */
  function Dispatch(state: State, name: string, d: Descriptor, w: string, scripts: InitScripts,
                    probe: string -> Probe, ok: Argv -> bool): (r: Run)
    ensures state == Running ==> r == Run([ShellArgv(name, w)], Finished)
    ensures r.ending == Finished ==> |r.issued| > 0 && r.issued[|r.issued| - 1] == ShellArgv(name, w)
    ensures r.ending == Raised ==> r.issued == []
  {
    match state
    case Running => Run([ShellArgv(name, w)], Finished)
    case Stopped => Perform(StartPlan(name, d, w, probe, scripts), ok)
    case Absent => Perform(CreatePlan(name, d, w, probe, scripts), ok)
  }

  /** `shell_command`: the commands it issues and how it ends.  The working
      directory is computed once, before the dispatch, and every path that
      finishes ends in the shell at that directory. */
  function ShellSession(h: Host): (r: Run)
    ensures StateOf(SessionName(h), h.running, h.exists_) == Running ==>
              r == Run([ShellArgv(SessionName(h), SessionWorkdir(h))], Finished)
    ensures r.ending == Finished ==>
              |r.issued| > 0 && r.issued[|r.issued| - 1] == ShellArgv(SessionName(h), SessionWorkdir(h))
    ensures r.ending == Raised ==> r.issued == []
  {
    Dispatch(StateOf(SessionName(h), h.running, h.exists_), SessionName(h), SessionDescriptor(h),
             SessionWorkdir(h), Scripts, h.probe, h.ok)
  }

  /** A stopped container with probes that answer: the conflicting host ports
      are released one by one, all before `docker start`, which is always
      issued. */
  lemma StartPathOrder(name: string, d: Descriptor, w: string, scripts: InitScripts, probe: string -> Probe, ok: Argv -> bool)
    requires ConflictPorts(d.ports, probe).Some?
    ensures var cs := ConflictPorts(d.ports, probe).value;
            var r := Dispatch(Stopped, name, d, w, scripts, probe, ok);
            && |r.issued| >= |cs| + 1
            && (forall i :: 0 <= i < |cs| ==> r.issued[i] == UpdateArgv(name, cs[i]))
            && r.issued[|cs|] == StartArgv(name)
  {
    StartStepsOrder(name, ConflictPorts(d.ports, probe).value, w, scripts.start, ok);
  }

  lemma StartStepsOrder(name: string, cs: seq<string>, w: string, script: string, ok: Argv -> bool)
    ensures var r := Execute(StartSteps(name, cs, w, script), ok);
            && |r.issued| >= |cs| + 1
            && (forall i :: 0 <= i < |cs| ==> r.issued[i] == UpdateArgv(name, cs[i]))
            && r.issued[|cs|] == StartArgv(name)
  {
    var steps := StartSteps(name, cs, w, script);
    assert forall i :: 0 <= i < |cs| ==> steps[i] == Step(UpdateArgv(name, cs[i]), false);
    assert steps[|cs|] == Step(StartArgv(name), true);
    IssuedThrough(steps, ok, |cs|);
  }

  /** Ports that are all free give no conflicts. */
  lemma {:induction false} NoConflicts(ports: seq<string>, probe: string -> Probe)
    ensures (forall i :: 0 <= i < |ports| ==> probe(HostPort(ports[i])) == Available) ==>
              ConflictPorts(ports, probe) == Some([])
  {
    if |ports| > 0 {
      NoConflicts(ports[1..], probe);
      assert forall i :: 1 <= i < |ports| ==> ports[i] == ports[1..][i - 1];
    }
  }

  /** With every configured host port free, the start path issues no update
      and begins with `docker start`. */
  lemma NoConflictNoUpdate(name: string, d: Descriptor, w: string, scripts: InitScripts, probe: string -> Probe, ok: Argv -> bool)
    requires forall i :: 0 <= i < |d.ports| ==> probe(HostPort(d.ports[i])) == Available
    ensures ConflictPorts(d.ports, probe) == Some([])
    ensures Dispatch(Stopped, name, d, w, scripts, probe, ok).issued[0] == StartArgv(name)
  {
    NoConflicts(d.ports, probe);
    StartPathOrder(name, d, w, scripts, probe, ok);
  }

  /** A failing `docker run` ends the process: neither the script nor the
      shell is issued. */
  lemma CreateFailureStops(name: string, d: Descriptor, w: string, scripts: InitScripts, probe: string -> Probe, ok: Argv -> bool)
    requires CreateArgv(name, d, w, probe).Some? && !ok(CreateArgv(name, d, w, probe).value)
    ensures Dispatch(Absent, name, d, w, scripts, probe, ok) == Run([CreateArgv(name, d, w, probe).value], Exited)
  {
  }

  predicate IsCommand(a: Argv, verb: string) {
    |a| > 1 && a[1] == verb
  }

  /** The create path never starts or updates an existing container. */
  lemma CreatePathIssues(name: string, d: Descriptor, w: string, scripts: InitScripts, probe: string -> Probe, ok: Argv -> bool)
    ensures forall a :: a in Perform(CreatePlan(name, d, w, probe, scripts), ok).issued ==>
              !IsCommand(a, "start") && !IsCommand(a, "container")
  {
    var plan := CreatePlan(name, d, w, probe, scripts);
    if plan.Some? {
      var steps := plan.value;
      assert steps[0].argv[1] == "run";
      forall i | 0 <= i < |steps| ensures !IsCommand(steps[i].argv, "start") && !IsCommand(steps[i].argv, "container") {
      }
      IssuedArePlanned(steps, ok, a => !IsCommand(a, "start") && !IsCommand(a, "container"));
    }
  }

  /** The start path never creates a container. */
  lemma StartPathIssues(name: string, d: Descriptor, w: string, scripts: InitScripts, probe: string -> Probe, ok: Argv -> bool)
    ensures forall a :: a in Perform(StartPlan(name, d, w, probe, scripts), ok).issued ==> !IsCommand(a, "run")
  {
    var plan := StartPlan(name, d, w, probe, scripts);
    if plan.Some? {
      IssuedArePlanned(plan.value, ok, a => !IsCommand(a, "run"));
    }
  }

  /** The three paths are exclusive: only a stopped container is started or
      updated, only an absent one is created, and a running one only gets the
      shell. */
  lemma PathsDisjoint(state: State, name: string, d: Descriptor, w: string, scripts: InitScripts,
                      probe: string -> Probe, ok: Argv -> bool)
    ensures forall a :: a in Dispatch(state, name, d, w, scripts, probe, ok).issued ==>
              && ((IsCommand(a, "start") || IsCommand(a, "container")) ==> state == Stopped)
              && (IsCommand(a, "run") ==> state == Absent)
  {
    match state
    case Running => ShellIsExec(name, w);
    case Stopped => StartPathIssues(name, d, w, scripts, probe, ok);
    case Absent => CreatePathIssues(name, d, w, scripts, probe, ok);
  }

  lemma ShellIsExec(name: string, w: string)
    ensures IsCommand(ShellArgv(name, w), "exec")
    ensures !IsCommand(ShellArgv(name, w), "start") && !IsCommand(ShellArgv(name, w), "container")
    ensures !IsCommand(ShellArgv(name, w), "run")
  {
  }

  // ---------------------------------------------------------------------
  // The ~/.bashrc edit the initialisation scripts make
  // ---------------------------------------------------------------------

  const SourceLine: string := "source /home/me/.dev/config/shell_functions"

  /** `grep` reads its pattern as a basic regular expression: in this pattern
      only `.` is special and matches any character but a newline. */
  predicate GrepMatchAt(s: string, pattern: string, i: int) {
    0 <= i && i + |pattern| <= |s|
    && forall k :: 0 <= k < |pattern| ==>
         if pattern[k] == '.' then s[i + k] != '\n' else s[i + k] == pattern[k]
  }

  predicate GrepFinds(s: string, pattern: string) {
    exists i :: 0 <= i <= |s| && GrepMatchAt(s, pattern, i)
  }

  /** `if ! grep -q LINE ~/.bashrc; then echo LINE >> ~/.bashrc; fi`; a missing
      file fails the grep and is created by the append. */
  function InitBashrc(bashrc: Option<string>): (r: string)
    ensures bashrc.Some? && GrepFinds(bashrc.value, SourceLine) ==> r == bashrc.value
    ensures GrepFinds(r, SourceLine)
  {
    if bashrc.Some? && GrepFinds(bashrc.value, SourceLine) then bashrc.value
    else
      var old_ := if bashrc.Some? then bashrc.value else [];
      AppendedFound(old_);
      old_ + SourceLine + "\n"
  }

  lemma AppendedFound(s: string)
    ensures GrepFinds(s + SourceLine + "\n", SourceLine)
  {
    var t := s + SourceLine + "\n";
    assert forall k :: 0 <= k < |SourceLine| ==> t[|s| + k] == SourceLine[k];
    assert forall k :: 0 <= k < |SourceLine| ==> SourceLine[k] != '\n';
    assert GrepMatchAt(t, SourceLine, |s|);
  }

  /** Running the script again adds nothing: the line is appended at most once. */
  lemma InitBashrcIdempotent(bashrc: Option<string>)
    ensures InitBashrc(Some(InitBashrc(bashrc))) == InitBashrc(bashrc)
  {
  }

  /** Because `.` is a wildcard, a line that differs from the source line only
      where it has a `.` already counts as present. */
  lemma GrepDotIsWildcard()
    ensures InitBashrc(Some("source /home/me/Xdev/config/shell_functions")) ==
            "source /home/me/Xdev/config/shell_functions"
  {
    assert GrepMatchAt("source /home/me/Xdev/config/shell_functions", SourceLine, 0);
  }
}

=== FILE: dev_utils.dfy ===
/** The per-directory development container: its name and the `dev.env`
    descriptor that says what to mount, publish and export. */
module DevUtils {
  import opened Text
  import opened Runtime
  import opened Assoc

  const DefaultWorkdir: string := "/home/me"
  /** Where the fallback mount puts the dev directory inside the container. */
  const DevMountPoint: string := "/home/me/.dev"
  const MainName: string := "dev-main"
  const NamePrefix: string := "dev-"

  /** A hex digest as `hashlib.md5(...).hexdigest()` prints it. */
  predicate IsHexDigest(d: string) {
    |d| == 32 && forall k :: 0 <= k < |d| ==> IsDigit(d[k]) || 'a' <= d[k] <= 'f'
  }

  /** The container for `cwd`: `dev-main` for the dev directory itself, else
      `dev-` and the first eight characters of the MD5 digest of `cwd`. */
  function ContainerName(cwd: string, devDir: string, md5: string -> string): (name: string)
    ensures StartsWith(name, NamePrefix)
    ensures cwd == devDir ==> name == MainName
    ensures cwd != devDir ==> name[|NamePrefix|..] == Take(md5(cwd), 8)
  {
    if cwd != devDir then NamePrefix + Take(md5(cwd), 8) else MainName
  }

  /** With a real digest, the name is `dev-main` exactly for the dev
      directory, and twelve characters long for every other directory. */
  lemma ContainerNameShape(cwd: string, devDir: string, md5: string -> string)
    requires IsHexDigest(md5(cwd))
    ensures ContainerName(cwd, devDir, md5) == MainName <==> cwd == devDir
    ensures cwd != devDir ==> |ContainerName(cwd, devDir, md5)| == 12
  {
    if cwd != devDir {
      var name := ContainerName(cwd, devDir, md5);
      assert |name| == 12;
      assert name != MainName by {
        assert |MainName| == 8;
      }
    }
  }

  datatype Mount = Mount(hostPath: string, containerPath: string, options: string)

  /** The parsed `dev.env`: mounts and port mappings in file order, environment
      variables in first-assignment order, and the default working directory. */
  datatype Descriptor = Descriptor(mounts: seq<Mount>, ports: seq<string>,
                                   envVars: Dict, defaultWorkdir: string)

  const EmptyDescriptor: Descriptor := Descriptor([], [], [], DefaultWorkdir)

  /** What one line of the file contributes. */
  datatype Entry =
    | Ignored                 // blank, comment, or no `=`
    | MountEntry(mount: Mount)
    | DroppedMount            // a MOUNT without `:` or with a missing host path
    | PortEntry(mapping: string)
    | DroppedPort             // a PORT without `:`
    | WorkdirEntry(dir: string)
    | VarEntry(key: string, value: string)

  /** `key, value = [part.strip() for part in line.split('=', 1)]` on the
      stripped line, or `None` for a line the parser skips: blank, a comment,
      or no `=`. */
  function KeyValue(raw: string): (kv: Option<(string, string)>)
    ensures Blank(raw) ==> kv.None?
    ensures '=' !in raw ==> kv.None?
    ensures var l := Strip(raw); l != [] && l[0] == '#' ==> kv.None?
    ensures kv.Some? <==> var l := Strip(raw); l != [] && l[0] != '#' && '=' in l
  {
    var line := Strip(raw);
    if line == [] || line[0] == '#' || '=' !in line then None
    else
      assert forall c :: c in line ==> c in raw;
      var (k, v) := SplitFirst(line, '=');
      Some((Strip(k), Strip(v)))
  }

  /** The mount a `MOUNT` value describes, before the host path is checked:
      `None` when the value has no `:`. */
  function MountValue(value: string, expandUser: string -> string): (m: Option<Mount>)
    ensures ':' in value <==> m.Some?
  {
    if ':' in value then
      var parts := Split(value, ':');
      CountPositive(value, ':');
      SplitCount(value, ':');
      Some(Mount(expandUser(parts[0]), parts[1], if |parts| > 2 then parts[2] else []))
    else None
  }

  /** What a `key=value` pair contributes. */
  function ClassifyPair(key: string, value: string, pathExists: string -> bool,
                        expandUser: string -> string): (e: Entry)
    ensures e.MountEntry? ==> pathExists(e.mount.hostPath)
    ensures e.PortEntry? ==> ':' in e.mapping && e.mapping == value
    ensures e.VarEntry? <==> key != "MOUNT" && key != "PORT" && key != "DEFAULT_WORKDIR"
    ensures e.VarEntry? ==> e == VarEntry(key, value)
  {
    if key == "MOUNT" then
      var m := MountValue(value, expandUser);
      if m.Some? && pathExists(m.value.hostPath) then MountEntry(m.value) else DroppedMount
    else if key == "PORT" then
      if ':' in value then PortEntry(value) else DroppedPort
    else if key == "DEFAULT_WORKDIR" then WorkdirEntry(value)
    else VarEntry(key, value)
  }

  /** Classifies one raw line; `pathExists` and `expandUser` stand for
      `os.path.exists` and `os.path.expanduser`. */
  function Classify(raw: string, pathExists: string -> bool, expandUser: string -> string): (e: Entry)
    ensures e.MountEntry? ==> pathExists(e.mount.hostPath)
    ensures e.PortEntry? ==> ':' in e.mapping
    ensures Blank(raw) ==> e == Ignored
    ensures '=' !in raw ==> e == Ignored
    ensures var l := Strip(raw); l != [] && l[0] == '#' ==> e == Ignored
  {
    match KeyValue(raw)
    case None => Ignored
    case Some((k, v)) => ClassifyPair(k, v, pathExists, expandUser)
  }

  /** Every line of the file, classified. */
  function Entries(lines: seq<string>, pathExists: string -> bool,
                   expandUser: string -> string): (es: seq<Entry>)
    ensures |es| == |lines|
    ensures forall i :: 0 <= i < |lines| ==> es[i] == Classify(lines[i], pathExists, expandUser)
  {
    seq(|lines|, i requires 0 <= i < |lines| => Classify(lines[i], pathExists, expandUser))
  }

  function ApplyEntry(d: Descriptor, e: Entry): (r: Descriptor)
    ensures UniqueKeys(d.envVars) ==> UniqueKeys(r.envVars)
  {
    match e
    case MountEntry(m) => d.(mounts := d.mounts + [m])
    case PortEntry(p) => d.(ports := d.ports + [p])
    case WorkdirEntry(w) => d.(defaultWorkdir := w)
    case VarEntry(k, v) =>
      PutUnique(d.envVars, k, v);
      d.(envVars := Put(d.envVars, k, v))
    case _ => d
  }

  /** The accepted mounts, in file order. */
  function MountsOf(es: seq<Entry>): (ms: seq<Mount>)
    ensures |ms| <= |es|
  {
    if |es| == 0 then []
    else (if es[0].MountEntry? then [es[0].mount] else []) + MountsOf(es[1..])
  }

  /** The accepted port mappings, verbatim and in file order. */
  function PortsOf(es: seq<Entry>): (ps: seq<string>)
    ensures |ps| <= |es|
  {
    if |es| == 0 then []
    else (if es[0].PortEntry? then [es[0].mapping] else []) + PortsOf(es[1..])
  }

  /** Applies the entries one after another, as the loop over the file does. */
  function ParseEntries(es: seq<Entry>, d: Descriptor): (r: Descriptor)
    ensures r.mounts == d.mounts + MountsOf(es)
    ensures r.ports == d.ports + PortsOf(es)
  {
    if |es| == 0 then d
    else
      var r := ParseEntries(es[1..], ApplyEntry(d, es[0]));
      ApplyEntryLists(d, es[0]);
      AppendAssoc(d.mounts, if es[0].MountEntry? then [es[0].mount] else [], MountsOf(es[1..]));
      AppendAssoc(d.ports, if es[0].PortEntry? then [es[0].mapping] else [], PortsOf(es[1..]));
      r
  }

  /** One entry adds at most its own mount and its own port mapping. */
  lemma ApplyEntryLists(d: Descriptor, e: Entry)
    ensures ApplyEntry(d, e).mounts == d.mounts + (if e.MountEntry? then [e.mount] else [])
    ensures ApplyEntry(d, e).ports == d.ports + (if e.PortEntry? then [e.mapping] else [])
  {
    match e
    case MountEntry(m) =>
    case PortEntry(p) =>
    case _ =>
      assert d.mounts + [] == d.mounts && d.ports + [] == d.ports;
  }

  lemma AppendAssoc<T>(a: seq<T>, x: seq<T>, b: seq<T>)
    ensures a + (x + b) == (a + x) + b
  {
  }

  /** Assigning variables one by one never duplicates a key. */
  lemma {:induction false} ParseEntriesUnique(es: seq<Entry>, d: Descriptor)
    requires UniqueKeys(d.envVars)
    ensures UniqueKeys(ParseEntries(es, d).envVars)
  {
    if |es| > 0 {
      ParseEntriesUnique(es[1..], ApplyEntry(d, es[0]));
    }
  }

  /** The lines `for line in f` yields, without their terminators. */
  function FileLines(content: string): seq<string> {
    Split(content, '\n')
  }

  /** `parse_dev_env_file`: `file` is the file's content, `None` when it does
      not exist; `devDir` is the host dev directory. */
  function ParseDevEnv(file: Option<string>, devDir: string, pathExists: string -> bool,
                       expandUser: string -> string): (d: Descriptor)
    ensures file.None? ==> d == EmptyDescriptor
    ensures file.Some? ==>
              var es := Entries(FileLines(file.value), pathExists, expandUser);
              && d.ports == PortsOf(es)
              && d.envVars == ParseEntries(es, EmptyDescriptor).envVars
              && d.defaultWorkdir == ParseEntries(es, EmptyDescriptor).defaultWorkdir
              && (|MountsOf(es)| > 0 ==> d.mounts == MountsOf(es))
              && (|MountsOf(es)| == 0 ==>
                    d.mounts == if pathExists(devDir) then [Mount(devDir, DevMountPoint, [])] else [])
    ensures forall i :: 0 <= i < |d.mounts| ==> pathExists(d.mounts[i].hostPath)
    ensures UniqueKeys(d.envVars)
  {
    if file.None? then EmptyDescriptor
    else
      var es := Entries(FileLines(file.value), pathExists, expandUser);
      var parsed := ParseEntries(es, EmptyDescriptor);
      MountsAccepted(es, pathExists);
      ParseEntriesUnique(es, EmptyDescriptor);
      if |parsed.mounts| == 0 && pathExists(devDir) then
        parsed.(mounts := [Mount(devDir, DevMountPoint, [])])
      else parsed
  }

  lemma {:induction false} MountsAccepted(es: seq<Entry>, pathExists: string -> bool)
    requires forall i :: 0 <= i < |es| ==> es[i].MountEntry? ==> pathExists(es[i].mount.hostPath)
    ensures forall i :: 0 <= i < |MountsOf(es)| ==> pathExists(MountsOf(es)[i].hostPath)
  {
    if |es| > 0 {
      MountsAccepted(es[1..], pathExists);
    }
  }

  /** DEFAULT_WORKDIR: the last such line wins. */
  lemma {:induction false} WorkdirLastWins(es: seq<Entry>, d: Descriptor, i: nat)
    requires i < |es| && es[i].WorkdirEntry?
    requires forall j :: i < j < |es| ==> !es[j].WorkdirEntry?
    ensures ParseEntries(es, d).defaultWorkdir == es[i].dir
  {
    if i == 0 {
      WorkdirKept(es[1..], ApplyEntry(d, es[0]));
    } else {
      WorkdirLastWins(es[1..], ApplyEntry(d, es[0]), i - 1);
    }
  }

  /** Without a DEFAULT_WORKDIR line the working directory is left as it was. */
  lemma {:induction false} WorkdirKept(es: seq<Entry>, d: Descriptor)
    requires forall j :: 0 <= j < |es| ==> !es[j].WorkdirEntry?
    ensures ParseEntries(es, d).defaultWorkdir == d.defaultWorkdir
  {
    if |es| > 0 {
      assert !es[0].WorkdirEntry?;
      WorkdirKept(es[1..], ApplyEntry(d, es[0]));
    }
  }

  /** Environment variables: the last assignment of a key wins. */
  lemma {:induction false} VarLastWins(es: seq<Entry>, d: Descriptor, i: nat)
    requires i < |es| && es[i].VarEntry?
    requires forall j :: i < j < |es| ==> !(es[j].VarEntry? && es[j].key == es[i].key)
    ensures Lookup(ParseEntries(es, d).envVars, es[i].key) == Some(es[i].value)
  {
    var e := es[0];
    if i == 0 {
      PutLookup(d.envVars, e.key, e.value, e.key);
      VarKept(es[1..], ApplyEntry(d, e), e.key);
    } else {
      VarLastWins(es[1..], ApplyEntry(d, e), i - 1);
    }
  }

  /** A key no line assigns keeps the value it had. */
  lemma {:induction false} VarKept(es: seq<Entry>, d: Descriptor, key: string)
    requires forall j :: 0 <= j < |es| ==> !(es[j].VarEntry? && es[j].key == key)
    ensures Lookup(ParseEntries(es, d).envVars, key) == Lookup(d.envVars, key)
  {
    if |es| > 0 {
      var e := es[0];
      if e.VarEntry? {
        PutLookup(d.envVars, e.key, e.value, key);
      }
      VarKept(es[1..], ApplyEntry(d, e), key);
    }
  }

  lemma KeyValueStripped(line: string)
    requires line != [] && line[0] != '#' && '=' in line && Strip(line) == line
    ensures KeyValue(line) == Some((Strip(SplitFirst(line, '=').0), Strip(SplitFirst(line, '=').1)))
  {
  }

  /** A `key=value` line whose key has no `=` and whose parts carry no outer
      whitespace reads back as that pair. */
  lemma KeyValueLine(k: string, v: string)
    requires |k| > 0 && k[0] != '#' && '=' !in k && Trimmed(k) && Trimmed(v)
    ensures KeyValue(k + "=" + v) == Some((k, v))
  {
    var line := k + "=" + v;
    AssignmentTrimmed(k, v);
    SplitFirstUnique(line, '=', k, v);
    KeyValueStripped(line);
    TrimmedStrip(k);
    TrimmedStrip(v);
  }

  lemma AssignmentTrimmed(k: string, v: string)
    requires |k| > 0 && k[0] != '#' && Trimmed(k) && Trimmed(v)
    ensures var line := k + "=" + v; line != [] && line[0] != '#' && Strip(line) == line
  {
    var line := k + "=" + v;
    assert line[0] == k[0];
    assert Trimmed(line);
    TrimmedStrip(line);
  }

  /** `a:b:c…` names host `expanduser(a)`, container path `b` and options `c`;
      fields after the third are ignored. */
  lemma MountFields(a: string, b: string, c: string, rest: string, expandUser: string -> string)
    requires ':' !in a && ':' !in b && ':' !in c
    requires rest == [] || rest[0] == ':'
    ensures MountValue(a + ":" + b + ":" + c + rest, expandUser) == Some(Mount(expandUser(a), b, c))
  {
    var v := a + ":" + b + ":" + c + rest;
    var w := b + [':'] + (c + rest);
    assert v == a + [':'] + w;
    assert v[|a|] == ':';
    SplitThree(a, b, c, rest, w);
  }

  lemma SplitThree(a: string, b: string, c: string, rest: string, w: string)
    requires ':' !in a && ':' !in b && ':' !in c
    requires rest == [] || rest[0] == ':'
    requires w == b + [':'] + (c + rest)
    ensures |Split(a + [':'] + w, ':')| >= 3
    ensures Split(a + [':'] + w, ':')[..3] == [a, b, c]
  {
    SplitConcat(a, ':', w);
    SplitConcat(b, ':', c + rest);
    if rest == [] {
      assert c + rest == c;
      SplitNoSep(c, ':');
    } else {
      assert c + rest == c + [':'] + rest[1..];
      SplitConcat(c, ':', rest[1..]);
    }
  }

  /** `MOUNT=a:b:c…` mounts `expanduser(a)` at `b` with options `c` when that
      host path exists, and is dropped otherwise. */
  lemma MountLine(a: string, b: string, c: string, rest: string,
                  pathExists: string -> bool, expandUser: string -> string)
    requires ':' !in a && ':' !in b && ':' !in c
    requires rest == [] || rest[0] == ':'
    requires Trimmed(a + ":" + b + ":" + c + rest)
    ensures var e := Classify("MOUNT=" + (a + ":" + b + ":" + c + rest), pathExists, expandUser);
            e == if pathExists(expandUser(a)) then MountEntry(Mount(expandUser(a), b, c)) else DroppedMount
  {
    MountPair(a + ":" + b + ":" + c + rest, pathExists, expandUser);
    MountFields(a, b, c, rest, expandUser);
  }

  /** A trimmed `MOUNT=` line is classified by its value. */
  lemma MountPair(v: string, pathExists: string -> bool, expandUser: string -> string)
    requires Trimmed(v)
    ensures Classify("MOUNT=" + v, pathExists, expandUser) == ClassifyPair("MOUNT", v, pathExists, expandUser)
  {
    assert "MOUNT=" + v == "MOUNT" + "=" + v;
    KeyValueLine("MOUNT", v);
    ClassifyByPair("MOUNT" + "=" + v, "MOUNT", v, pathExists, expandUser);
  }

  lemma ClassifyByPair(raw: string, k: string, v: string,
                       pathExists: string -> bool, expandUser: string -> string)
    requires KeyValue(raw) == Some((k, v))
    ensures Classify(raw, pathExists, expandUser) == ClassifyPair(k, v, pathExists, expandUser)
  {
  }

  /** `KEY=VALUE` for any other key sets an environment variable. */
  lemma VarLine(k: string, v: string, pathExists: string -> bool, expandUser: string -> string)
    requires |k| > 0 && k[0] != '#' && '=' !in k && Trimmed(k) && Trimmed(v)
    requires k != "MOUNT" && k != "PORT" && k != "DEFAULT_WORKDIR"
    ensures Classify(k + "=" + v, pathExists, expandUser) == VarEntry(k, v)
  {
    KeyValueLine(k, v);
  }

  /** A file without any MOUNT line that names an existing path still gets the
      dev directory mounted, provided that exists. */
  lemma FallbackMount(content: string, devDir: string, pathExists: string -> bool,
                      expandUser: string -> string)
    requires |MountsOf(Entries(FileLines(content), pathExists, expandUser))| == 0 && pathExists(devDir)
    ensures ParseDevEnv(Some(content), devDir, pathExists, expandUser).mounts
            == [Mount(devDir, DevMountPoint, [])]
  {
  }
}

=== FILE: dkr_config.dfy ===
/** `dkrcmd/config.py`: the naming constants of the general-purpose container
    manager and the image tag it derives from the working directory. */
module DkrConfig {
  import opened Text
  import DevUtils

  const ImagePrefix: string := "app"
  /** Containers whose names carry this prefix belong to `dev`. */
  const DevContainerPrefix: string := "dev-"
  const DefaultPorts: seq<string> := ["8080:80"]
  const DefaultDockerFlags: seq<string> := ["--rm"]

  /** `get_default_tag`: the prefix, a dash, and the lower-cased last
      component of the working directory. */
  function DefaultTag(cwd: string): (tag: string)
    ensures StartsWith(tag, ImagePrefix + "-")
    ensures tag[|ImagePrefix| + 1..] == Lower(Basename(cwd))
    ensures '/' !in tag
  {
    var b := Lower(Basename(cwd));
    assert forall k :: 0 <= k < |b| ==> b[k] != '/';
    ImagePrefix + "-" + b
  }

  /** The tag depends on the last path component only. */
  lemma TagOfLastComponent(d1: string, d2: string, name: string)
    requires '/' !in name
    ensures DefaultTag(d1 + "/" + name) == DefaultTag(d2 + "/" + name)
    ensures DefaultTag(d1 + "/" + name) == "app-" + Lower(name)
  {
    BasenameOfJoin(d1, name);
    BasenameOfJoin(d2, name);
  }

  /** The prefix that marks `dev` containers is the one `dev` gives every
      container it names, so a `dev` container never escapes the filter. */
  lemma DevPrefixShared(cwd: string, devDir: string, md5: string -> string)
    ensures DevContainerPrefix == DevUtils.NamePrefix
    ensures StartsWith(DevUtils.ContainerName(cwd, devDir, md5), DevContainerPrefix)
  {
  }
}

=== FILE: dkr_rm.dfy ===
/** `dkr rm`: removes one container, all of them, or one picked from a menu.
    Running containers are stopped first. */
module DkrRm {
  import opened Text
  import opened Runtime
  import opened Menu
  import opened DkrUtils

  function StopArgv(target: string): Argv {
    ["docker", "stop", target]
  }

  function RmArgv(target: string): Argv {
    ["docker", "rm", target]
  }

  /** A listed container is treated as running when its status mentions "Up ". */
  predicate IsUp(c: Container) {
    Contains(c.status, "Up ")
  }

  /** The commands for one container: stop if it is up, then remove. */
  function RemoveOne(c: Container): (issued: seq<Argv>)
    ensures 1 <= |issued| <= 2
    ensures issued[|issued| - 1] == RmArgv(c.id)
    ensures IsUp(c) <==> |issued| == 2
    ensures |issued| == 2 ==> issued[0] == StopArgv(c.id)
  {
    (if IsUp(c) then [StopArgv(c.id)] else []) + [RmArgv(c.id)]
  }

  function RemoveAllSteps(cs: seq<Container>): seq<Argv> {
    if |cs| == 0 then [] else RemoveOne(cs[0]) + RemoveAllSteps(cs[1..])
  }

  /** Every container gets an `rm`, and only containers that are up get a
      `stop`. */
  lemma {:induction false} RemoveAllCovers(cs: seq<Container>, x: string)
    ensures RmArgv(x) in RemoveAllSteps(cs) <==> exists i :: 0 <= i < |cs| && cs[i].id == x
    ensures StopArgv(x) in RemoveAllSteps(cs) <==> exists i :: 0 <= i < |cs| && cs[i].id == x && IsUp(cs[i])
  {
    if |cs| > 0 {
      RemoveAllCovers(cs[1..], x);
      var head := RemoveOne(cs[0]);
      assert RemoveAllSteps(cs) == head + RemoveAllSteps(cs[1..]);
      assert forall i :: 1 <= i < |cs| ==> cs[i] == cs[1..][i - 1];
      assert forall a :: a in head ==> a == StopArgv(cs[0].id) || a == RmArgv(cs[0].id);
      assert RmArgv(cs[0].id) in head;
      assert IsUp(cs[0]) ==> StopArgv(cs[0].id) in head;
      if exists i :: 0 <= i < |cs| && cs[i].id == x {
        var i :| 0 <= i < |cs| && cs[i].id == x;
        if i > 0 {
          assert cs[1..][i - 1].id == x;
        }
      }
      if exists i :: 0 <= i < |cs| && cs[i].id == x && IsUp(cs[i]) {
        var i :| 0 <= i < |cs| && cs[i].id == x && IsUp(cs[i]);
        if i > 0 {
          assert cs[1..][i - 1].id == x && IsUp(cs[1..][i - 1]);
        }
      }
    }
  }

  /** `remove_all_containers`, given the listing it reads.  Every `rm` is
      counted as removed, so the count is the number of containers and the
      result is true whenever the listing is not empty. */
  function RemoveAll(cs: seq<Container>): (r: Outcome)
    ensures r.result
    ensures r.issued == RemoveAllSteps(cs)
    ensures forall x :: RmArgv(x) in r.issued <==> exists i :: 0 <= i < |cs| && cs[i].id == x
    ensures forall x :: StopArgv(x) in r.issued <==> exists i :: 0 <= i < |cs| && cs[i].id == x && IsUp(cs[i])
  {
    RemoveAllCoversEvery(cs);
    if cs == [] then Outcome([], true)
    else Outcome(RemoveAllSteps(cs), true)
  }

  lemma RemoveAllCoversEvery(cs: seq<Container>)
    ensures forall x :: RmArgv(x) in RemoveAllSteps(cs) <==> exists i :: 0 <= i < |cs| && cs[i].id == x
    ensures forall x :: StopArgv(x) in RemoveAllSteps(cs) <==> exists i :: 0 <= i < |cs| && cs[i].id == x && IsUp(cs[i])
  {
    forall x
      ensures RmArgv(x) in RemoveAllSteps(cs) <==> exists i :: 0 <= i < |cs| && cs[i].id == x
      ensures StopArgv(x) in RemoveAllSteps(cs) <==> exists i :: 0 <= i < |cs| && cs[i].id == x && IsUp(cs[i])
    {
      RemoveAllCovers(cs, x);
    }
  }

  /** `remove_specific_container`. */
  function RemoveSpecific(name: string, exists_: bool, running: bool): (r: Outcome)
    ensures r.result <==> exists_
    ensures !exists_ ==> r.issued == []
    ensures exists_ ==> |r.issued| > 0 && r.issued[|r.issued| - 1] == RmArgv(name)
    ensures exists_ && running ==> r.issued == [StopArgv(name), RmArgv(name)]
    ensures exists_ && !running ==> r.issued == [RmArgv(name)]
  {
    if !exists_ then Outcome([], false)
    else
      var stop := if running then [StopArgv(name)] else [];
      Outcome(stop + [RmArgv(name)], true)
  }

  /** `interactive_remove`: `answer` is the line typed at the prompt and
      `again` what `remove_all_containers` reads when it lists the
      containers a second time. */
  function InteractiveRemove(cs: seq<Container>, again: seq<Container>, answer: string): (r: Outcome)
    ensures r.result <==> ParseChoice(answer, |cs|) != Invalid
    ensures ParseChoice(answer, |cs|) == Quit ==> r.issued == []
    ensures ParseChoice(answer, |cs|) == Invalid ==> r.issued == []
    ensures ParseChoice(answer, |cs|) == All ==> r == RemoveAll(again)
    ensures ParseChoice(answer, |cs|).Pick? ==>
              r.issued == RemoveOne(cs[ParseChoice(answer, |cs|).index])
  {
    match ParseChoice(answer, |cs|)
    case Quit => Outcome([], true)
    case All => RemoveAll(again)
    case Pick(k) => Outcome(RemoveOne(cs[k]), true)
    case Invalid => Outcome([], false)
  }

  /** `rm_command`: `--all` wins over `--name` (empty when not given);
      `listing` is what the first `get_all_containers` read, `again` what a
      second one reads, and `exists_`/`running` the queries about the named
      container. */
  function RmCommand(all: bool, name: string, listing: seq<Container>, again: seq<Container>, answer: string,
                     exists_: bool, running: bool): (r: Outcome)
    ensures all ==> r == RemoveAll(listing)
    ensures !all && name != "" ==> r == RemoveSpecific(name, exists_, running)
    ensures !all && name == "" && listing == [] ==> r == Outcome([], true)
    ensures !all && name == "" && listing != [] ==> r == InteractiveRemove(listing, again, answer)
  {
    if all then RemoveAll(listing)
    else if name != "" then RemoveSpecific(name, exists_, running)
    else if listing == [] then Outcome([], true)
    else InteractiveRemove(listing, again, answer)
  }

  /** Nothing is removed without a container that exists, an `a`, or a
      picked number. */
  lemma NoChoiceNoMutation(listing: seq<Container>, again: seq<Container>, answer: string)
    requires ParseChoice(answer, |listing|) == Quit || ParseChoice(answer, |listing|) == Invalid
    ensures RmCommand(false, "", listing, again, answer, false, false).issued == []
  {
  }
}

=== FILE: dkr_status.dfy ===
/** `dkr status`: running containers, the stopped ones, and the images, all
    without the `dev` ones. */
module DkrStatus {
  import opened Text
  import opened Runtime
  import opened DkrUtils

  /** The ids of a list of containers (`running_ids`). */
  function Ids(cs: seq<Container>): (ids: set<string>)
    ensures forall c :: c in cs ==> c.id in ids
    ensures forall id :: id in ids ==> exists c :: c in cs && c.id == id
  {
    set c | c in cs :: c.id
  }

  /** The containers of `all` whose id is not in `runningIds`, in order. */
  function Stopped(all: seq<Container>, runningIds: set<string>): (r: seq<Container>)
    ensures |r| <= |all|
    ensures forall c :: c in r <==> c in all && c.id !in runningIds
  {
    if |all| == 0 then []
    else if all[0].id in runningIds then Stopped(all[1..], runningIds)
    else [all[0]] + Stopped(all[1..], runningIds)
  }

  /** The order of the full list is kept: the stopped containers of two
      blocks are those of the first followed by those of the second. */
  lemma {:induction false} StoppedAppend(a: seq<Container>, b: seq<Container>, ids: set<string>)
    ensures Stopped(a + b, ids) == Stopped(a, ids) + Stopped(b, ids)
  {
    if |a| > 0 {
      assert (a + b)[0] == a[0];
      assert (a + b)[1..] == a[1..] + b;
      StoppedAppend(a[1..], b, ids);
      if a[0].id in ids {
        assert Stopped(a + b, ids) == Stopped(a[1..] + b, ids);
      } else {
        assert Stopped(a + b, ids) == [a[0]] + Stopped(a[1..] + b, ids);
      }
    } else {
      assert a + b == b;
    }
  }

  /** A table row: id, name, status and image cut to 12, 25, 20 and 25
      characters. */
  datatype Row = Row(id: string, name: string, status: string, image: string)

  function TableRow(c: Container): (r: Row)
    ensures |r.id| <= 12 && |r.name| <= 25 && |r.status| <= 20 && |r.image| <= 25
    ensures StartsWith(c.id, r.id) && StartsWith(c.name, r.name)
    ensures StartsWith(c.status, r.status) && StartsWith(c.image, r.image)
    ensures |c.name| <= 25 ==> r.name == c.name
  {
    Row(Take(c.id, 12), Take(c.name, 25), Take(c.status, 20), Take(c.image, 25))
  }

  /** What `status_command` shows, and what it returns. */
  datatype Report = Report(running: seq<Container>, stopped: seq<Container>, images: seq<Image>, result: bool)

  /** `status_command`, given what the three queries printed. */
  function Status(runningOut: string, allOut: string, imagesOut: string): (r: Report)
    ensures r.result
    ensures r.running == Containers(runningOut)
    ensures forall c :: c in r.stopped <==> c in Containers(allOut) && c.id !in Ids(Containers(runningOut))
    ensures forall c, d :: c in r.stopped && d in r.running ==> c.id != d.id
    ensures forall x :: x in r.images ==> !IsDevImage(x)
  {
    var running := Containers(runningOut);
    var all := Containers(allOut);
    Report(running, Stopped(all, Ids(running)), GetImages(imagesOut, true), true)
  }
}

=== FILE: dkr_stop.dfy ===
/** `dkr stop`: stops one named container or some of the running ones
    picked from a menu. */
module DkrStop {
  import opened Runtime
  import opened Menu
  import opened DkrUtils

  function StopArgv(target: string): Argv {
    ["docker", "stop", target]
  }

  /** `stop_specific_container`: `running` is what `container_running` found. */
  function StopSpecific(name: string, running: bool): (r: Outcome)
    ensures r.result <==> running
    ensures !running ==> r.issued == []
    ensures running ==> r.issued == [StopArgv(name)]
  {
    if !running then Outcome([], false)
    else Outcome([StopArgv(name)], true)
  }

  /** The stop commands for every listed container, in order. */
  function StopEach(cs: seq<Container>): (issued: seq<Argv>)
    ensures |issued| == |cs|
    ensures forall i :: 0 <= i < |cs| ==> issued[i] == StopArgv(cs[i].id)
  {
    seq(|cs|, i requires 0 <= i < |cs| => StopArgv(cs[i].id))
  }

  /** `interactive_stop`: `answer` is the line typed at the prompt.  Every
      stop is counted, so `a` stops all of the (non-empty) list and succeeds. */
  function InteractiveStop(cs: seq<Container>, answer: string): (r: Outcome)
    ensures r.result <==> ParseChoice(answer, |cs|) != Invalid && (ParseChoice(answer, |cs|) == All ==> cs != [])
    ensures ParseChoice(answer, |cs|) == Quit ==> r.issued == []
    ensures ParseChoice(answer, |cs|) == Invalid ==> r.issued == []
    ensures ParseChoice(answer, |cs|) == All ==> r.issued == StopEach(cs)
    ensures ParseChoice(answer, |cs|).Pick? ==>
              r == StopSpecific(cs[ParseChoice(answer, |cs|).index].id, true)
  {
    match ParseChoice(answer, |cs|)
    case Quit => Outcome([], true)
    case All => Outcome(StopEach(cs), |cs| > 0)
    case Pick(k) => Outcome([StopArgv(cs[k].id)], true)
    case Invalid => Outcome([], false)
  }

  /** `stop_command`: `name` is empty when none was given, `running` what
      `get_running_containers(exclude_dev=True)` read, and `namedRunning`
      whether the named container is up. */
  function StopCommand(name: string, running: seq<Container>, answer: string,
                       namedRunning: bool): (r: Outcome)
    ensures name != "" ==> r == StopSpecific(name, namedRunning)
    ensures name == "" && running == [] ==> r == Outcome([], true)
    ensures name == "" && running != [] ==> r == InteractiveStop(running, answer)
  {
    if name != "" then StopSpecific(name, namedRunning)
    else if running == [] then Outcome([], true)
    else InteractiveStop(running, answer)
  }

  /** Whatever is chosen, every command issued stops a listed container or the
      named one. */
  lemma {:induction false} StopsOnlyListed(name: string, running: seq<Container>, answer: string,
                                          namedRunning: bool, k: nat)
    requires k < |StopCommand(name, running, answer, namedRunning).issued|
    ensures var a := StopCommand(name, running, answer, namedRunning).issued[k];
            (name != "" && a == StopArgv(name)) ||
            (name == "" && exists i :: 0 <= i < |running| && a == StopArgv(running[i].id))
  {
    var r := StopCommand(name, running, answer, namedRunning);
    if name == "" {
      var c := ParseChoice(answer, |running|);
      if c == All {
        assert r.issued[k] == StopArgv(running[k].id);
      } else {
        assert c.Pick? && r.issued[k] == StopArgv(running[c.index].id);
      }
    }
  }
}

=== FILE: dkr_utils.dfy ===
/** `dkrcmd/utils.py`: the command runner, the container and image listings,
    and the one-line formatters of the general-purpose container manager.
    Every command here runs with `check=False`: `subprocess.run` then raises
    nothing for a failing exit status, so `run_command` hands back the
    stripped standard output whatever the status and never `None`. */
module DkrUtils {
  import opened Text
  import opened Runtime
  import opened Listing
  import DkrConfig

  /** `run_command(cmd, check=False)`, given what the process printed on its
      standard output: that output stripped, whatever the exit status (an
      empty output gives the empty string, as the `else ""` branch does). */
  function RunCommand(stdout: string): (r: string)
    ensures r == Strip(stdout)
    ensures r == [] <==> AllSpace(stdout)
    ensures Trimmed(r) && Strip(r) == r
  {
    StripNoOuterSpace(stdout);
    StripIdempotent(stdout);
    BlankIffAllSpace(stdout);
    Strip(stdout)
  }

  /** `container_exists`, `container_running`, `image_exists`: `bool(result)`,
      true exactly when the query printed something other than whitespace. */
  function Query(stdout: string): (b: bool)
    ensures b <==> !AllSpace(stdout)
  {
    RunCommand(stdout) != []
  }

  // ---------------------------------------------------------------------
  // The listing command lines
  // ---------------------------------------------------------------------

  const ExcludeDevFilter: string := "--filter=name=^(?!" + DkrConfig.DevContainerPrefix + ")"

  /** `[arg for arg in cmd if arg]`. */
  function DropEmpty(args: seq<string>): (r: seq<string>)
    ensures |r| <= |args|
    ensures forall a :: a in r <==> a in args && a != []
  {
    if |args| == 0 then []
    else if args[0] == [] then DropEmpty(args[1..])
    else [args[0]] + DropEmpty(args[1..])
  }

  /** Arguments that are not empty are all kept, in order. */
  lemma {:induction false} DropEmptyKeeps(args: seq<string>)
    requires forall i :: 0 <= i < |args| ==> args[i] != []
    ensures DropEmpty(args) == args
  {
    if |args| > 0 {
      DropEmptyKeeps(args[1..]);
    }
  }

  /** The `docker ps` command of `get_running_containers` (`all` false) and
      `get_all_containers` (`all` true). */
  function ContainersArgv(all: bool, excludeDev: bool): (a: Argv)
    ensures forall i :: 0 <= i < |a| ==> a[i] != []
    ensures ExcludeDevFilter in a <==> excludeDev
    ensures |a| >= 4 && a[..2] == ["docker", "ps"]
    ensures a[|a| - 2..] == ["--format", PsFormat]
  {
    var head := ["docker", "ps"] + (if all then ["-a"] else []);
    var tail := ["--format", PsFormat];
    var filter := if excludeDev then ExcludeDevFilter else "";
    assert |ExcludeDevFilter| == 23;
    if excludeDev then
      DropEmptyKeepsFilter(head, filter, tail);
      DropEmpty(head + [filter] + tail)
    else
      DropEmptyAround(head, tail);
      DropEmpty(head + [filter] + tail)
  }

  const PsFormat: string := "{{.ID}}|{{.Names}}|{{.Status}}|{{.Image}}"

  /** A non-empty filter between non-empty arguments is kept with them. */
  lemma DropEmptyKeepsFilter(head: seq<string>, filter: string, tail: seq<string>)
    requires forall i :: 0 <= i < |head| ==> head[i] != []
    requires forall i :: 0 <= i < |tail| ==> tail[i] != []
    requires filter != []
    ensures DropEmpty(head + [filter] + tail) == head + [filter] + tail
  {
    JoinedNonEmpty(head, filter, tail);
    DropEmptyKeeps(head + [filter] + tail);
  }

  lemma JoinedNonEmpty(head: seq<string>, filter: string, tail: seq<string>)
    requires forall i :: 0 <= i < |head| ==> head[i] != []
    requires forall i :: 0 <= i < |tail| ==> tail[i] != []
    requires filter != []
    ensures forall i :: 0 <= i < |head + [filter] + tail| ==> (head + [filter] + tail)[i] != []
  {
  }

  /** Dropping the one empty argument leaves the rest as it was. */
  lemma DropEmptyAround(before: seq<string>, after: seq<string>)
    requires forall i :: 0 <= i < |before| ==> before[i] != []
    requires forall i :: 0 <= i < |after| ==> after[i] != []
    ensures DropEmpty(before + [""] + after) == before + after
  {
    var x := [""] + after;
    assert before + [""] + after == before + x;
    DropEmptyAppend(before, x);
    DropEmptyKeeps(before);
    assert x[0] == [] && x[1..] == after;
    assert DropEmpty(x) == DropEmpty(after);
    DropEmptyKeeps(after);
  }

  lemma {:induction false} DropEmptyAppend(a: seq<string>, b: seq<string>)
    ensures DropEmpty(a + b) == DropEmpty(a) + DropEmpty(b)
  {
    if |a| > 0 {
      assert (a + b)[1..] == a[1..] + b;
      DropEmptyAppend(a[1..], b);
    } else {
      assert a + b == b;
    }
  }

  // ---------------------------------------------------------------------
  // Containers
  // ---------------------------------------------------------------------

  datatype Container = Container(id: string, name: string, status: string, image: string)

  function ToContainers(rows: seq<seq<string>>): (r: seq<Container>)
    requires forall i :: 0 <= i < |rows| ==> |rows[i]| >= 4
    ensures |r| == |rows|
    ensures forall i :: 0 <= i < |rows| ==> r[i] == Container(rows[i][0], rows[i][1], rows[i][2], rows[i][3])
  {
    seq(|rows|, i requires 0 <= i < |rows| => Container(rows[i][0], rows[i][1], rows[i][2], rows[i][3]))
  }

  /** The containers the lines describe: one per line with at least four
      fields, in order. */
  function ContainersOf(ls: seq<string>): seq<Container> {
    ToContainers(Rows(ls, 4))
  }

  /** `get_running_containers` / `get_all_containers`, given what the query
      printed: one record per non-blank line with at least four fields. */
  function Containers(stdout: string): (r: seq<Container>)
    ensures AllSpace(stdout) ==> r == []
    ensures |r| <= |Lines(RunCommand(stdout))|
  {
    var out := RunCommand(stdout);
    if out == [] then [] else ContainersOf(Lines(out))
  }

  /** Every line yields a container when every line is well formed; empty
      output yields none. */
  lemma ContainersComplete(stdout: string)
    requires forall i :: 0 <= i < |Lines(RunCommand(stdout))| ==> |Fields(Lines(RunCommand(stdout))[i])| >= 4
    ensures |Containers(stdout)| == |Lines(RunCommand(stdout))|
  {
    var out := RunCommand(stdout);
    var ls := Lines(out);
    if out == [] {
      BlankOutputLists([]);
    } else {
      assert Containers(stdout) == ContainersOf(ls);
      ContainersOfAll(ls);
    }
  }

  lemma ContainersOfAll(ls: seq<string>)
    requires forall i :: 0 <= i < |ls| ==> |Fields(ls[i])| >= 4
    ensures |ContainersOf(ls)| == |ls|
  {
    RowsAllIff(ls, 4);
  }

  /** The containers are read from the listed lines: container `i` holds the
      first four fields of line `idx[i]`, the lines are taken in order, and
      every line with at least four fields gives one. */
  lemma ContainersFromLines(stdout: string) returns (idx: seq<nat>)
    ensures var ls := Lines(RunCommand(stdout));
            ReadFrom(idx, Rows(ls, 4), ls, 4) && Containers(stdout) == ContainersOf(ls)
  {
    var out := RunCommand(stdout);
    if out == [] {
      BlankOutputLists([]);
    }
    idx := RowsIndexed(Lines(out), 4);
  }

  // ---------------------------------------------------------------------
  // Images
  // ---------------------------------------------------------------------

  datatype Image = Image(id: string, repository: string, tag: string, size: string)

  function ToImages(rows: seq<seq<string>>): (r: seq<Image>)
    requires forall i :: 0 <= i < |rows| ==> |rows[i]| >= 4
    ensures |r| == |rows|
    ensures forall i :: 0 <= i < |rows| ==> r[i] == Image(rows[i][0], rows[i][1], rows[i][2], rows[i][3])
  {
    seq(|rows|, i requires 0 <= i < |rows| => Image(rows[i][0], rows[i][1], rows[i][2], rows[i][3]))
  }

  /** The images the lines describe: one per line with at least four
      fields, in order. */
  function ImagesOf(ls: seq<string>): seq<Image> {
    ToImages(Rows(ls, 4))
  }

  predicate IsDevImage(img: Image) {
    Contains(img.repository, DkrConfig.DevContainerPrefix)
  }

  /** The images whose repository does not mention the dev prefix anywhere,
      in order. */
  function NonDev(images: seq<Image>): (r: seq<Image>)
    ensures |r| <= |images|
    ensures forall x :: x in r <==> x in images && !IsDevImage(x)
  {
    if |images| == 0 then []
    else if IsDevImage(images[0]) then NonDev(images[1..])
    else [images[0]] + NonDev(images[1..])
  }

  lemma {:induction false} NonDevAppend(a: seq<Image>, b: seq<Image>)
    ensures NonDev(a + b) == NonDev(a) + NonDev(b)
  {
    if |a| > 0 {
      assert (a + b)[1..] == a[1..] + b;
      NonDevAppend(a[1..], b);
    } else {
      assert a + b == b;
    }
  }

  /** `get_images`. */
  function GetImages(stdout: string, excludeDev: bool): (r: seq<Image>)
    ensures excludeDev ==> r == NonDev(GetImages(stdout, false))
    ensures excludeDev ==> forall x :: x in r ==> !IsDevImage(x)
    ensures !excludeDev ==> |r| == |Rows(Lines(RunCommand(stdout)), 4)|
  {
    var out := RunCommand(stdout);
    var all :=
      if out == [] then BlankOutputLists([]); []
      else ImagesOf(Lines(out));
    if excludeDev then NonDev(all) else all
  }

  /** The images are read from the listed lines: image `i` holds the first
      four fields of line `idx[i]`, the lines are taken in order, and every
      line with at least four fields gives one; the filtered listing keeps
      the ones whose repository does not mention the dev prefix. */
  lemma ImagesFromLines(stdout: string) returns (idx: seq<nat>)
    ensures var ls := Lines(RunCommand(stdout));
            ReadFrom(idx, Rows(ls, 4), ls, 4) && GetImages(stdout, false) == ImagesOf(ls) &&
            GetImages(stdout, true) == NonDev(ImagesOf(ls))
  {
    var out := RunCommand(stdout);
    if out == [] {
      BlankOutputLists([]);
    }
    idx := RowsIndexed(Lines(out), 4);
  }

  /** The filter looks for the prefix anywhere in the repository name, not
      only at its start. */
  lemma DevAnywhere()
    ensures IsDevImage(Image("1", "my-dev-tools", "latest", "1MB"))
  {
    assert "my-dev-tools"[3..7] == "dev-";
    ContainsAt("my-dev-tools", "dev-", 3);
  }

  // ---------------------------------------------------------------------
  // Outcomes of the commands
  // ---------------------------------------------------------------------

  /** The commands a `dkr` command issued, all of them with `check=False`,
      and the boolean it returned.  Since such a command always hands back a
      string, every `result is not None` test on it passes. */
  datatype Outcome = Outcome(issued: seq<Argv>, result: bool)

  // ---------------------------------------------------------------------
  // Formatting
  // ---------------------------------------------------------------------

  /** `format_container_info`. */
  function FormatContainer(c: Container): (s: string)
    ensures StartsWith(s, Take(c.id, 12) + " | ")
    ensures EndsWith(s, " | " + c.image)
  {
    var s := Take(c.id, 12) + " | " + c.name + " | " + c.status + " | " + c.image;
    assert s[..|Take(c.id, 12) + " | "|] == Take(c.id, 12) + " | ";
    s
  }

  /** `format_image_info`. */
  function FormatImage(img: Image): (s: string)
    ensures StartsWith(s, Take(img.id, 12) + " | " + img.repository + ":" + img.tag + " | ")
    ensures EndsWith(s, " | " + img.size)
    ensures |s| == |Take(img.id, 12)| + |img.repository| + |img.tag| + |img.size| + 7
  {
    var head := Take(img.id, 12) + " | " + img.repository + ":" + img.tag + " | ";
    assert (head + img.size)[..|head|] == head;
    head + img.size
  }

  /** A formatted container reads back field by field when no field holds a
      `|`: splitting on `|` gives the four padded fields. */
  lemma FormatContainerReadBack(c: Container)
    requires '|' !in c.id && '|' !in c.name && '|' !in c.status && '|' !in c.image
    ensures Split(FormatContainer(c), '|') ==
              [Take(c.id, 12) + " ", " " + c.name + " ", " " + c.status + " ", " " + c.image]
  {
    var a := Take(c.id, 12) + " ";
    var b := " " + c.name + " ";
    var d := " " + c.status + " ";
    var e := " " + c.image;
    assert '|' !in Take(c.id, 12) by { assert Take(c.id, 12) == c.id[..|Take(c.id, 12)|]; }
    assert '|' !in a && '|' !in b && '|' !in d && '|' !in e;
    assert FormatContainer(c) == a + "|" + (b + "|" + (d + "|" + e));
    SplitNoSep(e, '|');
    SplitConcat(d, '|', e);
    SplitConcat(b, '|', d + "|" + e);
    SplitConcat(a, '|', b + "|" + (d + "|" + e));
  }

  /** A formatted image reads back when no field holds a `|` or a `:`:
      splitting on `|` gives the padded id, the `repository:tag` pair and the
      size, and the pair splits on `:` into repository and tag. */
  lemma FormatImageReadBack(img: Image)
    requires '|' !in img.id && '|' !in img.repository && '|' !in img.tag && '|' !in img.size
    requires ':' !in img.repository && ':' !in img.tag
    requires Trimmed(img.repository) && Trimmed(img.tag)
    ensures Split(FormatImage(img), '|') ==
              [Take(img.id, 12) + " ", " " + img.repository + ":" + img.tag + " ", " " + img.size]
    ensures Split(Strip(Split(FormatImage(img), '|')[1]), ':') == [img.repository, img.tag]
  {
    var a := Take(img.id, 12) + " ";
    var pair := img.repository + ":" + img.tag;
    var b := " " + pair + " ";
    var e := " " + img.size;
    assert b == " " + img.repository + ":" + img.tag + " ";
    assert '|' !in Take(img.id, 12) by { assert Take(img.id, 12) == img.id[..|Take(img.id, 12)|]; }
    assert '|' !in pair;
    assert FormatImage(img) == a + "|" + (b + "|" + e);
    ThreeFields(a, b, e);
    PairReadBack(img.repository, img.tag);
  }

  /** Three pieces without `|`, joined by `|`, split back into themselves. */
  lemma ThreeFields(a: string, b: string, e: string)
    requires '|' !in a && '|' !in b && '|' !in e
    ensures Split(a + "|" + (b + "|" + e), '|') == [a, b, e]
  {
    SplitNoSep(e, '|');
    SplitConcat(b, '|', e);
    SplitConcat(a, '|', b + "|" + e);
  }

  lemma PairReadBack(repository: string, tag: string)
    requires ':' !in repository && ':' !in tag
    requires Trimmed(repository) && Trimmed(tag)
    ensures Split(Strip(" " + (repository + ":" + tag) + " "), ':') == [repository, tag]
  {
    PairStrip(repository, tag);
    PairSplit(repository, tag);
  }

  lemma PairStrip(repository: string, tag: string)
    requires Trimmed(repository) && Trimmed(tag)
    ensures Strip(" " + (repository + ":" + tag) + " ") == repository + ":" + tag
  {
    PairEnds(repository, tag);
    StripPadded(" ", repository + ":" + tag, " ");
  }

  lemma PairSplit(repository: string, tag: string)
    requires ':' !in repository && ':' !in tag
    ensures Split(repository + ":" + tag, ':') == [repository, tag]
  {
    assert repository + ":" + tag == repository + [':'] + tag;
    SplitNoSep(tag, ':');
    SplitConcat(repository, ':', tag);
  }

  lemma PairEnds(repository: string, tag: string)
    requires Trimmed(repository) && Trimmed(tag)
    ensures var pair := repository + ":" + tag;
            |pair| > 0 && !IsSpace(pair[0]) && !IsSpace(pair[|pair| - 1])
  {
    var pair := repository + ":" + tag;
    assert pair[0] == (if repository == [] then ':' else repository[0]);
    assert pair[|pair| - 1] == (if tag == [] then ':' else tag[|tag| - 1]);
  }
}

=== FILE: host_setup.dfy ===
/** `setup.py`: prepares the host for the development environment.  The file
    system is a map from absolute path to what is there; the paths are taken
    as already absolute, and whether a backup or a link succeeds is an
    oracle. */
module HostSetup {
  import opened Text
  import opened Runtime

  // ---------------------------------------------------------------------
  // detect_shell
  // ---------------------------------------------------------------------

  /** `detect_shell`, given `$SHELL` (empty when unset). */
  function DetectShell(shellVar: string): (r: string)
    ensures r == "zsh" || r == "bash"
    ensures r == "zsh" <==> Contains(shellVar, "zsh")
  {
    if Contains(shellVar, "zsh") then "zsh" else "bash"
  }

  /** "zsh" is looked for first, so a value naming both shells picks zsh. */
  lemma ZshFirst()
    ensures DetectShell("/bin/bash-zsh") == "zsh"
    ensures DetectShell("") == "bash"
  {
    ContainsMiddle("/bin/bash-", "zsh", "");
    assert "/bin/bash-" + "zsh" + "" == "/bin/bash-zsh";
    assert !OccursAt("", "zsh", 0);
  }

  // ---------------------------------------------------------------------
  // create_symlink
  // ---------------------------------------------------------------------

  /** What a path holds: a regular file or a symbolic link to a path. */
  datatype Node = Regular(content: string) | Symlink(dest: string)

  type Fs = map<string, Node>

  function BackupPath(target: string): (b: string)
    ensures b != target
  {
    target + ".backup"
  }

  /** `create_symlink(source, target)`: the new file system and the result.
      `backupOk` and `linkOk` say whether moving the old target aside and
      creating the link succeed. */
  function CreateSymlink(fs: Fs, source: string, target: string, backupOk: bool, linkOk: bool): (r: (Fs, bool))
    ensures target in fs && fs[target] == Symlink(source) ==> r == (fs, true)
    ensures r.1 ==> target in r.0 && r.0[target] == Symlink(source)
    ensures r.1 && target in fs && fs[target] != Symlink(source) ==>
              BackupPath(target) in r.0 && r.0[BackupPath(target)] == fs[target]
    ensures forall p :: p in fs && p != target && p != BackupPath(target) ==> p in r.0 && r.0[p] == fs[p]
    ensures forall p :: p in r.0 && p != target && p != BackupPath(target) ==> p in fs
    ensures !r.1 ==> r.0 == fs || (target !in r.0 && target in fs)
  {
    if target in fs && fs[target] == Symlink(source) then (fs, true)
    else
      var moved :=
        if target in fs then
          if backupOk then Some(fs[BackupPath(target) := fs[target]] - {target}) else None
        else Some(fs);
      if moved.None? then (fs, false)
      else if linkOk then (moved.value[target := Symlink(source)], true)
      else (moved.value, false)
  }

  /** A second run after a successful one changes nothing. */
  lemma SymlinkIdempotent(fs: Fs, source: string, target: string, b1: bool, l1: bool, b2: bool, l2: bool)
    requires CreateSymlink(fs, source, target, b1, l1).1
    ensures var fs1 := CreateSymlink(fs, source, target, b1, l1).0;
            CreateSymlink(fs1, source, target, b2, l2) == (fs1, true)
  {
  }

  // ---------------------------------------------------------------------
  // The shell rc file
  // ---------------------------------------------------------------------

  function DevDir(home: string): string {
    home + "/dev"
  }

  function ConfigDir(home: string): string {
    DevDir(home) + "/config"
  }

  function SourceLine(home: string): string {
    "source " + ConfigDir(home) + "/shell_functions"
  }

  /** The rc file and its backup after the shell part of
      `setup_config_symlinks`: `None` is a file that does not exist. */
  datatype RcFiles = RcFiles(rc: Option<string>, backup: Option<string>)

  /** Adds the line that sources `shell_functions`, unless the file already
      contains it; an existing file is copied to the backup first, a missing
      one is created. */
  function AddSourceLine(files: RcFiles, home: string): (r: RcFiles)
    ensures r.rc.Some? && Contains(r.rc.value, SourceLine(home))
    ensures files.rc.Some? && Contains(files.rc.value, SourceLine(home)) ==> r == files
    ensures files.rc.Some? && !Contains(files.rc.value, SourceLine(home)) ==>
              r.backup == files.rc && StartsWith(r.rc.value, files.rc.value)
    ensures files.rc.None? ==> r.backup == files.backup
  {
    var line := SourceLine(home);
    match files.rc
    case Some(c) =>
      if Contains(c, line) then files
      else
        var added := c + "\n# Added by dev setup script\n" + line + "\n";
        ContainsMiddle(c + "\n# Added by dev setup script\n", line, "\n");
        assert added[..|c|] == c;
        RcFiles(Some(added), Some(c))
    case None =>
      ContainsMiddle("# Created by dev setup script\n", line, "\n");
      RcFiles(Some("# Created by dev setup script\n" + line + "\n"), files.backup)
  }

  /** Running the edit twice adds the line once. */
  lemma AddSourceLineIdempotent(files: RcFiles, home: string)
    ensures AddSourceLine(AddSourceLine(files, home), home) == AddSourceLine(files, home)
  {
  }

  const AliasMarker := "alias dev="

  function AliasLine(home: string): string {
    AliasMarker + "\"python3 " + DevDir(home) + "/scripts/dev.py\""
  }

  /** `setup_shell_integration`: appends the alias to an existing rc file that
      lacks one; a missing rc file is not created. */
  function AddAlias(rc: Option<string>, home: string): (r: Option<string>)
    ensures rc.None? <==> r.None?
    ensures r.Some? ==> Contains(r.value, AliasMarker) && StartsWith(r.value, rc.value)
    ensures rc.Some? && Contains(rc.value, AliasMarker) ==> r == rc
    ensures rc.Some? && !Contains(rc.value, AliasMarker) ==> r == Some(rc.value + AliasBlock(home))
    ensures rc.Some? && !Contains(rc.value, AliasMarker) ==> |r.value| > |rc.value|
  {
    match rc
    case None => None
    case Some(c) =>
      if Contains(c, AliasMarker) then
        StartsWithAppend(c, []);
        rc
      else
        AliasAppended(c, home);
        StartsWithAppend(c, AliasBlock(home));
        Some(c + AliasBlock(home))
  }

  /** What `setup_shell_integration` appends. */
  function AliasBlock(home: string): string {
    AliasHeader + AliasLine(home) + "\n"
  }

  const AliasHeader := "\n# Added by dev setup script\n"

  lemma AliasAppended(c: string, home: string)
    ensures Contains(c + AliasBlock(home), AliasMarker)
  {
    var rest := "\"python3 " + DevDir(home) + "/scripts/dev.py\"";
    MarkerFirst(AliasMarker, rest);
    assert AliasLine(home) == AliasMarker + rest;
    MarkerInBlock(c, AliasHeader, AliasLine(home));
  }

  lemma MarkerFirst(m: string, rest: string)
    ensures Contains(m + rest, m)
  {
    assert (m + rest)[0..|m|] == m;
    ContainsAt(m + rest, m, 0);
  }

  lemma MarkerInBlock(c: string, header: string, line: string)
    requires Contains(line, AliasMarker)
    ensures Contains(c + (header + line + "\n"), AliasMarker)
  {
    ContainsInside(c + header, line, "\n", AliasMarker);
    assert c + header + line + "\n" == c + (header + line + "\n");
  }

  lemma AddAliasIdempotent(rc: Option<string>, home: string)
    ensures AddAlias(AddAlias(rc, home), home) == AddAlias(rc, home)
  {
  }

  // ---------------------------------------------------------------------
  // check_prerequisites and main
  // ---------------------------------------------------------------------

  const Tools: seq<string> := ["docker", "python3", "git"]
  const ToolNames: seq<string> := ["Docker", "Python 3", "Git"]

  /** The names of the missing tools, in the order Docker, Python 3, Git. */
  function Missing(which: string -> bool): (m: seq<string>)
    ensures |m| <= 3
    ensures forall i :: 0 <= i < 3 ==> (ToolNames[i] in m <==> !which(Tools[i]))
    ensures SubsequenceOf(m, ToolNames)
  {
    (if which("docker") then [] else ["Docker"])
      + (if which("python3") then [] else ["Python 3"])
      + (if which("git") then [] else ["Git"])
  }

  /** `check_prerequisites`. */
  function CheckPrerequisites(which: string -> bool): (ok: bool)
    ensures ok <==> which("docker") && which("python3") && which("git")
  {
    Missing(which) == []
  }

  /** What the host looks like to `main`: the file system the links live in
      and the two rc files `~/.zshrc` and `~/.bashrc`. */
  datatype Host = Host(links: Fs, zshrc: RcFiles, bashrc: RcFiles)

  /** The rc file of the shell `detect_shell` named. */
  function RcOf(h: Host, shell: string): RcFiles {
    if shell == "zsh" then h.zshrc else h.bashrc
  }

  /** `main` of the setup script: `None` when it exits with status 1
      before any setup step.  Otherwise `init.lua` is linked into the NeoVim
      configuration and the rc file of the detected shell gets the source
      line and then the alias; the other rc file is left alone. */
  function SetupHost(scriptDir: string, which: string -> bool, shellVar: string, home: string,
                h: Host, backupOk: bool, linkOk: bool): (r: Option<Host>)
    ensures r.None? <==> !EndsWith(scriptDir, "dev/scripts") || !CheckPrerequisites(which)
    ensures r.Some? ==>
              r.value.links == CreateSymlink(h.links, ConfigDir(home) + "/init.lua",
                                             home + "/.config/nvim/init.lua", backupOk, linkOk).0
    ensures r.Some? ==>
              var rc := RcOf(r.value, DetectShell(shellVar)).rc;
              rc.Some? && Contains(rc.value, SourceLine(home)) && Contains(rc.value, AliasMarker)
    ensures r.Some? && RcOf(h, DetectShell(shellVar)).rc.Some? ==>
              StartsWith(RcOf(r.value, DetectShell(shellVar)).rc.value, RcOf(h, DetectShell(shellVar)).rc.value)
    ensures r.Some? && DetectShell(shellVar) == "zsh" ==> r.value.bashrc == h.bashrc
    ensures r.Some? && DetectShell(shellVar) == "bash" ==> r.value.zshrc == h.zshrc
  {
    if !EndsWith(scriptDir, "dev/scripts") then None
    else if !CheckPrerequisites(which) then None
    else
      var nvim := home + "/.config/nvim/init.lua";
      var links := CreateSymlink(h.links, ConfigDir(home) + "/init.lua", nvim, backupOk, linkOk).0;
      var shell := DetectShell(shellVar);
      var before := RcOf(h, shell);
      var files := AddSourceLine(before, home);
      var rc := AddAlias(files.rc, home);
      ShellEdits(before, home);
      var after := RcFiles(rc, files.backup);
      if shell == "zsh" then Some(Host(links, after, h.bashrc))
      else Some(Host(links, h.zshrc, after))
  }

  /** The two edits of the rc file leave both lines in it and keep what it
      held before at its start. */
  lemma ShellEdits(before: RcFiles, home: string)
    ensures var rc := AddAlias(AddSourceLine(before, home).rc, home);
            && rc.Some? && Contains(rc.value, SourceLine(home)) && Contains(rc.value, AliasMarker)
            && (before.rc.Some? ==> StartsWith(rc.value, before.rc.value))
  {
    var files := AddSourceLine(before, home);
    var rc := AddAlias(files.rc, home);
    KeepsSourceLine(files.rc.value, rc.value, home);
    if before.rc.Some? {
      StartsWithTrans(rc.value, files.rc.value, before.rc.value);
    }
  }

  lemma StartsWithTrans(a: string, b: string, c: string)
    requires StartsWith(a, b) && StartsWith(b, c)
    ensures StartsWith(a, c)
  {
    assert a[..|c|] == b[..|c|];
  }

  /** Appending keeps an occurrence. */
  lemma KeepsSourceLine(before: string, after: string, home: string)
    requires StartsWith(after, before) && Contains(before, SourceLine(home))
    ensures Contains(after, SourceLine(home))
  {
    assert after == before + after[|before|..];
    ContainsAppend(before, SourceLine(home), after[|before|..]);
  }

  /** The directory check is a plain suffix test, so a directory that merely
      ends in "dev/scripts" is accepted. */
  lemma SuffixNotBoundary()
    ensures EndsWith("/home/me/olddev/scripts", "dev/scripts")
  {
    assert "/home/me/olddev/scripts"[12..] == "dev/scripts";
  }
}

=== FILE: listing.dfy ===
/** The `docker ps` / `docker images` listings: the tools ask for one record
    per line with `|`-separated fields and read it back line by line. */
module Listing {
  import opened Text
  import opened Runtime

  /** The non-blank lines of `out.strip().split("\n")`, in order: each is a
      line of the stripped output, none holds a newline, and every non-blank
      line of the output is among them. */
  function Lines(out: string): (r: seq<string>)
    ensures forall i :: 0 <= i < |r| ==> !Blank(r[i]) && '\n' !in r[i] && r[i] in Split(Strip(out), '\n')
    ensures forall x :: x in Split(Strip(out), '\n') && !Blank(x) ==> x in r
  {
    SplitPiecesFree(Strip(out), '\n');
    KeepNonBlank(Split(Strip(out), '\n'))
  }

  /** The lines a listing helper reads: none for `None`, otherwise the lines
      of the output.  Only `run_command_with_output` of the maintenance tool
      reports a failed query, as `None`; `run_command(..., check=False)`
      always hands back the text, so the other listings pass `Some`. */
  function OutputLines(out: Option<string>): (r: seq<string>)
    ensures out.None? ==> r == []
    ensures out.Some? ==> forall i :: 0 <= i < |r| ==> !Blank(r[i]) && '\n' !in r[i] && r[i] in Split(Strip(out.value), '\n')
    ensures out.Some? ==> forall x :: x in Split(Strip(out.value), '\n') && !Blank(x) ==> x in r
  {
    if out.None? then [] else Lines(out.value)
  }

  /** Records printed one per line read back as exactly those records, when
      each is a non-blank single line with no whitespace at its ends. */
  lemma LinesOfJoin(ls: seq<string>)
    requires forall i :: 0 <= i < |ls| ==> !Blank(ls[i]) && Trimmed(ls[i]) && '\n' !in ls[i]
    ensures Lines(Join(ls, "\n")) == ls
  {
    if |ls| == 0 {
      BlankOutputLists([]);
    } else {
      NonBlankNonEmpty(ls);
      JoinTrimmed(ls, "\n");
      TrimmedStrip(Join(ls, "\n"));
      JoinSplit(ls, '\n');
      KeepNonBlankAll(ls);
    }
  }

  lemma NonBlankNonEmpty(ls: seq<string>)
    requires forall i :: 0 <= i < |ls| ==> !Blank(ls[i])
    ensures forall i :: 0 <= i < |ls| ==> ls[i] != []
  {
    assert Blank([]) by {
      assert LStrip([]) == [];
    }
  }

  /** Joining trimmed non-empty pieces gives a trimmed non-empty text. */
  lemma {:induction false} JoinTrimmed(ls: seq<string>, sep: string)
    requires |ls| > 0
    requires forall i :: 0 <= i < |ls| ==> ls[i] != [] && Trimmed(ls[i])
    ensures Join(ls, sep) != [] && Trimmed(Join(ls, sep))
  {
    if |ls| > 1 {
      JoinTrimmed(ls[1..], sep);
      var rest := Join(ls[1..], sep);
      var j := ls[0] + sep + rest;
      assert j[0] == ls[0][0];
      assert j[|j| - 1] == rest[|rest| - 1];
    }
  }

  /** Splitting a join of separator-free pieces gives the pieces back. */
  lemma {:induction false} JoinSplit(ls: seq<string>, c: char)
    requires |ls| > 0
    requires forall i :: 0 <= i < |ls| ==> c !in ls[i]
    ensures Split(Join(ls, [c]), c) == ls
  {
    if |ls| == 1 {
      SplitNoSep(ls[0], c);
    } else {
      JoinSplit(ls[1..], c);
      SplitConcat(ls[0], c, Join(ls[1..], [c]));
      assert ls == [ls[0]] + ls[1..];
    }
  }

  /** Lines that are all non-blank are all kept. */
  lemma {:induction false} KeepNonBlankAll(ls: seq<string>)
    requires forall i :: 0 <= i < |ls| ==> !Blank(ls[i])
    ensures KeepNonBlank(ls) == ls
  {
    if |ls| > 0 {
      var rest := ls[1..];
      assert forall i :: 0 <= i < |rest| ==> rest[i] == ls[i + 1];
      KeepNonBlankAll(rest);
      KeepNonBlankCons(ls);
      HeadTail(ls);
    } else {
      assert ls == [];
    }
  }

  lemma HeadTail<T>(s: seq<T>)
    requires |s| > 0
    ensures s == [s[0]] + s[1..]
  {
  }

  /** A non-blank first line is kept in front of the rest. */
  lemma KeepNonBlankCons(ls: seq<string>)
    requires |ls| > 0 && !Blank(ls[0])
    ensures KeepNonBlank(ls) == [ls[0]] + KeepNonBlank(ls[1..])
  {
  }

  function KeepNonBlank(ls: seq<string>): (r: seq<string>)
    ensures |r| <= |ls|
    ensures forall i :: 0 <= i < |r| ==> !Blank(r[i]) && r[i] in ls
    ensures forall x :: x in ls && !Blank(x) ==> x in r
  {
    if |ls| == 0 then []
    else if Blank(ls[0]) then KeepNonBlank(ls[1..])
    else [ls[0]] + KeepNonBlank(ls[1..])
  }

  /** Filtering distributes over concatenation, so the order of lines is kept. */
  lemma {:induction false} KeepNonBlankAppend(a: seq<string>, b: seq<string>)
    ensures KeepNonBlank(a + b) == KeepNonBlank(a) + KeepNonBlank(b)
  {
    if |a| > 0 {
      assert (a + b)[0] == a[0] && (a + b)[1..] == a[1..] + b;
      KeepNonBlankAppend(a[1..], b);
      var x, y := KeepNonBlank(a[1..]), KeepNonBlank(b);
      assert [a[0]] + (x + y) == [a[0]] + x + y;
    } else {
      assert a + b == b;
    }
  }

  /** Empty or all-blank output lists nothing. */
  lemma BlankOutputLists(out: string)
    requires Blank(out)
    ensures Lines(out) == []
  {
    assert Split([], '\n') == [[]];
    assert Blank([]);
  }

  /** The fields of a line: `line.split("|")`. */
  function Fields(line: string): (f: seq<string>)
    ensures |f| >= 1
    ensures Join(f, "|") == line
  {
    SplitJoin(line, '|');
    Split(line, '|')
  }

  /** The fields of every line that has at least `min` of them, in order;
      shorter lines are dropped. */
  function Rows(lines: seq<string>, min: nat): (rows: seq<seq<string>>)
    ensures |rows| <= |lines|
    ensures forall i :: 0 <= i < |rows| ==> |rows[i]| >= min && Join(rows[i], "|") in lines
  {
    if |lines| == 0 then []
    else if |Fields(lines[0])| >= min then [Fields(lines[0])] + Rows(lines[1..], min)
    else Rows(lines[1..], min)
  }

  /** Rows are read line by line: the rows of two blocks of lines are the rows
      of the first followed by the rows of the second. */
  lemma {:induction false} RowsAppend(a: seq<string>, b: seq<string>, min: nat)
    ensures Rows(a + b, min) == Rows(a, min) + Rows(b, min)
  {
    if |a| > 0 {
      assert (a + b)[1..] == a[1..] + b;
      assert (a + b)[0] == a[0];
      RowsAppend(a[1..], b, min);
    } else {
      assert a + b == b;
    }
  }

  /** `idx` says where each row comes from: row `i` is the fields of line
      `idx[i]`, the lines are read in order, and every line with at least
      `min` fields gives a row. */
  predicate ReadFrom(idx: seq<nat>, rows: seq<seq<string>>, lines: seq<string>, min: nat) {
    |idx| == |rows| &&
    (forall i :: 0 <= i < |idx| ==> idx[i] < |lines| && rows[i] == Fields(lines[idx[i]])) &&
    (forall i, j :: 0 <= i < j < |idx| ==> idx[i] < idx[j]) &&
    (forall j :: 0 <= j < |lines| && |Fields(lines[j])| >= min ==> j in idx)
  }

  /** The rows are the fields of the lines with at least `min` of them, each
      such line giving one row, in line order. */
  lemma {:induction false} RowsIndexed(lines: seq<string>, min: nat) returns (idx: seq<nat>)
    ensures ReadFrom(idx, Rows(lines, min), lines, min)
  {
    if |lines| == 0 {
      idx := [];
    } else {
      var rest := RowsIndexed(lines[1..], min);
      var shifted := ShiftIndex(rest, Rows(lines[1..], min), lines, min);
      if |Fields(lines[0])| >= min {
        idx := [0] + shifted;
        ConsIndex(shifted, Rows(lines[1..], min), lines, min);
      } else {
        idx := shifted;
        SkipIndex(shifted, Rows(lines[1..], min), lines, min);
      }
    }
  }

  /** Positions in the lines after the first, counted from the first. */
  lemma ShiftIndex(rest: seq<nat>, rows: seq<seq<string>>, lines: seq<string>, min: nat) returns (shifted: seq<nat>)
    requires |lines| > 0 && ReadFrom(rest, rows, lines[1..], min)
    ensures |shifted| == |rows|
    ensures forall i :: 0 <= i < |shifted| ==> 0 < shifted[i] < |lines| && rows[i] == Fields(lines[shifted[i]])
    ensures forall i, j :: 0 <= i < j < |shifted| ==> shifted[i] < shifted[j]
    ensures forall j :: 0 < j < |lines| && |Fields(lines[j])| >= min ==> j in shifted
  {
    shifted := seq(|rest|, i requires 0 <= i < |rest| => rest[i] + 1);
    ShiftPositions(rest, rows, lines, shifted);
    ShiftComplete(rest, lines, min, shifted);
  }

  lemma ShiftPositions(rest: seq<nat>, rows: seq<seq<string>>, lines: seq<string>, shifted: seq<nat>)
    requires |lines| > 0 && |rest| == |rows| == |shifted|
    requires forall i :: 0 <= i < |rest| ==> rest[i] < |lines| - 1 && rows[i] == Fields(lines[1..][rest[i]])
    requires forall i :: 0 <= i < |rest| ==> shifted[i] == rest[i] + 1
    ensures forall i :: 0 <= i < |shifted| ==> 0 < shifted[i] < |lines| && rows[i] == Fields(lines[shifted[i]])
  {
    var tail := lines[1..];
    forall i | 0 <= i < |shifted| ensures 0 < shifted[i] < |lines| && rows[i] == Fields(lines[shifted[i]]) {
      assert lines[shifted[i]] == tail[rest[i]];
    }
  }

  lemma ShiftComplete(rest: seq<nat>, lines: seq<string>, min: nat, shifted: seq<nat>)
    requires |lines| > 0 && |rest| == |shifted|
    requires forall j :: 0 <= j < |lines| - 1 && |Fields(lines[1..][j])| >= min ==> j in rest
    requires forall i :: 0 <= i < |rest| ==> shifted[i] == rest[i] + 1
    ensures forall j :: 0 < j < |lines| && |Fields(lines[j])| >= min ==> j in shifted
  {
    var tail := lines[1..];
    forall j | 0 < j < |lines| && |Fields(lines[j])| >= min ensures j in shifted {
      assert tail[j - 1] == lines[j];
      var k :| 0 <= k < |rest| && rest[k] == j - 1;
      assert shifted[k] == j;
    }
  }

  lemma SkipIndex(shifted: seq<nat>, rows: seq<seq<string>>, lines: seq<string>, min: nat)
    requires |lines| > 0 && |Fields(lines[0])| < min && |shifted| == |rows|
    requires forall i :: 0 <= i < |shifted| ==> 0 < shifted[i] < |lines| && rows[i] == Fields(lines[shifted[i]])
    requires forall i, j :: 0 <= i < j < |shifted| ==> shifted[i] < shifted[j]
    requires forall j :: 0 < j < |lines| && |Fields(lines[j])| >= min ==> j in shifted
    ensures ReadFrom(shifted, rows, lines, min)
  {
  }

  lemma ConsIndex(shifted: seq<nat>, rows: seq<seq<string>>, lines: seq<string>, min: nat)
    requires |lines| > 0 && |Fields(lines[0])| >= min && |shifted| == |rows|
    requires forall i :: 0 <= i < |shifted| ==> 0 < shifted[i] < |lines| && rows[i] == Fields(lines[shifted[i]])
    requires forall i, j :: 0 <= i < j < |shifted| ==> shifted[i] < shifted[j]
    requires forall j :: 0 < j < |lines| && |Fields(lines[j])| >= min ==> j in shifted
    requires Rows(lines, min) == [Fields(lines[0])] + rows
    ensures ReadFrom([0] + shifted, Rows(lines, min), lines, min)
  {
    ConsPositions(shifted, rows, lines);
    ConsOrder(shifted);
    ConsCovers(shifted, lines, min);
  }

  lemma ConsCovers(shifted: seq<nat>, lines: seq<string>, min: nat)
    requires forall j :: 0 < j < |lines| && |Fields(lines[j])| >= min ==> j in shifted
    ensures forall j :: 0 <= j < |lines| && |Fields(lines[j])| >= min ==> j in [0] + shifted
  {
    forall j | 0 <= j < |lines| && |Fields(lines[j])| >= min ensures j in [0] + shifted {
      if j > 0 {
        assert j in shifted;
      }
    }
  }

  lemma ConsPositions(shifted: seq<nat>, rows: seq<seq<string>>, lines: seq<string>)
    requires |lines| > 0 && |shifted| == |rows|
    requires forall i :: 0 <= i < |shifted| ==> 0 < shifted[i] < |lines| && rows[i] == Fields(lines[shifted[i]])
    ensures var idx, all := [0] + shifted, [Fields(lines[0])] + rows;
            forall i :: 0 <= i < |idx| ==> idx[i] < |lines| && all[i] == Fields(lines[idx[i]])
  {
    var idx, all := [0] + shifted, [Fields(lines[0])] + rows;
    forall i | 0 < i < |idx| ensures idx[i] < |lines| && all[i] == Fields(lines[idx[i]]) {
      assert idx[i] == shifted[i - 1] && all[i] == rows[i - 1];
    }
  }

  lemma ConsOrder(shifted: seq<nat>)
    requires forall i :: 0 <= i < |shifted| ==> 0 < shifted[i]
    requires forall i, j :: 0 <= i < j < |shifted| ==> shifted[i] < shifted[j]
    ensures var idx := [0] + shifted;
            forall i, j :: 0 <= i < j < |idx| ==> idx[i] < idx[j]
  {
    var idx := [0] + shifted;
    forall i, j | 0 <= i < j < |idx| ensures idx[i] < idx[j] {
      assert idx[j] == shifted[j - 1];
      if i > 0 {
        assert idx[i] == shifted[i - 1];
      }
    }
  }

  /** Every line yields a row exactly when no line is too short. */
  lemma {:induction false} RowsAllIff(lines: seq<string>, min: nat)
    ensures |Rows(lines, min)| == |lines| <==>
            forall i :: 0 <= i < |lines| ==> |Fields(lines[i])| >= min
  {
    if |lines| > 0 {
      RowsAllIff(lines[1..], min);
      assert forall i :: 1 <= i < |lines| ==> lines[i] == lines[1..][i - 1];
      if |Fields(lines[0])| >= min {
        if forall i :: 0 <= i < |lines[1..]| ==> |Fields(lines[1..][i])| >= min {
          forall i | 0 <= i < |lines| ensures |Fields(lines[i])| >= min {
            if i > 0 {
              assert lines[i] == lines[1..][i - 1];
            }
          }
        }
      } else {
        assert |Rows(lines[1..], min)| <= |lines| - 1;
      }
    }
  }
}

=== FILE: menu.dfy ===
/** The option prompt shared by the interactive commands: a number picks one
    listed item, `a` all of them, `q` none; the answer is stripped and
    lower-cased first. */
module Menu {
  import opened Text
  import opened Runtime

  datatype Choice = Quit | All | Pick(index: nat) | Invalid

  function Normalize(answer: string): string {
    Lower(Strip(answer))
  }

  /** The choice an answer makes among `n` listed items; `Pick` holds the
      zero-based position. */
  function ParseChoice(answer: string, n: nat): (c: Choice)
    ensures c == Quit <==> Normalize(answer) == "q"
    ensures c == All <==> Normalize(answer) == "a"
    ensures c.Pick? ==> c.index < n
    ensures c.Pick? <==> InRange(Normalize(answer), n)
  {
    var s := Normalize(answer);
    if s == "q" then Quit
    else if s == "a" then All
    else if InRange(s, n) then Pick(DigitsValue(s) - 1)
    else Invalid
  }

  /** A number from 1 to `n`, in digits. */
  predicate InRange(s: string, n: nat) {
    IsDigitString(s) && 1 <= DigitsValue(s) <= n
  }

  /** Typing the option number printed next to item `k` (1-based), with any
      surrounding whitespace, picks that item. */
  lemma PickByNumber(w1: string, k: nat, w2: string, n: nat)
    requires AllSpace(w1) && AllSpace(w2)
    requires 1 <= k <= n
    ensures ParseChoice(w1 + Decimal(k) + w2, n) == Pick(k - 1)
  {
    var d := Decimal(k);
    StripPadded(w1, d, w2);
    assert Lower(d) == d;
  }

  /** The bare number printed next to item `k` picks that item. */
  lemma PickTyped(k: nat, n: nat)
    requires 1 <= k <= n
    ensures ParseChoice(Decimal(k), n) == Pick(k - 1)
  {
    PickByNumber("", k, "", n);
    Unpadded(Decimal(k));
  }

  lemma Unpadded<T>(s: seq<T>)
    ensures [] + s + [] == s
  {
  }

  /** A number outside `1..n` is not a choice. */
  lemma OutOfRangeInvalid(k: nat, n: nat)
    requires k == 0 || k > n
    ensures ParseChoice(Decimal(k), n) == Invalid
  {
    DecimalOutOfRange(k, n);
    DigitsNormal(Decimal(k));
    NotALetter(Decimal(k));
    DigitsInvalid(Decimal(k), n);
  }

  lemma DecimalOutOfRange(k: nat, n: nat)
    requires k == 0 || k > n
    ensures IsDigitString(Decimal(k)) && !InRange(Decimal(k), n)
  {
  }

  lemma DigitsInvalid(d: string, n: nat)
    requires Normalize(d) == d && d != "q" && d != "a" && !InRange(d, n)
    ensures ParseChoice(d, n) == Invalid
  {
  }

  lemma NotALetter(d: string)
    requires IsDigitString(d)
    ensures d != "q" && d != "a"
  {
    assert IsDigit(d[0]);
  }

  /** A digit string is its own normal form. */
  lemma DigitsNormal(d: string)
    requires IsDigitString(d)
    ensures Normalize(d) == d
  {
    assert IsDigit(d[0]) && IsDigit(d[|d| - 1]);
    TrimmedStrip(d);
    assert Lower(d) == d;
  }

  /** Case does not matter for the letters. */
  lemma UpperLetters(n: nat)
    ensures ParseChoice("Q", n) == Quit && ParseChoice("A", n) == All
  {
    StripPadded([], "Q", []);
    StripPadded([], "A", []);
    assert [] + "Q" + [] == "Q";
    assert [] + "A" + [] == "A";
  }

  /** The choice each answer would make. */
  function Choices(answers: seq<string>, n: nat): (cs: seq<Choice>)
    ensures |cs| == |answers|
    ensures forall k :: 0 <= k < |answers| ==> cs[k] == ParseChoice(answers[k], n)
  {
    seq(|answers|, k requires 0 <= k < |answers| => ParseChoice(answers[k], n))
  }

  /** Position of the first choice that is not `Invalid`, or `|cs|`. */
  function FirstUsable(cs: seq<Choice>): (k: nat)
    ensures k <= |cs|
    ensures k < |cs| ==> cs[k] != Invalid
    ensures forall j :: 0 <= j < k ==> cs[j] == Invalid
  {
    if |cs| == 0 then 0
    else if cs[0] != Invalid then 0
    else
      var k := FirstUsable(cs[1..]);
      assert forall j :: 1 <= j < |cs| ==> cs[j] == cs[1..][j - 1];
      k + 1
  }

  /** A prompt that asks again after every unusable answer: the first usable
      answer decides, and running out of answers is `None` (`input()` raises
      `EOFError`). */
  function Ask(answers: seq<string>, n: nat): (r: Option<Choice>)
    ensures var cs := Choices(answers, n);
            && (r.None? <==> forall k :: 0 <= k < |cs| ==> cs[k] == Invalid)
            && (r.Some? ==> r.value != Invalid)
            && (r.Some? ==> exists k :: 0 <= k < |cs| && cs[k] == r.value &&
                                        (forall j :: 0 <= j < k ==> cs[j] == Invalid))
  {
    var cs := Choices(answers, n);
    var k := FirstUsable(cs);
    if k == |answers| then None else Some(cs[k])
  }

  /** Unusable answers in front of a usable one are skipped. */
  lemma AskSkipsInvalid(bad: seq<string>, answer: string, rest: seq<string>, n: nat)
    requires forall k :: 0 <= k < |bad| ==> ParseChoice(bad[k], n) == Invalid
    requires ParseChoice(answer, n) != Invalid
    ensures Ask(bad + [answer] + rest, n) == Some(ParseChoice(answer, n))
  {
    var all := bad + [answer] + rest;
    var cs := Choices(all, n);
    assert all[|bad|] == answer;
    assert forall j :: 0 <= j < |bad| ==> all[j] == bad[j];
    assert cs[|bad|] != Invalid;
    assert FirstUsable(cs) == |bad|;
  }
}

=== FILE: runtime.dfy ===
/** The container runtime as the scripts see it: a command line is handed to
    `subprocess`, and whether it succeeds is an oracle.  A command issued
    through `run_command(..., check=True)` ends the whole process with
    `sys.exit(1)` when it fails (the `SystemExit` it raises is not an
    `Exception`, so the callers' `except Exception` blocks never see it). */
module Runtime {

  datatype Option<+T> = None | Some(value: T)

  /** A command line. */
  type Argv = seq<string>

  /** One command the code issues; `checked` marks `check=True`. */
  datatype Step = Step(argv: Argv, checked: bool)

  /** How one invocation ended: normally, through `sys.exit(1)`, or through an
      exception nobody catches (which also exits with status 1). */
  datatype Ending = Finished | Exited | Raised

  /** The commands actually issued, in order, and how the invocation ended. */
  datatype Run = Run(issued: seq<Argv>, ending: Ending)

  /** Outcome of a socket probe on a host port: `check_port_availability`
      returns True or False, or `int(port)` / `bind` raises an error that is
      not a `socket.error` and escapes. */
  datatype Probe = Available | InUse | ProbeRaises

  function Argvs(steps: seq<Step>): (r: seq<Argv>)
    ensures |r| == |steps|
    ensures forall i :: 0 <= i < |steps| ==> r[i] == steps[i].argv
  {
    if |steps| == 0 then [] else [steps[0].argv] + Argvs(steps[1..])
  }

  /** A step that ends the process when it runs. */
  predicate Fatal(s: Step, ok: Argv -> bool) {
    s.checked && !ok(s.argv)
  }

  /** Runs the steps in order.  Every step up to and including the first fatal
      one is issued; nothing after it is. */
  function Execute(steps: seq<Step>, ok: Argv -> bool): (r: Run)
    ensures r.ending != Raised
    ensures |r.issued| <= |steps| && r.issued == Argvs(steps[..|r.issued|])
    ensures r.ending == Exited <==> exists i :: 0 <= i < |steps| && Fatal(steps[i], ok)
    ensures r.ending == Finished ==> r.issued == Argvs(steps)
    ensures r.ending == Exited ==>
              |r.issued| > 0 && Fatal(steps[|r.issued| - 1], ok)
              && forall i :: 0 <= i < |r.issued| - 1 ==> !Fatal(steps[i], ok)
  {
    if |steps| == 0 then Run([], Finished)
    else if Fatal(steps[0], ok) then
      assert steps[..1] == [steps[0]];
      Run([steps[0].argv], Exited)
    else
      var rest := Execute(steps[1..], ok);
      ArgvsPrefix(steps, |rest.issued|);
      FatalInTail(steps, ok);
      if rest.ending == Exited then
        FatalPrefixInTail(steps, ok, |rest.issued|);
        Run([steps[0].argv] + rest.issued, rest.ending)
      else
        Run([steps[0].argv] + rest.issued, rest.ending)
  }

  lemma ArgvsPrefix(steps: seq<Step>, k: nat)
    requires k < |steps|
    ensures Argvs(steps[..k + 1]) == [steps[0].argv] + Argvs(steps[1..][..k])
    ensures Argvs(steps) == [steps[0].argv] + Argvs(steps[1..])
  {
    assert steps[..k + 1][1..] == steps[1..][..k];
  }

  lemma FatalInTail(steps: seq<Step>, ok: Argv -> bool)
    requires |steps| > 0 && !Fatal(steps[0], ok)
    ensures (exists i :: 0 <= i < |steps| && Fatal(steps[i], ok)) <==>
            (exists i :: 0 <= i < |steps| - 1 && Fatal(steps[1..][i], ok))
  {
    if exists i :: 0 <= i < |steps| && Fatal(steps[i], ok) {
      var i :| 0 <= i < |steps| && Fatal(steps[i], ok);
      assert Fatal(steps[1..][i - 1], ok);
    }
    if exists i :: 0 <= i < |steps| - 1 && Fatal(steps[1..][i], ok) {
      var i :| 0 <= i < |steps| - 1 && Fatal(steps[1..][i], ok);
      assert Fatal(steps[i + 1], ok);
    }
  }

  lemma FatalPrefixInTail(steps: seq<Step>, ok: Argv -> bool, n: nat)
    requires 0 < n < |steps| && !Fatal(steps[0], ok)
    requires Fatal(steps[1..][n - 1], ok)
    requires forall i :: 0 <= i < n - 1 ==> !Fatal(steps[1..][i], ok)
    ensures Fatal(steps[n], ok)
    ensures forall i :: 0 <= i < n ==> !Fatal(steps[i], ok)
  {
    assert steps[n] == steps[1..][n - 1];
    forall i | 0 <= i < n ensures !Fatal(steps[i], ok) {
      if i > 0 {
        assert steps[i] == steps[1..][i - 1];
      }
    }
  }

  /** Runs a plan that may have raised while it was being put together, before
      anything was issued. */
  function Perform(plan: Option<seq<Step>>, ok: Argv -> bool): (r: Run)
    ensures plan.None? ==> r == Run([], Raised)
    ensures plan.Some? ==> r == Execute(plan.value, ok)
  {
    match plan
    case None => Run([], Raised)
    case Some(steps) => Execute(steps, ok)
  }

  /** Whatever holds of every planned command holds of every issued one. */
  lemma IssuedArePlanned(steps: seq<Step>, ok: Argv -> bool, p: Argv -> bool)
    requires forall i :: 0 <= i < |steps| ==> p(steps[i].argv)
    ensures forall a :: a in Execute(steps, ok).issued ==> p(a)
  {
    var r := Execute(steps, ok);
    forall a | a in r.issued ensures p(a) {
      var i :| 0 <= i < |r.issued| && r.issued[i] == a;
      assert r.issued[i] == steps[i].argv;
    }
  }

  /** When none of the first `n` steps is fatal, the first `n + 1` are all
      issued, in order. */
  lemma IssuedThrough(steps: seq<Step>, ok: Argv -> bool, n: nat)
    requires n < |steps|
    requires forall i :: 0 <= i < n ==> !Fatal(steps[i], ok)
    ensures |Execute(steps, ok).issued| > n
    ensures forall i :: 0 <= i <= n ==> Execute(steps, ok).issued[i] == steps[i].argv
  {
    var r := Execute(steps, ok);
    if r.ending == Exited {
      assert Fatal(steps[|r.issued| - 1], ok);
    }
  }
}

=== FILE: srv_config.dfy ===
/** `tools/srv/src/config.rs`: how the static file server settles its port,
    directory and options from the command line and an optional `.srv.toml`
    in the served directory. */
module SrvConfig {
  import opened Text
  import opened Runtime

  type U16 = x: nat | x <= 65535
  type U8 = x: nat | x <= 255

  const DefaultPort: U16 := 8000
  const DefaultDirectory: string := "."
  const DefaultIndex: string := "index.html"
  const DefaultAttempts: U8 := 10
  const ConfigFile: string := ".srv.toml"

  /** `ServerConfig`; `directory` is the resolved path and `directoryStr` the
      text it came from. */
  datatype ServerConfig = ServerConfig(
    port: U16,
    directory: string,
    directoryStr: string,
    enableCors: bool,
    showHidden: bool,
    followSymlinks: bool,
    indexFile: string,
    maxPortAttempts: U8)

  // ---------------------------------------------------------------------
  // parse_arguments
  // ---------------------------------------------------------------------

  /** Rust's `str::parse::<u16>()`: an optional `+`, then one or more ASCII
      digits whose value fits in 16 bits. */
  function ParseU16(s: string): (r: Option<U16>)
    ensures r.Some? <==>
              (IsDigitString(s) && DigitsValue(s) <= 65535) ||
              (|s| > 1 && s[0] == '+' && IsDigitString(s[1..]) && DigitsValue(s[1..]) <= 65535)
    ensures r.Some? && IsDigitString(s) ==> r.value == DigitsValue(s)
    ensures r.Some? && s[0] == '+' ==> r.value == DigitsValue(s[1..])
  {
    var digits := if |s| > 0 && s[0] == '+' then s[1..] else s;
    if IsDigitString(digits) && DigitsValue(digits) <= 65535 then
      assert IsDigitString(s) ==> IsDigit(s[0]);
      Some(DigitsValue(digits))
    else None
  }

  /** A port printed in decimal is read back as itself. */
  lemma ParseU16Decimal(p: U16)
    ensures ParseU16(Decimal(p)) == Some(p)
  {
    assert IsDigit(Decimal(p)[0]);
  }

  /** Whether the command line gave a port: `args[1]` parses as a `u16`. */
  predicate PortGiven(args: seq<string>) {
    |args| > 1 && ParseU16(args[1]).Some?
  }

  /** `parse_arguments`: the port and the directory text. */
  function ParseArguments(args: seq<string>): (r: (U16, string))
    ensures |args| <= 1 ==> r == (DefaultPort, DefaultDirectory)
    ensures PortGiven(args) ==> r.0 == ParseU16(args[1]).value
    ensures PortGiven(args) && |args| > 2 ==> r.1 == args[2]
    ensures PortGiven(args) && |args| == 2 ==> r.1 == DefaultDirectory
    ensures |args| > 1 && !PortGiven(args) ==> r == (DefaultPort, args[1])
  {
    if |args| <= 1 then (DefaultPort, DefaultDirectory)
    else
      match ParseU16(args[1])
      case Some(port) => (port, if |args| > 2 then args[2] else DefaultDirectory)
      case None => (DefaultPort, args[1])
  }

  /** `srv 8080 public` serves `public` on 8080; `srv public 8080` serves
      `public` on the default port and ignores the rest. */
  lemma ArgumentOrder(p: U16, dir: string)
    requires ParseU16(dir).None?
    ensures ParseArguments(["srv", Decimal(p), dir]) == (p, dir)
    ensures ParseArguments(["srv", dir, Decimal(p)]) == (DefaultPort, dir)
  {
    ParseU16Decimal(p);
  }

  /** A number too large for a port is taken as a directory name. */
  lemma OutOfRangePortIsDirectory()
    ensures ParseArguments(["srv", "70000"]) == (DefaultPort, "70000")
  {
    var s := "70000";
    assert s[..4] == "7000" && s[..3] == "700" && s[..2] == "70" && s[..1] == "7";
    assert "7000"[..3] == "700" && "700"[..2] == "70" && "70"[..1] == "7" && "7"[..0] == [];
    assert DigitsValue("7") == 7;
    assert DigitsValue("70") == 70;
    assert DigitsValue("700") == 700;
    assert DigitsValue("7000") == 7000;
    assert DigitsValue(s) == 70000;
    assert s[0] != '+';
  }

  // ---------------------------------------------------------------------
  // ServerConfig::new and merge_configs
  // ---------------------------------------------------------------------

  /** `ServerConfig::new`: the given port and directory, every other option
      at its default. */
  function New(port: U16, directory: string): (c: ServerConfig)
    ensures c.port == port && c.directory == directory && c.directoryStr == directory
    ensures c.enableCors && !c.showHidden && c.followSymlinks
    ensures c.indexFile == DefaultIndex && c.maxPortAttempts == DefaultAttempts
  {
    ServerConfig(port, directory, directory, true, false, true, DefaultIndex, DefaultAttempts)
  }

  /** `merge_configs`: the command line keeps its port when it gave one and
      its directory always; the options come from the file. */
  function Merge(cmd: ServerConfig, file: ServerConfig, args: seq<string>): (c: ServerConfig)
    ensures c.port == (if PortGiven(args) then cmd.port else file.port)
    ensures c.directory == cmd.directory && c.directoryStr == cmd.directoryStr
    ensures c.enableCors == file.enableCors && c.showHidden == file.showHidden
    ensures c.followSymlinks == file.followSymlinks && c.indexFile == file.indexFile
    ensures c.maxPortAttempts == file.maxPortAttempts
  {
    cmd.(port := if PortGiven(args) then cmd.port else file.port,
         enableCors := file.enableCors,
         showHidden := file.showHidden,
         followSymlinks := file.followSymlinks,
         indexFile := file.indexFile,
         maxPortAttempts := file.maxPortAttempts)
  }

  /** Merging the same file twice changes nothing more. */
  lemma MergeIdempotent(cmd: ServerConfig, file: ServerConfig, args: seq<string>)
    ensures Merge(Merge(cmd, file, args), file, args) == Merge(cmd, file, args)
  {
  }

  // ---------------------------------------------------------------------
  // Paths
  // ---------------------------------------------------------------------

  predicate IsAbsolute(p: string) {
    |p| > 0 && p[0] == '/'
  }

  /** `Path::join`: an absolute `p` replaces `base`; otherwise a separator is
      added when `base` is non-empty and does not end in one. */
  function JoinPath(base: string, p: string): (r: string)
    ensures IsAbsolute(p) ==> r == p
    ensures !IsAbsolute(p) ==> EndsWith(r, p)
    ensures !IsAbsolute(p) && IsAbsolute(base) ==> IsAbsolute(r)
  {
    if IsAbsolute(p) then p
    else if |base| == 0 || base[|base| - 1] == '/' then base + p
    else base + "/" + p
  }

  // ---------------------------------------------------------------------
  // load_config_file
  // ---------------------------------------------------------------------

  /** `load_config_file`: `parsed` is the file's configuration when the file
      exists, can be read and parses, with `directory` still unset.  Its
      directory text is taken relative to the directory holding the file,
      unless it is absolute. */
  function LoadConfigFile(directory: string, parsed: Option<ServerConfig>): (r: Option<ServerConfig>)
    ensures r.Some? <==> parsed.Some?
    ensures r.Some? ==> r.value == parsed.value.(directory := r.value.directory)
    ensures r.Some? && IsAbsolute(parsed.value.directoryStr) ==> r.value.directory == parsed.value.directoryStr
    ensures r.Some? && !IsAbsolute(parsed.value.directoryStr) ==>
              r.value.directory == JoinPath(directory, parsed.value.directoryStr)
  {
    match parsed
    case None => None
    case Some(file) =>
      var dir := if IsAbsolute(file.directoryStr) then file.directoryStr else JoinPath(directory, file.directoryStr);
      Some(file.(directory := dir))
  }

  // ---------------------------------------------------------------------
  // resolve_directory and load_config
  // ---------------------------------------------------------------------

  /** Why the directory was refused. */
  datatype ResolveError = NoCurrentDirectory | Missing(path: string) | NotADirectory(path: string)

  datatype Loaded = Loaded(config: ServerConfig) | Failed(error: ResolveError)

  /** The path a directory text names: the text itself when absolute,
      otherwise the text under the current directory, and nothing when that
      directory cannot be read. */
  function ResolvedPath(text: string, cwd: Option<string>): (p: Option<string>)
    ensures IsAbsolute(text) ==> p == Some(text)
    ensures !IsAbsolute(text) ==> p == if cwd.Some? then Some(JoinPath(cwd.value, text)) else None
  {
    if IsAbsolute(text) then Some(text)
    else if cwd.None? then None
    else Some(JoinPath(cwd.value, text))
  }

  /** `resolve_directory`: `cwd` is the current directory (`None` when it
      cannot be read), `exists` and `isDir` the file system's answers.  The
      configuration is loaded exactly when the path its text names exists
      and is a directory; otherwise the error names that path and the
      reason. */
  function ResolveDirectory(c: ServerConfig, cwd: Option<string>, exists_: string -> bool, isDir: string -> bool): (r: Loaded)
    ensures var p := ResolvedPath(c.directoryStr, cwd);
            (p.None? <==> r == Failed(NoCurrentDirectory)) &&
            (p.Some? && exists_(p.value) && isDir(p.value) ==> r == Loaded(c.(directory := p.value))) &&
            (p.Some? && !exists_(p.value) ==> r == Failed(Missing(p.value))) &&
            (p.Some? && exists_(p.value) && !isDir(p.value) ==> r == Failed(NotADirectory(p.value)))
    ensures IsAbsolute(c.directoryStr) && exists_(c.directoryStr) && isDir(c.directoryStr) ==>
              r == Loaded(c.(directory := c.directoryStr))
    ensures !IsAbsolute(c.directoryStr) && cwd.None? ==> r == Failed(NoCurrentDirectory)
    ensures r.Loaded? ==> r.config == c.(directory := r.config.directory)
    ensures r.Loaded? ==> exists_(r.config.directory) && isDir(r.config.directory)
    ensures r.Loaded? && !IsAbsolute(c.directoryStr) ==> cwd.Some? && r.config.directory == JoinPath(cwd.value, c.directoryStr)
    ensures r.Failed? && r.error.Missing? ==> !exists_(r.error.path)
    ensures r.Failed? && r.error.NotADirectory? ==> exists_(r.error.path) && !isDir(r.error.path)
  {
    if !IsAbsolute(c.directoryStr) && cwd.None? then Failed(NoCurrentDirectory)
    else
      var dir := if IsAbsolute(c.directoryStr) then c.directoryStr else JoinPath(cwd.value, c.directoryStr);
      if !exists_(dir) then Failed(Missing(dir))
      else if !isDir(dir) then Failed(NotADirectory(dir))
      else Loaded(c.(directory := dir))
  }

  /** `load_config`: `args` is the command line and `parsed` the content of
      `.srv.toml` in the requested directory, if any.  Whatever the file
      says, the directory served is the one the command line names, and the
      result is loaded exactly when that path exists and is a directory. */
  function LoadConfig(args: seq<string>, parsed: Option<ServerConfig>, cwd: Option<string>,
                      exists_: string -> bool, isDir: string -> bool): (r: Loaded)
    ensures var p := ResolvedPath(ParseArguments(args).1, cwd);
            (p.None? <==> r == Failed(NoCurrentDirectory)) &&
            (p.Some? ==> (r.Loaded? <==> exists_(p.value) && isDir(p.value))) &&
            (r.Loaded? ==> r.config.directory == p.value) &&
            (p.Some? && !exists_(p.value) ==> r == Failed(Missing(p.value))) &&
            (p.Some? && exists_(p.value) && !isDir(p.value) ==> r == Failed(NotADirectory(p.value)))
    ensures r.Loaded? ==> r.config.directoryStr == ParseArguments(args).1
    ensures r.Loaded? && parsed.None? ==>
              r.config == New(ParseArguments(args).0, ParseArguments(args).1).(directory := r.config.directory)
    ensures r.Loaded? && parsed.Some? ==>
              r.config.port == (if PortGiven(args) then ParseArguments(args).0 else parsed.value.port) &&
              r.config.enableCors == parsed.value.enableCors &&
              r.config.showHidden == parsed.value.showHidden &&
              r.config.followSymlinks == parsed.value.followSymlinks &&
              r.config.indexFile == parsed.value.indexFile &&
              r.config.maxPortAttempts == parsed.value.maxPortAttempts
  {
    var (port, dir) := ParseArguments(args);
    var config := New(port, dir);
    var file := LoadConfigFile(config.directory, parsed);
    var merged := if file.Some? then Merge(config, file.value, args) else config;
    ResolveDirectory(merged, cwd, exists_, isDir)
  }

  /** The directory named in `.srv.toml` never reaches the result: the merge
      keeps the command line's, and resolution starts again from its text. */
  lemma FileDirectoryIgnored(args: seq<string>, a: Option<ServerConfig>, b: Option<ServerConfig>,
                             cwd: Option<string>, exists_: string -> bool, isDir: string -> bool)
    requires a.Some? <==> b.Some?
    requires a.Some? ==> b.value == a.value.(directory := b.value.directory, directoryStr := b.value.directoryStr)
    ensures LoadConfig(args, a, cwd, exists_, isDir) == LoadConfig(args, b, cwd, exists_, isDir)
  {
  }

  /** With no `.srv.toml` and a directory that exists, `srv` alone serves the
      current directory on port 8000 with the default options. */
  lemma BareInvocation(cwd: string, exists_: string -> bool, isDir: string -> bool)
    requires exists_(JoinPath(cwd, ".")) && isDir(JoinPath(cwd, "."))
    ensures LoadConfig(["srv"], None, Some(cwd), exists_, isDir) ==
              Loaded(New(DefaultPort, DefaultDirectory).(directory := JoinPath(cwd, ".")))
  {
  }

  /** Where the path is absolute the current directory plays no part. */
  lemma AbsoluteIgnoresCwd(c: ServerConfig, cwd1: Option<string>, cwd2: Option<string>,
                           exists_: string -> bool, isDir: string -> bool)
    requires IsAbsolute(c.directoryStr)
    ensures ResolveDirectory(c, cwd1, exists_, isDir) == ResolveDirectory(c, cwd2, exists_, isDir)
  {
  }
}

=== FILE: srv_server.dfy ===
/** `tools/srv/src/server.rs`: the search for a free port before the server
    starts.  Whether a port can be bound is an oracle. */
module SrvServer {
  import opened Text
  import opened SrvConfig

  /** How the search ended: a port that bound, every attempt used up, or the
      `u16` increment past 65535.  The model follows a debug build, where that
      increment panics.  A release build wraps the port to 0 instead: with no
      attempt left it reports exhaustion, and with one left it asks for port 0,
      which the operating system answers with a port of its own choosing. */
  datatype PortSearch = Bound(port: U16) | Exhausted(message: string) | Overflowed

  function ExhaustedMessage(attempts: U8): string {
    "Could not find available port after " + Decimal(attempts) + " attempts"
  }

  /** The ports the search may try: `count` of them from `start`, stopping at
      65535. */
  predicate InWindow(p: int, start: U16, count: nat) {
    start <= p < start + count && p <= 65535
  }

  // ---------------------------------------------------------------------
  // find_available_port as written
  // ---------------------------------------------------------------------

  /** The loop of `find_available_port` from attempt `attempt` on, with `port`
      the port about to be tried: `port += 1` follows every failed bind,
      including the last one. */
  function SearchAsWritten(start: U16, port: U16, attempt: nat, maxAttempts: U8, bind: U16 -> bool): (r: PortSearch)
    ensures r.Bound? ==> port <= r.port < port + (maxAttempts - attempt) && bind(r.port)
    ensures r.Bound? ==> forall q :: port <= q < r.port ==> !bind(q)
    ensures r.Overflowed? ==> port + (maxAttempts - attempt) >= 65536 && forall q :: port <= q <= 65535 ==> !bind(q)
    decreases maxAttempts - attempt
  {
    if attempt >= maxAttempts then Exhausted(ExhaustedMessage(maxAttempts))
    else if bind(port) then Bound(port)
    else if port == 65535 then Overflowed
    else SearchAsWritten(start, port + 1, attempt + 1, maxAttempts, bind)
  }

  /** `find_available_port` as written, in a debug build: a port found is
      the first that binds, and the overflow happens only to a window
      reaching past 65535 in which no port binds. */
  function FindPortAsWritten(start: U16, maxAttempts: U8, bind: U16 -> bool): (r: PortSearch)
    ensures r.Bound? ==> start <= r.port < start + maxAttempts && bind(r.port)
    ensures r.Bound? ==> forall q :: start <= q < r.port ==> !bind(q)
    ensures r.Overflowed? ==> start + maxAttempts >= 65536 && forall q :: start <= q <= 65535 ==> !bind(q)
  {
    SearchAsWritten(start, start, 0, maxAttempts, bind)
  }

  /** One attempt at the last port, which is busy, still increments it. */
  lemma LastPortOverflows()
    ensures FindPortAsWritten(65535, 1, _ => false) == Overflowed
  {
  }

  // ---------------------------------------------------------------------
  // find_available_port, corrected
  // ---------------------------------------------------------------------

  /** The loop with the increment guarded: the search ends at 65535 with the
      same error as running out of attempts. */
  function Search(start: U16, port: U16, attempt: nat, maxAttempts: U8, bind: U16 -> bool): (r: PortSearch)
    requires port == start + attempt && attempt <= maxAttempts
    ensures !r.Overflowed?
    ensures r.Bound? ==> InWindow(r.port, port, maxAttempts - attempt) && bind(r.port)
    ensures r.Bound? ==> forall q :: port <= q < r.port ==> !bind(q)
    ensures r.Exhausted? <==> forall q :: InWindow(q, port, maxAttempts - attempt) ==> !bind(q)
    ensures r.Exhausted? ==> r.message == ExhaustedMessage(maxAttempts)
    decreases maxAttempts - attempt
  {
    if attempt >= maxAttempts then Exhausted(ExhaustedMessage(maxAttempts))
    else if bind(port) then Bound(port)
    else if port == 65535 then Exhausted(ExhaustedMessage(maxAttempts))
    else
      Search(start, port + 1, attempt + 1, maxAttempts, bind)
  }

  /** `find_available_port`: the first port from `start` on that binds, among
      at most `maxAttempts` ports. */
  function FindAvailablePort(start: U16, maxAttempts: U8, bind: U16 -> bool): (r: PortSearch)
    ensures !r.Overflowed?
    ensures r.Bound? ==> start <= r.port < start + maxAttempts && bind(r.port)
    ensures r.Bound? ==> forall q :: start <= q < r.port ==> !bind(q)
    ensures r.Exhausted? <==> forall q :: InWindow(q, start, maxAttempts) ==> !bind(q)
    ensures maxAttempts == 0 ==> r == Exhausted(ExhaustedMessage(0))
  {
    Search(start, start, 0, maxAttempts, bind)
  }

  /** Where the window ends below 65535 the code as written and the
      corrected search agree. */
  lemma {:induction false} AsWrittenAgrees(start: U16, port: U16, attempt: nat, maxAttempts: U8, bind: U16 -> bool)
    requires port == start + attempt && attempt <= maxAttempts
    requires start + maxAttempts <= 65535
    ensures SearchAsWritten(start, port, attempt, maxAttempts, bind) == Search(start, port, attempt, maxAttempts, bind)
    decreases maxAttempts - attempt
  {
    if attempt < maxAttempts && !bind(port) && port < 65535 {
      AsWrittenAgrees(start, port + 1, attempt + 1, maxAttempts, bind);
    }
  }

  /** A free requested port is used as it is. */
  lemma FreePortKept(start: U16, maxAttempts: U8, bind: U16 -> bool)
    requires maxAttempts > 0 && bind(start)
    ensures FindAvailablePort(start, maxAttempts, bind) == Bound(start)
  {
  }

  /** When only the requested port is taken, the next one is used. */
  lemma NextPortWhenTaken(start: U16, maxAttempts: U8, bind: U16 -> bool)
    requires maxAttempts >= 2 && start < 65535
    requires !bind(start) && bind(start + 1)
    ensures FindAvailablePort(start, maxAttempts, bind) == Bound(start + 1)
  {
    var r := FindAvailablePort(start, maxAttempts, bind);
    assert r.Bound? by {
      assert InWindow(start + 1, start, maxAttempts);
    }
  }

  /** At the last port the corrected search reports running out. */
  lemma LastPortExhausted()
    ensures FindAvailablePort(65535, 1, _ => false) == Exhausted(ExhaustedMessage(1))
  {
  }
}

=== FILE: srv_utils.dfy ===
/** `tools/srv/src/utils.rs`, `get_modification_time`: seconds since the
    epoch rendered as `YYYY-MM-DD hh:mm:ss` by a calendar of 365-day years
    with fixed month lengths (no leap years, as the code itself says). */
module SrvUtils {
  import opened Text
  import opened Runtime

  const SecondsPerDay: nat := 86400
  const DaysInMonth: seq<nat> := [31, 28, 31, 30, 31, 30, 31, 31, 30, 31, 30, 31]

  /** Days in the months before month `m` (0-based). */
  function DaysBefore(m: nat): (n: nat)
    requires m <= 12
  {
    if m == 0 then 0 else DaysBefore(m - 1) + DaysInMonth[m - 1]
  }

  lemma DaysInYear()
    ensures DaysBefore(12) == 365
  {
    assert DaysBefore(2) == 59;
    assert DaysBefore(4) == 120;
    assert DaysBefore(6) == 181;
    assert DaysBefore(8) == 243;
    assert DaysBefore(10) == 304;
  }

  /** Earlier months hold fewer days; a month starts after every earlier
      month has ended. */
  lemma {:induction false} DaysBeforeGrows(a: nat, b: nat)
    requires a <= 12 && b <= 12
    ensures a <= b ==> DaysBefore(a) <= DaysBefore(b)
    ensures a < b ==> DaysBefore(a) + DaysInMonth[a] <= DaysBefore(b)
    decreases b
  {
    if b > 0 {
      DaysBeforeGrows(a, b - 1);
      StepDays(b);
    }
  }

  lemma StepDays(b: nat)
    requires 0 < b <= 12
    ensures DaysBefore(b) == DaysBefore(b - 1) + DaysInMonth[b - 1] && DaysInMonth[b - 1] >= 0
  {
  }

  /** The month loop from index `i`, with `day` what is left of the day of
      the year: `(month, day)` with `month == 0` when the loop ran out. */
  function MonthScan(day: nat, i: nat): (r: (nat, nat))
    requires i <= 12
    decreases 12 - i
  {
    if i == 12 then (0, day)
    else if day < DaysInMonth[i] then (i + 1, day)
    else MonthScan(day - DaysInMonth[i], i + 1)
  }

  /** Within a year the loop stops at the month holding the day. */
  lemma {:induction false} MonthScanFinds(day: nat, i: nat)
    requires i <= 12 && DaysBefore(i) + day < 365
    ensures i < MonthScan(day, i).0 <= 12
    ensures MonthScan(day, i).1 < DaysInMonth[MonthScan(day, i).0 - 1]
    ensures DaysBefore(i) + day == DaysBefore(MonthScan(day, i).0 - 1) + MonthScan(day, i).1
    decreases 12 - i
  {
    if i == 12 {
      DaysInYear();
    } else if day >= DaysInMonth[i] {
      StepDays(i + 1);
      MonthScanFinds(day - DaysInMonth[i], i + 1);
    }
  }

  /** The broken-down time that is printed. */
  datatype DateTime = DateTime(year: nat, month: nat, day: nat, hours: nat, minutes: nat, seconds: nat)

  predicate Valid(t: DateTime) {
    t.year >= 1970 && 1 <= t.month <= 12 && 1 <= t.day <= DaysInMonth[t.month - 1]
    && t.hours < 24 && t.minutes < 60 && t.seconds < 60
  }

  /** The seconds a date stands for in the same calendar. */
  function EpochSeconds(t: DateTime): nat
    requires Valid(t)
  {
    ((t.year - 1970) * 365 + DaysBefore(t.month - 1) + (t.day - 1)) * SecondsPerDay
    + t.hours * 3600 + t.minutes * 60 + t.seconds
  }

  /** The arithmetic of `get_modification_time`. */
  function Breakdown(secs: nat): (t: DateTime)
    ensures Valid(t)
    ensures 3600 * t.hours + 60 * t.minutes + t.seconds == secs % SecondsPerDay
  {
    var days := secs / SecondsPerDay;
    var sod := secs % SecondsPerDay;
    var year := 1970 + days / 365;
    var dayOfYear := days % 365;
    var (m, d) := MonthScan(dayOfYear, 0);
    var (month, day) := if m == 0 then (12, 31) else (m, d);
    var t := DateTime(year, month, day + 1, (sod / 3600) % 24, (sod / 60) % 60, sod % 60);
    MonthScanFinds(dayOfYear, 0);
    ClockFields(sod);
    t
  }

  /** The hours, minutes and seconds of a day add back up to it. */
  lemma ClockFields(sod: nat)
    requires sod < SecondsPerDay
    ensures 3600 * ((sod / 3600) % 24) + 60 * ((sod / 60) % 60) + sod % 60 == sod
  {
    var h, r := sod / 3600, sod % 3600;
    var m, s := r / 60, r % 60;
    assert sod == h * 3600 + r && r == m * 60 + s;
    ClockOfDay(h, m, s, sod);
  }

  /** The fallback to December 31 is never taken. */
  lemma FallbackUnreachable(secs: nat)
    ensures MonthScan((secs / SecondsPerDay) % 365, 0).0 != 0
  {
    MonthScanFinds((secs / SecondsPerDay) % 365, 0);
  }

  /** Reading the printed date back gives the seconds that were printed. */
  lemma BreakdownInverse(secs: nat)
    ensures EpochSeconds(Breakdown(secs)) == secs
  {
    var days := secs / SecondsPerDay;
    var dayOfYear := days % 365;
    MonthScanFinds(dayOfYear, 0);
    var t := Breakdown(secs);
    assert DaysBefore(t.month - 1) + (t.day - 1) == dayOfYear;
    assert (t.year - 1970) * 365 + dayOfYear == days;
  }

  /** Every date of the calendar is printed for exactly its own seconds. */
  lemma BreakdownOfEpochSeconds(t: DateTime)
    requires Valid(t)
    ensures Breakdown(EpochSeconds(t)) == t
  {
    ReadBack(EpochSeconds(t), t.year - 1970, t.month, t.day - 1, t.hours, t.minutes, t.seconds);
  }

  /** `Breakdown` of the seconds counted from a year offset, a month, a day
      offset in the month and a time of day. */
  lemma ReadBack(secs: nat, years: nat, month: nat, d: nat, h: nat, m: nat, s: nat)
    requires 1 <= month <= 12 && d < DaysInMonth[month - 1] && h < 24 && m < 60 && s < 60
    requires secs == (years * 365 + DaysBefore(month - 1) + d) * SecondsPerDay + h * 3600 + m * 60 + s
    ensures Breakdown(secs) == DateTime(1970 + years, month, d + 1, h, m, s)
  {
    var doy := DaysBefore(month - 1) + d;
    var sod := h * 3600 + m * 60 + s;
    WithinYear(month, d);
    DaySplit(secs, years * 365 + doy, sod);
    YearSplit(years * 365 + doy, years, doy);
    ScanOfMonthStart(month, d);
    ClockOfDay(h, m, s, sod);
  }

  lemma DaySplit(x: nat, q: nat, r: nat)
    requires r < SecondsPerDay && x == q * SecondsPerDay + r
    ensures x / SecondsPerDay == q && x % SecondsPerDay == r
  {
  }

  lemma YearSplit(x: nat, q: nat, r: nat)
    requires r < 365 && x == q * 365 + r
    ensures x / 365 == q && x % 365 == r
  {
  }

  lemma ClockOfDay(h: nat, m: nat, s: nat, sod: nat)
    requires h < 24 && m < 60 && s < 60 && sod == h * 3600 + m * 60 + s
    ensures (sod / 3600) % 24 == h && (sod / 60) % 60 == m && sod % 60 == s
  {
  }

  /** The scan finds the month a day was counted from. */
  lemma ScanOfMonthStart(month: nat, d: nat)
    requires 1 <= month <= 12 && d < DaysInMonth[month - 1]
    ensures MonthScan(DaysBefore(month - 1) + d, 0) == (month, d)
  {
    var x := DaysBefore(month - 1) + d;
    WithinYear(month, d);
    MonthOfDay(x);
    SameMonth(MonthScan(x, 0).0, MonthScan(x, 0).1, month, d);
  }

  /** A day of a month is a day of the 365. */
  lemma WithinYear(month: nat, d: nat)
    requires 1 <= month <= 12 && d < DaysInMonth[month - 1]
    ensures DaysBefore(month - 1) + d < 365
  {
    DaysBeforeGrows(month - 1, 12);
    DaysInYear();
  }

  /** The scan from January places every day of the year in a month. */
  lemma MonthOfDay(x: nat)
    requires x < 365
    ensures 1 <= MonthScan(x, 0).0 <= 12
    ensures MonthScan(x, 0).1 < DaysInMonth[MonthScan(x, 0).0 - 1]
    ensures x == DaysBefore(MonthScan(x, 0).0 - 1) + MonthScan(x, 0).1
  {
    MonthScanFinds(x, 0);
  }

  /** A day of the year has one month and one day of the month. */
  lemma SameMonth(m1: nat, d1: nat, m2: nat, d2: nat)
    requires 1 <= m1 <= 12 && d1 < DaysInMonth[m1 - 1]
    requires 1 <= m2 <= 12 && d2 < DaysInMonth[m2 - 1]
    requires DaysBefore(m1 - 1) + d1 == DaysBefore(m2 - 1) + d2
    ensures m1 == m2 && d1 == d2
  {
    DaysBeforeGrows(m1 - 1, m2 - 1);
    DaysBeforeGrows(m2 - 1, m1 - 1);
  }

  /** `format!("{:04}-{:02}-{:02} {:02}:{:02}:{:02}", ...)`: the date and
      the time of day, separated by a space. */
  function Format(t: DateTime): string {
    Fields(ZeroPad(t.year, 4), '-', ZeroPad(t.month, 2), '-', ZeroPad(t.day, 2)) + " "
    + Fields(ZeroPad(t.hours, 2), ':', ZeroPad(t.minutes, 2), ':', ZeroPad(t.seconds, 2))
  }

  /** Three fields with a separator after the first and after the second. */
  function Fields(a: string, x: char, b: string, y: char, c: string): string {
    a + [x] + b + [y] + c
  }

  lemma FieldsShape(a: string, x: char, b: string, y: char, c: string)
    ensures |Fields(a, x, b, y, c)| == |a| + |b| + |c| + 2
    ensures Fields(a, x, b, y, c)[|a|] == x && Fields(a, x, b, y, c)[|a| + 1 + |b|] == y
  {
  }

  function Pow10(k: nat): nat {
    if k == 0 then 1 else 10 * Pow10(k - 1)
  }

  /** A number below `10^w` is written in at most `w` digits. */
  lemma {:induction false} DecimalWidth(n: nat, w: nat)
    requires w > 0 && n < Pow10(w)
    ensures |Decimal(n)| <= w
    decreases n
  {
    if n >= 10 {
      DecimalWidth(n / 10, w - 1);
    }
  }

  lemma PaddedWidth(n: nat, w: nat)
    requires w > 0 && n < Pow10(w)
    ensures |ZeroPad(n, w)| == w
  {
    DecimalWidth(n, w);
  }

  /** Up to the year 9999 the text is always 19 characters with the
      separators in place. */
  lemma FormatShape(t: DateTime)
    requires Valid(t) && t.year <= 9999
    ensures |Format(t)| == 19
    ensures Format(t)[4] == '-' && Format(t)[7] == '-' && Format(t)[10] == ' '
    ensures Format(t)[13] == ':' && Format(t)[16] == ':'
  {
    assert Pow10(2) == 100 && Pow10(4) == 10000;
    PaddedWidth(t.year, 4);
    PaddedWidth(t.month, 2);
    PaddedWidth(t.day, 2);
    PaddedWidth(t.hours, 2);
    PaddedWidth(t.minutes, 2);
    PaddedWidth(t.seconds, 2);
    var date := Fields(ZeroPad(t.year, 4), '-', ZeroPad(t.month, 2), '-', ZeroPad(t.day, 2));
    var time := Fields(ZeroPad(t.hours, 2), ':', ZeroPad(t.minutes, 2), ':', ZeroPad(t.seconds, 2));
    FieldsShape(ZeroPad(t.year, 4), '-', ZeroPad(t.month, 2), '-', ZeroPad(t.day, 2));
    FieldsShape(ZeroPad(t.hours, 2), ':', ZeroPad(t.minutes, 2), ':', ZeroPad(t.seconds, 2));
    SpaceJoined(date, time);
  }

  lemma SpaceJoined(date: string, time: string)
    requires |date| == 10 && date[4] == '-' && date[7] == '-'
    requires |time| == 8 && time[2] == ':' && time[5] == ':'
    ensures var s := date + " " + time;
            |s| == 19 && s[4] == '-' && s[7] == '-' && s[10] == ' ' && s[13] == ':' && s[16] == ':'
  {
  }

  /** `get_modification_time`: `secs` is the modification time in seconds
      since the epoch, `None` when the metadata cannot be read or the time is
      before the epoch. */
  function ModificationTime(secs: Option<nat>): (s: string)
    ensures secs.None? ==> s == "Unknown time"
    ensures secs.Some? ==> exists t :: Valid(t) && EpochSeconds(t) == secs.value && s == Format(t)
  {
    match secs
    case None => "Unknown time"
    case Some(n) =>
      BreakdownInverse(n);
      Format(Breakdown(n))
  }

  /** The date printed is the only calendar date that stands for the
      seconds given. */
  lemma ModificationTimeOfDate(t: DateTime)
    requires Valid(t)
    ensures ModificationTime(Some(EpochSeconds(t))) == Format(t)
  {
    BreakdownOfEpochSeconds(t);
  }

  /** The epoch itself. */
  lemma EpochStart()
    ensures Breakdown(0) == DateTime(1970, 1, 1, 0, 0, 0)
  {
  }

  /** With no leap days, the first of March 2000 comes out as 2000-03-09. */
  lemma LeapDaysDrift()
    ensures Breakdown(951868800) == DateTime(2000, 3, 9, 0, 0, 0)
  {
    var t := DateTime(2000, 3, 9, 0, 0, 0);
    assert DaysBefore(2) == 59;
    assert EpochSeconds(t) == 951868800;
    BreakdownOfEpochSeconds(t);
  }
}

=== FILE: text.dfy ===
/** String operations of Python's `str` and Rust's `str` that the tools rely on,
    written over `seq<char>`.  Case mapping and digit tests cover ASCII only;
    whitespace is Python's full `str.isspace` set. */
module Text {

  /** Python's `str.isspace` for one character. */
  predicate IsSpace(c: char) {
    var n := c as int;
    n == 32 || 9 <= n <= 13 || 28 <= n <= 31 || n == 0x85 || n == 0xA0 || n == 0x1680
    || 0x2000 <= n <= 0x200A || n == 0x2028 || n == 0x2029 || n == 0x202F
    || n == 0x205F || n == 0x3000
  }

  predicate AllSpace(s: string) {
    forall k :: 0 <= k < |s| ==> IsSpace(s[k])
  }

  /** `str.lstrip()`: drops the leading whitespace and nothing else. */
  function LStrip(s: string): (r: string)
    ensures |r| <= |s| && r == s[|s| - |r|..]
    ensures AllSpace(s[..|s| - |r|])
    ensures r == [] || !IsSpace(r[0])
  {
    if |s| > 0 && IsSpace(s[0]) then
      var r := LStrip(s[1..]);
      LStripStep(s, r);
      r
    else
      assert s[..0] == [] && s[0..] == s;
      s
  }

  lemma LStripStep(s: string, r: string)
    requires |s| > 0 && IsSpace(s[0]) && |r| < |s|
    requires r == s[1..][|s| - 1 - |r|..] && AllSpace(s[1..][..|s| - 1 - |r|])
    ensures r == s[|s| - |r|..] && AllSpace(s[..|s| - |r|])
  {
    assert s[1..][|s| - 1 - |r|..] == s[|s| - |r|..];
    var w := s[..|s| - |r|];
    forall k | 0 <= k < |w| ensures IsSpace(w[k]) {
      if k > 0 {
        assert w[k] == s[1..][..|s| - 1 - |r|][k - 1];
      }
    }
  }

  /** `str.rstrip()`: drops the trailing whitespace and nothing else. */
  function RStrip(s: string): (r: string)
    ensures |r| <= |s| && r == s[..|r|]
    ensures AllSpace(s[|r|..])
    ensures r == [] || !IsSpace(r[|r| - 1])
  {
    if |s| > 0 && IsSpace(s[|s| - 1]) then
      var r := RStrip(s[..|s| - 1]);
      RStripStep(s, r);
      r
    else
      assert s[|s|..] == [] && s[..|s|] == s;
      s
  }

  lemma RStripStep(s: string, r: string)
    requires |s| > 0 && IsSpace(s[|s| - 1]) && |r| < |s|
    requires r == s[..|s| - 1][..|r|] && AllSpace(s[..|s| - 1][|r|..])
    ensures r == s[..|r|] && AllSpace(s[|r|..])
  {
    assert s[..|s| - 1][..|r|] == s[..|r|];
    var w := s[|r|..];
    forall k | 0 <= k < |w| ensures IsSpace(w[k]) {
      if k < |w| - 1 {
        assert w[k] == s[..|s| - 1][|r|..][k];
      }
    }
  }

  /** `str.strip()`. */
  function Strip(s: string): string {
    RStrip(LStrip(s))
  }

  /** A line Python treats as blank: `not line.strip()`. */
  predicate Blank(s: string) {
    Strip(s) == []
  }

  lemma BlankIffAllSpace(s: string)
    ensures Blank(s) <==> AllSpace(s)
  {
    var l := LStrip(s);
    if Blank(s) {
      assert AllSpace(l);
      assert l == [];
      assert s[..|s|] == s;
    }
  }

  lemma StripNoOuterSpace(s: string)
    ensures Trimmed(Strip(s))
  {
    var l := LStrip(s);
    var r := RStrip(l);
    if r != [] {
      assert r[0] == l[0];
    }
  }

  /** Stripping twice changes nothing more. */
  lemma StripIdempotent(s: string)
    ensures Strip(Strip(s)) == Strip(s)
  {
    StripNoOuterSpace(s);
    TrimmedStrip(Strip(s));
  }

  lemma {:induction false} LStripSpaces(w: string, y: string)
    requires AllSpace(w)
    ensures LStrip(w + y) == LStrip(y)
    decreases |w|
  {
    if |w| > 0 {
      assert (w + y)[1..] == w[1..] + y;
      LStripSpaces(w[1..], y);
    } else {
      assert w + y == y;
    }
  }

  lemma {:induction false} RStripSpaces(y: string, w: string)
    requires AllSpace(w)
    ensures RStrip(y + w) == RStrip(y)
    decreases |w|
  {
    if |w| > 0 {
      assert (y + w)[..|y + w| - 1] == y + w[..|w| - 1];
      RStripSpaces(y, w[..|w| - 1]);
    } else {
      assert y + w == y;
    }
  }

  /** Whitespace around a word with non-space ends is exactly what `strip` removes. */
  lemma StripPadded(w1: string, x: string, w2: string)
    requires AllSpace(w1) && AllSpace(w2)
    requires |x| > 0 && !IsSpace(x[0]) && !IsSpace(x[|x| - 1])
    ensures Strip(w1 + x + w2) == x
  {
    assert w1 + x + w2 == w1 + (x + w2);
    LStripSpaces(w1, x + w2);
    assert (x + w2)[0] == x[0];
    assert LStrip(x + w2) == x + w2;
    RStripSpaces(x, w2);
    assert RStrip(x) == x;
  }

  /** A text with no whitespace at either end. */
  predicate Trimmed(s: string) {
    s == [] || (!IsSpace(s[0]) && !IsSpace(s[|s| - 1]))
  }

  /** Stripping leaves a trimmed text alone. */
  lemma TrimmedStrip(s: string)
    requires Trimmed(s)
    ensures Strip(s) == s
  {
    assert LStrip(s) == s;
    assert RStrip(s) == s;
  }

  predicate StartsWith(s: string, p: string) {
    |p| <= |s| && s[..|p|] == p
  }

  lemma StartsWithAppend(s: string, t: string)
    ensures StartsWith(s + t, s)
  {
    assert (s + t)[..|s|] == s;
  }

  predicate EndsWith(s: string, p: string) {
    |p| <= |s| && s[|s| - |p|..] == p
  }

  predicate OccursAt(s: string, p: string, i: int) {
    0 <= i && i + |p| <= |s| && s[i..i + |p|] == p
  }

  /** Python's `p in s` for strings. */
  predicate Contains(s: string, p: string) {
    exists i :: 0 <= i <= |s| && OccursAt(s, p, i)
  }

  lemma ContainsAt(s: string, p: string, i: int)
    ensures OccursAt(s, p, i) ==> Contains(s, p)
  {
  }

  /** A string is found inside any concatenation that has it as a middle part. */
  lemma ContainsMiddle(a: string, p: string, b: string)
    ensures Contains(a + p + b, p)
  {
    assert (a + p + b)[|a|..|a| + |p|] == p;
    ContainsAt(a + p + b, p, |a|);
  }

  /** An occurrence survives appending text. */
  lemma ContainsAppend(s: string, p: string, t: string)
    requires Contains(s, p)
    ensures Contains(s + t, p)
  {
    var i :| 0 <= i <= |s| && OccursAt(s, p, i);
    assert (s + t)[i..i + |p|] == s[i..i + |p|];
    ContainsAt(s + t, p, i);
  }

  /** An occurrence survives putting text on both sides. */
  lemma ContainsInside(a: string, s: string, b: string, p: string)
    requires Contains(s, p)
    ensures Contains(a + s + b, p)
  {
    var i :| 0 <= i <= |s| && OccursAt(s, p, i);
    assert (a + s + b)[|a| + i..|a| + i + |p|] == s[i..i + |p|];
    ContainsAt(a + s + b, p, |a| + i);
  }

  /** `a` is `b` with some elements left out, order kept. */
  predicate SubsequenceOf(a: seq<string>, b: seq<string>)
    decreases |b|
  {
    |a| == 0 || (|b| > 0 && if a[0] == b[0] then SubsequenceOf(a[1..], b[1..]) else SubsequenceOf(a, b[1..]))
  }

  /** Putting an element in front of `b` keeps every subsequence of `b`. */
  lemma {:induction false} SubsequenceCons(a: seq<string>, x: string, b: seq<string>)
    requires SubsequenceOf(a, b)
    ensures SubsequenceOf(a, [x] + b)
    decreases |b|, 1
  {
    if |a| > 0 && a[0] == x {
      SubsequenceDropHead(a, b);
      assert ([x] + b)[1..] == b;
    } else if |a| > 0 {
      assert ([x] + b)[1..] == b;
    }
  }

  /** Dropping the first element of a subsequence keeps it a subsequence. */
  lemma {:induction false} SubsequenceDropHead(a: seq<string>, b: seq<string>)
    requires |a| > 0 && SubsequenceOf(a, b)
    ensures SubsequenceOf(a[1..], b)
    decreases |b|, 0
  {
    if a[0] == b[0] {
      assert b == [b[0]] + b[1..];
      SubsequenceCons(a[1..], b[0], b[1..]);
    } else {
      SubsequenceDropHead(a, b[1..]);
      assert b == [b[0]] + b[1..];
      SubsequenceCons(a[1..], b[0], b[1..]);
    }
  }

  lemma ContainsSelf(p: string)
    ensures Contains(p, p)
  {
    assert p[0..|p|] == p;
    ContainsAt(p, p, 0);
  }

  /** Index of the first occurrence of `p` in `s`, or -1 (Python's `str.find`). */
  function Find(s: string, p: string): (r: int)
    ensures -1 <= r <= |s|
    ensures r >= 0 ==> OccursAt(s, p, r)
    ensures forall i :: 0 <= i < (if r < 0 then |s| + 1 else r) ==> !OccursAt(s, p, i)
    decreases |s|
  {
    if StartsWith(s, p) then 0
    else if |s| == 0 then -1
    else
      var r := Find(s[1..], p);
      OccursShift(s, p);
      if r < 0 then -1 else r + 1
  }

  /** An occurrence after the first character is an occurrence in the rest. */
  lemma OccursShift(s: string, p: string)
    requires |s| > 0
    ensures forall i :: 1 <= i <= |s| ==> (OccursAt(s, p, i) <==> OccursAt(s[1..], p, i - 1))
  {
    forall i | 1 <= i <= |s| ensures OccursAt(s, p, i) <==> OccursAt(s[1..], p, i - 1) {
      if i + |p| <= |s| {
        var a, b := s[i..i + |p|], s[1..][i - 1..i - 1 + |p|];
        assert |a| == |b| && forall t :: 0 <= t < |a| ==> a[t] == s[i + t] == b[t];
        assert a == b;
      }
    }
  }

  lemma FindIffContains(s: string, p: string)
    ensures Find(s, p) >= 0 <==> Contains(s, p)
  {
  }

  /** `str.split(c)` for a one-character separator. */
  function Split(s: string, c: char): (parts: seq<string>)
    ensures |parts| >= 1
    decreases |s|
  {
    if |s| == 0 then [[]]
    else
      var rest := Split(s[1..], c);
      if s[0] == c then [[]] + rest else [[s[0]] + rest[0]] + rest[1..]
  }

  /** `sep.join(parts)`. */
  function Join(parts: seq<string>, sep: string): string {
    if |parts| == 0 then []
    else if |parts| == 1 then parts[0]
    else parts[0] + sep + Join(parts[1..], sep)
  }

  function Count(s: string, c: char): nat {
    if |s| == 0 then 0 else (if s[0] == c then 1 else 0) + Count(s[1..], c)
  }

  /** Splitting and re-joining on the same separator gives the text back. */
  lemma {:induction false} SplitJoin(s: string, c: char)
    ensures Join(Split(s, c), [c]) == s
    decreases |s|
  {
    if |s| > 0 {
      SplitJoin(s[1..], c);
      var rest := Split(s[1..], c);
      if s[0] == c {
        assert Join([[]] + rest, [c]) == [] + [c] + Join(rest, [c]);
      } else {
        var parts := Split(s, c);
        if |rest| == 1 {
          assert Join(parts, [c]) == [s[0]] + rest[0];
        } else {
          assert parts[1..] == rest[1..];
          assert Join(parts, [c]) == [s[0]] + rest[0] + [c] + Join(rest[1..], [c]);
        }
        assert s == [s[0]] + s[1..];
      }
    }
  }

  /** No piece of a split holds the separator. */
  lemma {:induction false} SplitPiecesFree(s: string, c: char)
    ensures forall i :: 0 <= i < |Split(s, c)| ==> c !in Split(s, c)[i]
    decreases |s|
  {
    if |s| > 0 {
      SplitPiecesFree(s[1..], c);
      var rest := Split(s[1..], c);
      var parts := Split(s, c);
      if s[0] != c {
        forall i | 0 <= i < |parts| ensures c !in parts[i] {
          if i > 0 {
            assert parts[i] == rest[i];
          } else {
            assert c !in rest[0];
          }
        }
      }
    }
  }

  /** A split has one more piece than there are separators. */
  lemma {:induction false} SplitCount(s: string, c: char)
    ensures |Split(s, c)| == Count(s, c) + 1
    decreases |s|
  {
    if |s| > 0 {
      SplitCount(s[1..], c);
    }
  }

  /** A text free of the separator splits into itself alone. */
  lemma {:induction false} SplitNoSep(x: string, c: char)
    requires c !in x
    ensures Split(x, c) == [x]
    decreases |x|
  {
    if |x| > 0 {
      SplitNoSep(x[1..], c);
      assert [x[0]] + x[1..] == x;
    }
  }

  /** Every piece's characters appear in the joined text. */
  lemma {:induction false} JoinHoldsPiece(parts: seq<string>, sep: string, i: nat)
    requires i < |parts|
    ensures forall ch :: ch in parts[i] ==> ch in Join(parts, sep)
  {
    if |parts| > 1 {
      if i > 0 {
        JoinHoldsPiece(parts[1..], sep, i - 1);
      }
    }
  }

  /** Every character of a piece of a split comes from the text. */
  lemma SplitPieceChars(s: string, c: char, i: nat)
    requires i < |Split(s, c)|
    ensures forall ch :: ch in Split(s, c)[i] ==> ch in s
  {
    SplitJoin(s, c);
    JoinHoldsPiece(Split(s, c), [c], i);
  }

  /** Stripping only removes characters. */
  lemma StripChars(s: string)
    ensures forall ch :: ch in Strip(s) ==> ch in s
  {
    var l := LStrip(s);
    assert forall ch :: ch in RStrip(l) ==> ch in l;
    assert forall ch :: ch in l ==> ch in s;
  }

  /** Splitting `x c y` with `c` not in `x` yields `x` followed by the pieces of `y`. */
  lemma {:induction false} SplitConcat(x: string, c: char, y: string)
    requires c !in x
    ensures Split(x + [c] + y, c) == [x] + Split(y, c)
    decreases |x|
  {
    if |x| > 0 {
      SplitConcat(x[1..], c, y);
      assert (x + [c] + y)[1..] == x[1..] + [c] + y;
      assert [x[0]] + x[1..] == x;
    } else {
      assert x + [c] + y == [c] + y;
      assert ([c] + y)[1..] == y;
    }
  }

  /** A separator in the text means at least two pieces. */
  lemma {:induction false} CountPositive(s: string, c: char)
    ensures c in s ==> Count(s, c) > 0
    decreases |s|
  {
    if |s| > 0 && s[0] != c {
      CountPositive(s[1..], c);
      assert c in s ==> c in s[1..];
    }
  }

  /** Number of `c`-separated fields of `s`, i.e. `len(s.split(c))`. */
  function FieldCount(s: string, c: char): (n: nat)
    ensures n == |Split(s, c)|
    ensures n == Count(s, c) + 1
  {
    SplitCount(s, c);
    |Split(s, c)|
  }

  /** `s.split(c, 1)` when `c in s`: the text before and after the first `c`. */
  function SplitFirst(s: string, c: char): (r: (string, string))
    requires c in s
    ensures s == r.0 + [c] + r.1
    ensures c !in r.0
  {
    var i := Find(s, [c]);
    FindIffContains(s, [c]);
    var k :| 0 <= k < |s| && s[k] == c;
    assert OccursAt(s, [c], k);
    assert s[i..i + 1] == [c];
    assert forall j :: 0 <= j < i ==> s[j] != c by {
      forall j | 0 <= j < i ensures s[j] != c {
        assert !OccursAt(s, [c], j);
        assert s[j..j + 1] == [s[j]];
      }
    }
    assert s == s[..i] + [c] + s[i + 1..];
    (s[..i], s[i + 1..])
  }

  /** The first separator is where any separator-free prefix ends. */
  lemma SplitFirstUnique(s: string, c: char, x: string, y: string)
    requires s == x + [c] + y && c !in x
    ensures c in s && SplitFirst(s, c) == (x, y)
  {
    assert s[|x|] == c;
    var r := SplitFirst(s, c);
    assert |r.0| == |x|;
    assert r.0 == s[..|x|] == x;
    assert r.1 == s[|x| + 1..] == y;
  }

  /** Python's `s[:n]`. */
  function Take(s: string, n: nat): (r: string)
    ensures |r| <= n && |r| <= |s|
    ensures r == s[..|r|]
    ensures |s| <= n ==> r == s
    ensures |s| > n ==> |r| == n
  {
    if |s| <= n then s else s[..n]
  }

  /** Python's `str.replace(p, r)`: every leftmost non-overlapping occurrence of
      `p` is replaced; an empty `p` inserts `r` around every character. */
  function ReplaceAll(s: string, p: string, r: string): string
    decreases |s|
  {
    if |p| == 0 then
      (if |s| == 0 then r else r + [s[0]] + ReplaceAll(s[1..], p, r))
    else if StartsWith(s, p) then r + ReplaceAll(s[|p|..], p, r)
    else if |s| == 0 then []
    else [s[0]] + ReplaceAll(s[1..], p, r)
  }

  /** Where the pattern does not occur, replacing it changes nothing. */
  lemma {:induction false} ReplaceAbsent(s: string, p: string, r: string)
    requires |p| > 0 && !Contains(s, p)
    ensures ReplaceAll(s, p, r) == s
    decreases |s|
  {
    if |s| > 0 {
      assert !OccursAt(s, p, 0);
      if !Contains(s[1..], p) {
        ReplaceAbsent(s[1..], p, r);
      } else {
        var i :| 0 <= i <= |s[1..]| && OccursAt(s[1..], p, i);
        assert s[1..][i..i + |p|] == s[i + 1..i + 1 + |p|];
        assert OccursAt(s, p, i + 1);
        assert false;
      }
    }
  }

  lemma HeadOfPrefix(t: string, w: string)
    ensures StartsWith(t, w) && |w| > 0 ==> t[0] == w[0] && w[0] in w
  {
    if StartsWith(t, w) && |w| > 0 {
      assert t[..|w|][0] == w[0];
    }
  }

  /** A prefix of a replacement result that avoids the replacement's first
      character was copied unchanged from the input. */
  lemma {:induction false} HeadUnchanged(s: string, p: string, r: string, w: string)
    requires |p| > 0 && |r| > 0
    requires r[0] !in w
    requires StartsWith(ReplaceAll(s, p, r), w)
    ensures StartsWith(s, w)
    decreases |s|
  {
    var t := ReplaceAll(s, p, r);
    if |w| > 0 {
      if StartsWith(s, p) {
        HeadOfPrefix(t, w);
        HeadOfPrefix(t, r);
        assert false;
      } else if |s| > 0 {
        var t' := ReplaceAll(s[1..], p, r);
        assert t == [s[0]] + t';
        assert w[1..] == t'[..|w| - 1];
        HeadUnchanged(s[1..], p, r, w[1..]);
        assert s[..|w|] == [s[0]] + s[1..][..|w| - 1];
      }
    }
  }

  /** Facts about an occurrence inside a concatenation, stated without
      preconditions so that they can be used on any path. */
  lemma ConcatOccurs(a: string, b: string, p: string, i: int)
    ensures OccursAt(a + b, p, i) && i >= |a| ==> OccursAt(b, p, i - |a|)
    ensures OccursAt(a + b, p, i) && i < |a| && |p| > 0 ==> a[i] == p[0]
    ensures OccursAt(a + b, p, i) && i == 0 && |p| <= |a| ==> a[..|p|] == p
    ensures OccursAt(a + b, p, i) && i == 0 && |a| == 1 && |p| > 0 ==> StartsWith(b, p[1..])
    ensures 0 < i < |a| ==> a[i] in a[1..]
  {
    if OccursAt(a + b, p, i) && i >= |a| {
      OccursInSuffix(a, b, p, i);
    }
    if OccursAt(a + b, p, i) && i < |a| && |p| > 0 {
      assert (a + b)[i..i + |p|][0] == a[i];
    }
    if OccursAt(a + b, p, i) && i == 0 && |p| <= |a| {
      assert (a + b)[..|p|] == a[..|p|];
    }
    if OccursAt(a + b, p, i) && i == 0 && |a| == 1 && |p| > 0 {
      assert b[..|p| - 1] == (a + b)[1..|p|];
    }
    if 0 < i < |a| {
      assert a[1..][i - 1] == a[i];
    }
  }

  lemma OccursInSuffix(a: string, b: string, p: string, i: int)
    requires |a| <= i && i + |p| <= |a + b|
    ensures (a + b)[i..i + |p|] == b[i - |a|..i - |a| + |p|]
  {
    assert (a + b)[|a|..] == b;
    assert (a + b)[i..i + |p|] == (a + b)[|a|..][i - |a|..i - |a| + |p|];
  }

  lemma ConsStartsWith(s: string, p: string)
    ensures |s| > 0 && |p| > 0 && s[0] == p[0] && StartsWith(s[1..], p[1..]) ==> StartsWith(s, p)
  {
    if |s| > 0 && |p| > 0 && s[0] == p[0] && StartsWith(s[1..], p[1..]) {
      assert s[..|p|] == [s[0]] + s[1..][..|p| - 1];
    }
  }

  /** After `s.replace(p, r)` no `p` is left, provided `r` starts like `p`, the
      head character of `p` occurs nowhere else in `p` or `r`, and `r` does not
      itself start with `p`. */
  lemma {:induction false} ReplaceLeavesNone(s: string, p: string, r: string)
    requires |p| > 0 && |r| >= |p| && r[0] == p[0]
    requires p[0] !in p[1..] && p[0] !in r[1..]
    requires r[..|p|] != p
    ensures !Contains(ReplaceAll(s, p, r), p)
    decreases |s|
  {
    var t := ReplaceAll(s, p, r);
    if StartsWith(s, p) {
      var t' := ReplaceAll(s[|p|..], p, r);
      ReplaceLeavesNone(s[|p|..], p, r);
      assert t == r + t';
      forall i | 0 <= i <= |t| ensures !OccursAt(t, p, i) {
        ConcatOccurs(r, t', p, i);
      }
    } else if |s| > 0 {
      var t' := ReplaceAll(s[1..], p, r);
      ReplaceLeavesNone(s[1..], p, r);
      assert t == [s[0]] + t';
      forall i | 0 <= i <= |t| ensures !OccursAt(t, p, i) {
        ConcatOccurs([s[0]], t', p, i);
        if i == 0 && OccursAt(t, p, 0) {
          HeadUnchanged(s[1..], p, r, p[1..]);
          ConsStartsWith(s, p);
        }
      }
    }
  }

  /** Replacing `p` by `r` cannot create an occurrence of an unrelated pattern
      `q` when neither string shares a head character with the other. */
  lemma {:induction false} ReplaceKeepsAbsent(s: string, p: string, r: string, q: string)
    requires |p| > 0 && |r| > 0 && |q| > 0
    requires q[0] !in r && r[0] !in q
    requires !Contains(s, q)
    ensures !Contains(ReplaceAll(s, p, r), q)
    decreases |s|
  {
    var t := ReplaceAll(s, p, r);
    if StartsWith(s, p) {
      var t' := ReplaceAll(s[|p|..], p, r);
      NoOccurrenceInSuffix(s, q, |p|);
      ReplaceKeepsAbsent(s[|p|..], p, r, q);
      assert t == r + t';
      forall i | 0 <= i <= |t| ensures !OccursAt(t, q, i) {
        ConcatOccurs(r, t', q, i);
      }
    } else if |s| > 0 {
      var t' := ReplaceAll(s[1..], p, r);
      NoOccurrenceInSuffix(s, q, 1);
      ReplaceKeepsAbsent(s[1..], p, r, q);
      assert t == [s[0]] + t';
      forall i | 0 <= i <= |t| ensures !OccursAt(t, q, i) {
        ConcatOccurs([s[0]], t', q, i);
        if i == 0 && OccursAt(t, q, 0) {
          assert r[0] !in q[1..];
          HeadUnchanged(s[1..], p, r, q[1..]);
          ConsStartsWith(s, q);
          ContainsAt(s, q, 0);
        }
      }
    }
  }

  lemma NoOccurrenceInSuffix(s: string, q: string, k: nat)
    requires k <= |s| && !Contains(s, q)
    ensures !Contains(s[k..], q)
  {
    forall i | 0 <= i <= |s[k..]| ensures !OccursAt(s[k..], q, i) {
      if OccursAt(s[k..], q, i) {
        assert s[k..][i..i + |q|] == s[k + i..k + i + |q|];
        assert OccursAt(s, q, k + i);
      }
    }
  }

  /** Text free of the pattern's first character is copied ahead of whatever
      the rest becomes. */
  lemma {:induction false} ReplaceAfterFree(a: string, s: string, p: string, r: string)
    requires |p| > 0 && p[0] !in a
    ensures ReplaceAll(a + s, p, r) == a + ReplaceAll(s, p, r)
    decreases |a|
  {
    if |a| > 0 {
      assert !StartsWith(a + s, p) by {
        assert (a + s)[0] == a[0];
      }
      assert (a + s)[1..] == a[1..] + s;
      ReplaceAfterFree(a[1..], s, p, r);
    } else {
      assert a + s == s;
    }
  }

  /** An occurrence at the start is replaced, and the rest follows. */
  lemma ReplaceAtStart(p: string, s: string, r: string)
    requires |p| > 0
    ensures ReplaceAll(p + s, p, r) == r + ReplaceAll(s, p, r)
  {
    assert StartsWith(p + s, p) && (p + s)[|p|..] == s;
  }

  predicate IsAsciiUpper(c: char) { 'A' <= c <= 'Z' }
  predicate IsAsciiLower(c: char) { 'a' <= c <= 'z' }
  predicate IsAsciiLetter(c: char) { IsAsciiUpper(c) || IsAsciiLower(c) }
  predicate IsDigit(c: char) { '0' <= c <= '9' }

  function LowerChar(c: char): (r: char)
    ensures !IsAsciiUpper(r)
    ensures !IsAsciiUpper(c) ==> r == c
  {
    if IsAsciiUpper(c) then (c as int + 32) as char else c
  }

  function UpperChar(c: char): (r: char)
    ensures !IsAsciiLower(r)
    ensures !IsAsciiLower(c) ==> r == c
  {
    if IsAsciiLower(c) then (c as int - 32) as char else c
  }

  /** `str.lower()` on the ASCII range. */
  function Lower(s: string): (r: string)
    ensures |r| == |s|
    ensures forall i :: 0 <= i < |s| ==> r[i] == LowerChar(s[i])
  {
    if |s| == 0 then [] else [LowerChar(s[0])] + Lower(s[1..])
  }

  /** `str.upper()` on the ASCII range. */
  function Upper(s: string): (r: string)
    ensures |r| == |s|
    ensures forall i :: 0 <= i < |s| ==> r[i] == UpperChar(s[i])
  {
    if |s| == 0 then [] else [UpperChar(s[0])] + Upper(s[1..])
  }

  lemma LowerIdempotent(s: string)
    ensures Lower(Lower(s)) == Lower(s)
  {
  }

  /** `str.capitalize()`: first character upper-cased, the rest lower-cased. */
  function Capitalize(s: string): (r: string)
    ensures |r| == |s|
    ensures |s| > 0 ==> r[0] == UpperChar(s[0]) && r[1..] == Lower(s[1..])
  {
    if |s| == 0 then [] else [UpperChar(s[0])] + Lower(s[1..])
  }

  predicate AllDigits(s: string) {
    forall k :: 0 <= k < |s| ==> IsDigit(s[k])
  }

  /** Decimal value of a digit string, leading zeros allowed (`int(s)`). */
  function DigitsValue(s: string): nat
    requires AllDigits(s)
  {
    if |s| == 0 then 0 else DigitsValue(s[..|s| - 1]) * 10 + (s[|s| - 1] as int - '0' as int)
  }

  /** Python's `str.isdigit()` restricted to ASCII: non-empty and all digits. */
  predicate IsDigitString(s: string) {
    |s| > 0 && AllDigits(s)
  }

  /** Decimal rendering of a natural number, no leading zeros. */
  function Decimal(n: nat): (r: string)
    ensures |r| > 0 && AllDigits(r)
    ensures DigitsValue(r) == n
    decreases n
  {
    var d := [(('0' as int) + n % 10) as char];
    if n < 10 then d
    else
      var r := Decimal(n / 10) + d;
      assert r[..|r| - 1] == Decimal(n / 10);
      r
  }

  /** `format!("{:0w}", n)`: zero-padded on the left to at least `w` digits. */
  function ZeroPad(n: nat, w: nat): (r: string)
    ensures |r| >= w && AllDigits(r)
    ensures |Decimal(n)| >= w ==> r == Decimal(n)
  {
    var d := Decimal(n);
    if |d| >= w then d else seq(w - |d|, _ => '0') + d
  }

  /** Last path component: the text after the final `/` (`os.path.basename`). */
  function Basename(p: string): (r: string)
    ensures '/' !in r
    ensures EndsWith(p, r)
    ensures |r| < |p| ==> p[|p| - |r| - 1] == '/'
  {
    if |p| == 0 then []
    else if p[|p| - 1] == '/' then []
    else
      var b := Basename(p[..|p| - 1]);
      assert p[..|p| - 1][|p| - 1 - |b|..] == p[|p| - 1 - |b|..|p| - 1];
      b + [p[|p| - 1]]
  }

  /** The last component of `dir/name` is `name`. */
  lemma {:induction false} BasenameOfJoin(dir: string, name: string)
    requires '/' !in name
    ensures Basename(dir + "/" + name) == name
  {
    var p := dir + "/" + name;
    if |name| > 0 {
      var init := name[..|name| - 1];
      assert p[..|p| - 1] == dir + "/" + init;
      BasenameOfJoin(dir, init);
      assert name == init + [name[|name| - 1]];
    }
  }
}
